=== FILE: README.md ===
# GroceryStore in Dafny

A model of the core of GroceryStore, a small grocery shop manager. It has a
React client (cart and product stores, the Sales, Reports, Inventory,
Register and profile pages) and an Express/Mongoose server (product and
account handlers, request validation, the `AppError` class). Every handler
and reducer is a pure function here. Collections are sequences or maps, a
network reply is a parameter, and an HTTP response is a status code with a
body.

Modules, one per source file, plus three shared ones:

| module | file | models |
|---|---|---|
| `Options` | options.dfy | `Option` (JavaScript `null`/`undefined`) and `Result` |
| `Folds` | folds.dfy | `reduce` sums, `filter`, counting, uniqueness by key |
| `JsText` | js_text.dfy | `trim`, `\s`, decimal `parseInt`, `${n}` |
| `Sorting` | sorting.dfy | `sort((a, b) => w(b) - w(a))` as a stable descending sort |
| `Records` | records.dfy | the product, sale and sale-line records the client passes around |
| `StoreContext` | store_context.dfy | client/src/context/StoreContext.jsx |
| `ProductContext` | product_context.dfy | client/src/context/ProductContext.jsx |
| `Sales` | sales.dfy | client/src/pages/Sales.jsx |
| `Reports` | reports.dfy | client/src/pages/Reports.jsx |
| `Inventory` | inventory.dfy | client/src/pages/Inventory.jsx |
| `UserProfile` | user_profile.dfy | client/src/pages/UserProfile.jsx |
| `Register` | register.dfy | client/src/pages/Register.jsx |
| `UserValidation` | user_validation.dfy | server/src/validations/userValidation.js |
| `ProductController` | product_controller.dfy | server/src/controllers/productController.js |
| `UserController` | user_controller.dfy | server/src/controllers/userController.js with server/src/models/User.js |
| `AppErrors` | app_error.dfy | `AppError` in server/src/utils/catchAsync.js |

Conventions:
- Money is integer cents and quantities are integers.
- A date is an integer timestamp. The month label of a timestamp is a function parameter (`monthOf`).
- A plain object used as an accumulator is a sequence of (key, amount) entries in `Object.keys` order.
- Things the code cannot decide by itself are parameters:
  - the new document's `_id`;
  - whether the product schema accepts a document;
  - bcrypt's hash and comparison;
  - Joi's `email()` and `date()` tests;
  - the clock.

Where the code and its documentation disagree, the model follows the code:
- The delete handler refuses role "user", a role the user schema never admits.
- Sales are grouped by month label alone, so the same month of different years shares one row.
- The validation schemas exist, but no route applies them.

## Model

| member | source | states |
|---|---|---|
| StoreContext.CartAdd | client/src/context/StoreContext.jsx:23-40 | a product already in the cart keeps the length and gets its quantity raised by one; a new product is appended with quantity 1 and nothing else changes |
| StoreContext.CartRemove | client/src/context/StoreContext.jsx:41-45 | no line with the id remains; every other line stays and nothing is added; an absent id leaves the cart unchanged |
| StoreContext.CartUpdate | client/src/context/StoreContext.jsx:46-54 | same length; lines with the id get the new quantity, all others are unchanged |
| StoreContext.Reduce | client/src/context/StoreContext.jsx:19-62 | each action changes only its own part of the state; ADD_TO_CART, REMOVE_FROM_CART and UPDATE_CART_ITEM apply `CartAdd`, `CartRemove` and `CartUpdate` to the cart; CLEAR_CART empties it; an unknown action changes nothing |
| StoreContext.AddToCartGuarded | client/src/context/StoreContext.jsx:71-77 | positive stock adds to the cart and keeps the error; otherwise the cart is unchanged and the error is "Product is out of stock" |
| StoreContext.ReduceKeepsUnique | client/src/context/StoreContext.jsx:19-62 | every action keeps cart lines unique by product id |
| StoreContext.CartAddKeepsUnique | client/src/context/StoreContext.jsx:23-40 | adding keeps cart lines unique by id |
| StoreContext.CartRemoveKeepsUnique | client/src/context/StoreContext.jsx:41-45 | removing keeps cart lines unique by id |
| StoreContext.CartAddChangesOne | client/src/context/StoreContext.jsx:27-35 | with unique ids, adding a present product changes exactly the one line carrying its id |
| StoreContext.CartAddCount | client/src/context/StoreContext.jsx:99-102 | adding any product raises `cartItemsCount` by exactly one |
| StoreContext.CartAddTotal | client/src/context/StoreContext.jsx:94-97 | adding raises `cartTotal` by one unit price: the stored line's price if present, else the product's |
| StoreContext.CartRemoveCount | client/src/context/StoreContext.jsx:99-102 | removing lowers `cartItemsCount` by the removed product's quantity |
| StoreContext.CartRemoveKeepsOrder | client/src/context/StoreContext.jsx:41-45 | removal distributes over concatenation, so surviving lines keep their order |
| ProductContext.ReplaceById | client/src/context/ProductContext.jsx:30-36 | same length; every product with the payload's id becomes the payload, others are unchanged |
| ProductContext.ReplaceByIdProperties | client/src/context/ProductContext.jsx:30-36 | replacing an absent id changes nothing; replacing twice is replacing once |
| ProductContext.RemoveById | client/src/context/ProductContext.jsx:37-43 | no product with the id remains, all others do, nothing new appears |
| ProductContext.RemoveByIdKeepsOrder | client/src/context/ProductContext.jsx:37-43 | removal distributes over concatenation; an absent id changes nothing |
| ProductContext.Reduce | client/src/context/ProductContext.jsx:20-47 | each action changes only its own field; ADD_PRODUCT appends; an unknown action changes nothing |
| ProductContext.AddThenDeleteRestores | client/src/context/ProductContext.jsx:28-43 | adding a product with a new id and then deleting that id restores the list |
| ProductContext.Bracketed | client/src/context/ProductContext.jsx:75-87 | an action wrapped in loading true/false leaves loading off and has that action's effect on products and error |
| ProductContext.FetchProducts | client/src/context/ProductContext.jsx:63-73 | a reply replaces the list; a failure keeps it and records the message; loading ends off |
| ProductContext.AddProductOp | client/src/context/ProductContext.jsx:75-87 | a reply appends the returned product and returns it; a failure records the message and rethrows |
| ProductContext.UpdateProductOp | client/src/context/ProductContext.jsx:89-104 | a reply replaces by id and returns the product; a failure records the message and rethrows |
| ProductContext.DeleteProductOp | client/src/context/ProductContext.jsx:106-117 | a reply removes the id; a failure keeps the list, records the message and rethrows |
| Sales.FindProduct | client/src/pages/Sales.jsx:16-17 | finds a product with the id, or reports that none has it |
| Sales.FindItemIndex | client/src/pages/Sales.jsx:26-28 | the first line with the product id, or none |
| Sales.AddItem | client/src/pages/Sales.jsx:13-55 | the modal changes exactly when the selection names a known product whose stock covers the requested quantity and, for a product already listed, the merged quantity; a merge raises only that line by the requested quantity, a new line copies `_id`, name and price, and either resets selection and quantity |
| Sales.AddItemKeepsInvariant | client/src/pages/Sales.jsx:13-55 | adding keeps lines unique by product with positive quantities |
| Sales.AddItemWithinStock | client/src/pages/Sales.jsx:20-35 | after an add, the product's line holds at least the requested quantity and at most its stock |
| Sales.AddItemTotals | client/src/pages/Sales.jsx:30-50 | an add raises the sale total by unit price times quantity and the unit count by the quantity |
| Sales.MergeTotals | client/src/pages/Sales.jsx:31-38 | raising one line's quantity by q raises the total by price times q |
| Sales.ItemIndexUnique | client/src/pages/Sales.jsx:26-28 | in lines unique by product, the line carrying the id is the one `findIndex` finds |
| Sales.RemoveItem | client/src/pages/Sales.jsx:57-59 | the product's lines are gone, every other line stays, selection and quantity are kept |
| Sales.RemoveItemKeepsOrder | client/src/pages/Sales.jsx:57-59 | removal distributes over concatenation, so the surviving lines keep their order |
| Sales.RemoveItemKeepsInvariant | client/src/pages/Sales.jsx:57-59 | removing keeps the modal's invariant |
| Sales.QuantityInput | client/src/pages/Sales.jsx:104-107 | the quantity becomes the parsed value exactly when it is a positive integer, else stays |
| Sales.QuantityInputKeepsInvariant | client/src/pages/Sales.jsx:104-107 | typing a quantity keeps the modal's invariant |
| Sales.Submit | client/src/pages/Sales.jsx:61-76 | no lines sends nothing; otherwise it sends the lines, their total and the clock reading, and empties the lines |
| Sales.SubmitTotalNonNegative | client/src/pages/Sales.jsx:61-71 | with non-negative prices and positive quantities the submitted total is non-negative |
| Sales.Stats | client/src/pages/Sales.jsx:206-212 | the sales total, the count, and an average that times the count is the total (0 when there are none) |
| Reports.FilteredSales | client/src/pages/Reports.jsx:35-43 | exactly the sales dated within the range, both ends included |
| Reports.FilteredSalesAppend | client/src/pages/Reports.jsx:35-43 | filtering keeps the sales' order |
| Reports.FilteredSalesIdempotent | client/src/pages/Reports.jsx:35-43 | filtering twice is filtering once |
| Reports.FirstSeenSnoc | client/src/pages/Reports.jsx:49-57 | appending a pair moves no key's first position, and a new key is first seen at the end |
| Reports.TallyFirstSeen | client/src/pages/Reports.jsx:73-79 | the accumulator lists its keys in order of first occurrence, the insertion order `Object.keys` gives |
| Reports.TallySpec | client/src/pages/Reports.jsx:49-57 | the `(acc[k] \|\| 0) + v` accumulator has unique keys, exactly the keys seen, each key's total, and the grand total |
| Reports.SalesReport | client/src/pages/Reports.jsx:46-58 | one row per month label of the filtered sales, each that month's sum, all rows adding up to "Total Sales" |
| Reports.InventoryReport | client/src/pages/Reports.jsx:61-67 | one row per product, a permutation of the rows, most valuable first, summing to the total value |
| Reports.InventoryReportHead | client/src/pages/Reports.jsx:61-67 | the first row is the first product of greatest stock value |
| Reports.InventoryRowsSum | client/src/pages/Reports.jsx:126-129 | the rows' values add up to the sum of quantity times price |
| Reports.UnitsByName | client/src/pages/Reports.jsx:70-77 | one entry per name sold, carrying that name's units over all sales, adding up to all units |
| Reports.ProductPerformance | client/src/pages/Reports.jsx:70-85 | the per-name entries reordered, best sellers first, unique names, adding up to "Total Units Sold" |
| Reports.TopProductSpec | client/src/pages/Reports.jsx:70-84 | the top seller has the most units and, among names tied on units, is the one sold first; "N/A" when nothing sold or the name is empty (the `[0]?.name \|\| 'N/A'` of line 150) |
| Sorting.SortDesc | client/src/pages/Reports.jsx:66 | a permutation, sorted by descending weight |
| Sorting.SortDescHead | client/src/pages/Reports.jsx:84 | the first element is the earliest one of maximal weight (the sort is stable) |
| Sorting.SortDescSum | client/src/pages/Reports.jsx:126-129 | sorting keeps any sum |
| Inventory.Status | client/src/pages/Inventory.jsx:170-176 | "Out of Stock" exactly for 0, "Low Stock" exactly for other values below 10, "In Stock" from 10 |
| Inventory.ParseNumber | client/src/pages/Inventory.jsx:97 | `parseInt` of a number's own text is that number (for the integers the model admits, see "## Left out") |
| Inventory.TotalStock | client/src/pages/Inventory.jsx:97 | the `parseInt` reduce equals the sum of quantities |
| Inventory.ReduceStep | client/src/pages/Inventory.jsx:97 | one step of the reduce, `parseInt` of the running sum plus `parseInt` of the quantity, adds the quantity |
| Inventory.Stats | client/src/pages/Inventory.jsx:94-101 | product count, total stock, low and out-of-stock counts, with out ≤ low ≤ count |
| Inventory.StatusCounts | client/src/pages/Inventory.jsx:99-100 | "low stock" counts the out-of-stock rows too; the three labels split the products |
| Inventory.AdjustArgs | client/src/pages/Inventory.jsx:21-24 | the product's id, `NaN` exactly when the text has no leading digits, and "add" or "remove" |
| Inventory.AdjustArgsQuantity | client/src/pages/Inventory.jsx:21-24 | a quantity typed as n reaches the callback as n (for the integers the model admits, see "## Left out") |
| JsText.ParseIntRoundTrip | client/src/pages/Inventory.jsx:97 | `parseInt` of an integer's decimal text gives the integer back |
| JsText.TrimIdempotent | client/src/pages/Register.jsx:61-62 | trimming twice is trimming once |
| UserProfile.SetProfile | client/src/pages/UserProfile.jsx:53-56 | the named field takes the value, all others and the role are kept |
| UserProfile.ClearError | client/src/pages/UserProfile.jsx:58-64 | the field's error becomes falsy, every other error is kept |
| UserProfile.ProfileChange | client/src/pages/UserProfile.jsx:51-65 | sets one profile field, clears only its error, leaves the password form alone |
| UserProfile.PasswordChange | client/src/pages/UserProfile.jsx:68-82 | sets one password field, clears only its error, leaves the profile form alone |
| UserProfile.ProfileChangeTwice | client/src/pages/UserProfile.jsx:51-65 | editing a field twice is the same as editing it once with the last value |
| UserProfile.EmailMatchesPattern | client/src/pages/UserProfile.jsx:99 | the matcher accepts exactly plain-part `@` plain-part `.` plain-part |
| UserProfile.EmailNotBlank | client/src/pages/UserProfile.jsx:99-104 | an address the pattern accepts is never blank |
| UserProfile.ProfileErrors | client/src/pages/UserProfile.jsx:85-114 | an error exactly for blank names, a blank or malformed email (with the right message), and a non-empty phone that is not ten digits |
| UserProfile.ValidateProfile | client/src/pages/UserProfile.jsx:85-114 | the shared errors are replaced, and the form passes iff there are none |
| UserProfile.ValidateProfileAccepts | client/src/pages/UserProfile.jsx:85-114 | the form passes iff the names are non-blank, the email matches the pattern and the phone is empty or ten digits |
| UserProfile.PasswordErrors | client/src/pages/UserProfile.jsx:117-139 | errors exactly for an empty current password, a new one under 6 characters, and a mismatched confirmation |
| UserProfile.PasswordSubmit | client/src/pages/UserProfile.jsx:157-176 | the errors are replaced; the fields are reset exactly when there were none |
| UserProfile.PasswordSubmitAccepts | client/src/pages/UserProfile.jsx:157-176 | a change goes through iff the current password is given, the new one has 6+ characters and is confirmed |
| Register.HandleChange | client/src/pages/Register.jsx:21-30 | one field takes the value, the others are kept, the error is cleared |
| Register.Payload | client/src/pages/Register.jsx:51-63 | required fields and role verbatim; the phone trimmed and present exactly when not blank |
| Register.HandleSubmit | client/src/pages/Register.jsx:33-66 | nothing is sent exactly when a required field is empty (and the error says so); otherwise loading starts and the payload is sent |
| Register.RegisterFailed | client/src/pages/Register.jsx:70-74 | the server's message when it sent one, else "Registration failed"; loading ends |
| Register.PayloadPhoneTrimmed | client/src/pages/Register.jsx:60-63 | a sent phone is non-empty and already trimmed |
| Register.FixThenSubmit | client/src/pages/Register.jsx:21-49 | after a refused submit, typing clears the error, and filling the last empty field lets the next submit send |
| UserValidation.CheckStringAccepts | server/src/validations/userValidation.js:4-45 | a string rule passes iff the key is absent and optional, or a non-empty string within the bounds and of the right shape |
| UserValidation.ConfirmationAccepts | server/src/validations/userValidation.js:47-53 | the confirmation passes iff it is a string equal to the password |
| UserValidation.RoleAccepts | server/src/validations/userValidation.js:55-57 | the role passes iff absent or one of staff, manager, admin |
| UserValidation.FirstFailure | server/src/validations/userValidation.js:3-58 | no failure iff every check passes; otherwise the first failing key and its reason |
| UserValidation.FirstFailureAt | server/src/validations/userValidation.js:3-58 | the reported key is the first one in schema order that fails |
| UserValidation.Verdict | server/src/validations/userValidation.js:3-58 | acceptance iff all checks pass and there are no unknown keys; unknown keys are reported only after every check passes |
| UserValidation.ValidateRegister | server/src/validations/userValidation.js:3-58 | accepted iff the key-by-key description holds; the value keeps the fields, defaults the role to "staff", and the role is in the enum |
| UserValidation.RegisterMismatchRejected | server/src/validations/userValidation.js:47-53 | an accepted body with a changed confirmation is rejected on `confirmPassword` |
| UserValidation.ValidateLogin | server/src/validations/userValidation.js:60-74 | accepted iff an e-mail, a non-empty password and no other keys |
| UserValidation.ValidateUpdate | server/src/validations/userValidation.js:76-100 | accepted iff every present key meets its rule and no other keys |
| UserValidation.EmptyUpdateAccepted | server/src/validations/userValidation.js:76-100 | the empty update passes |
| ProductController.CreateProduct | server/src/controllers/productController.js:4-27 | a rejected or colliding document is a 500 and stores nothing; otherwise 201 with the document stored under its id, the caller as creator, other ids untouched |
| ProductController.GetProduct | server/src/controllers/productController.js:45-61 | 404 exactly for an unknown id, otherwise 200 with the stored document |
| ProductController.Patch | server/src/controllers/productController.js:79-83 | fields sent replace the stored ones, absent ones are kept, the creator never changes |
| ProductController.UpdateProduct | server/src/controllers/productController.js:64-92 | 404 before 403; 403 unless creator or admin; otherwise the patch at that id only; ids never change |
| ProductController.DeleteProduct | server/src/controllers/productController.js:95-119 | role "user" is refused before the lookup; then 404 or removal of that id only |
| ProductController.GetAfterCreate | server/src/controllers/productController.js:8-20 | a created product is fetched back with the caller as creator |
| ProductController.GetAfterUpdate | server/src/controllers/productController.js:79-85 | a fetch after an authorised update returns the patched document; repeating the update changes nothing |
| ProductController.GetAfterDelete | server/src/controllers/productController.js:102-105 | after a permitted delete, a fetch is a 404 |
| ProductController.CreateThenDelete | server/src/controllers/productController.js:95-111 | creating and then deleting a product restores the collection |
| ProductController.DeleteNeverForbiddenForAccountRoles | server/src/controllers/productController.js:98 | no role the user schema admits is ever refused a delete |
| UserController.FindByEmail | server/src/controllers/userController.js:31 | a match carries the email sent; none exactly when no user has it |
| UserController.CastPhone | server/src/controllers/userController.js:43 | an absent, null or empty phone is null; another string is trimmed; a truthy non-string throws |
| UserController.CastRole | server/src/controllers/userController.js:42 | an absent, null or empty role becomes "staff"; another string is kept |
| UserController.RequiredTrimmed | server/src/models/User.js:5-14 | a required trimmed path accepts exactly a string that is not all white space, stored trimmed |
| UserController.NewUser | server/src/controllers/userController.js:37-47 | a document exists iff every path validates; it keeps the trimmed names, the email, the hashed password, an enum role and the trimmed phone |
| UserController.Conflict | server/src/controllers/userController.js:68-74 | "_id" iff the id is taken; no conflict iff neither id nor phone clashes |
| UserController.RegisterWith | server/src/controllers/userController.js:18-81 | a taken email is a 400 first; a bad body a 500; a 201 exactly when the email is new, the body valid and no index clashes; only a 201 appends, with a reply that omits the password |
| UserController.RegisterAsWritten | server/src/controllers/userController.js:18-81 | a stored user's phone, null included, differs from every earlier user's |
| UserController.Register | server/src/controllers/userController.js:18-81 | a stored phone number is unique, and a valid phoneless registration with a new email and id always succeeds |
| UserController.RegisterKeepsUniqueEmails | server/src/controllers/userController.js:30-34 | registration keeps emails unique |
| UserController.RegisterKeepsUniquePhones | server/src/models/User.js:21-27 | the corrected registration keeps phone numbers unique |
| UserController.RegisterAsWrittenAtMostOnePhoneless | server/src/models/User.js:21-27 | as written, the phone index holds at most one phoneless user |
| UserController.PhonelessBodyAccepted | server/src/controllers/userController.js:21-28 | a body with non-blank names, an email and a password and no phone or role is one the schema accepts without a phone |
| UserController.ValidWithoutPhoneAccepted | server/src/controllers/userController.js:36-47 | a body with non-blank names, an email, a password, a role the schema admits and no phone (absent, `null` or empty) builds a document, and that document stores no phone |
| UserController.FirstRegistration | server/src/controllers/userController.js:36-65 | into an empty collection a valid registration succeeds and is stored |
| UserController.PhonelessRegistrationRefused | server/src/controllers/userController.js:43 | as written, once one user has no phone, every further valid phoneless registration is a 400 "phone already in use" |
| UserController.PhonelessRegistrationAccepted | server/src/controllers/userController.js:36-47 | corrected, a valid phoneless registration with a new email and id succeeds |
| UserController.SecondPhonelessUserRefused | server/src/models/User.js:21-27 | as written, of two valid phoneless registrations the second is refused |
| UserController.SecondPhonelessUserAccepted | server/src/models/User.js:21-27 | corrected, both are accepted |
| UserController.Login | server/src/controllers/userController.js:84-124 | an unknown email and a wrong password give the same 401; a non-string password a 500; a match a 200 with the account without password |
| UserController.LoginSucceedsOnlyOnMatch | server/src/controllers/userController.js:89-100 | a 200 iff the first user with that email has a hash the password matches; every other reply is 401 or 500 |
| UserController.RegisterThenLogin | server/src/controllers/userController.js:84-117 | a freshly registered user logs in with the chosen password |
| UserController.GetProfile | server/src/controllers/userController.js:127-151 | 404 exactly when no user has the id, otherwise that user's account without password or phone |
| UserController.ApplyNames | server/src/controllers/userController.js:156-168 | names sent replace the stored ones trimmed; nothing else changes |
| UserController.UpdateProfile | server/src/controllers/userController.js:154-189 | 404 with nothing changed, or that user's names updated and returned; id, email, password, role and phone never change |
| UserController.UpdateThenGetProfile | server/src/controllers/userController.js:154-189 | the profile fetched after an update is the update's reply; repeating the update changes nothing |
| AppErrors.MakeAppError | server/src/utils/catchAsync.js:10-16 | message and code kept, always operational, "fail" exactly when the code's text starts with 4, else "error" |
| AppErrors.StartsWithFourIff | server/src/utils/catchAsync.js:13 | the text starts with 4 exactly for non-negative codes whose leading digit is 4 |
| AppErrors.ClientCodesFail | server/src/utils/catchAsync.js:13 | every 4xx code gives "fail", whatever the message |
| AppErrors.ServerCodesError | server/src/utils/catchAsync.js:13 | every 5xx code gives "error", whatever the message |
| AppErrors.FailCodesAreRanges | server/src/utils/catchAsync.js:13 | "fail" exactly for codes in [4·10^k, 5·10^k), so 4, 40 and 4000 fail and -400 does not |

## Left out

- Network calls (axios), `localStorage`, React rendering, toasts, alerts and navigation: replies and clock readings are parameters.
- JWT signing and the auth middleware: the caller's id and role are given. bcrypt is a pair of parameters. `RegisterThenLogin` assumes the comparison accepts a password against its own hash.
- The Sales and Reports pages read `sales`, and call `createSale`, `adjustInventory` and `updateUser`, but no context defines them. The model works over a given list of sales and stops at the callback's arguments.
- Floating-point money and `toFixed(2)`: amounts are exact integers. `Sales.Stats` keeps the average as a real number.
- `Date` parsing, time zones and `toLocaleString`: the range test is on timestamps and the month label is a parameter. The end date is midnight, so sales later that day are excluded; that falls out of the timestamps given.
- String lengths count code points, not UTF-16 units.
- `Object.keys` lists integer-like keys first and treats `__proto__` specially. The accumulator model assumes ordinary names and month labels.
- `parseInt` reads decimal digits only. Hexadecimal prefixes and the other radix rules are not modelled.
- Mongoose details: a malformed `_id` (CastError) and the timestamps are not modelled.
- The schema's `lowercase` email setter is not modelled: emails are compared and stored as sent.
- Numbers and booleans are cast to strings by Mongoose. Falsy non-strings in `phone`/`role` (`0`, `false`) are not modelled: every non-string is treated as rejected.
- A body without a string email is taken to match no user in `findOne`.
- The update handlers leave out `undefined` keys, as current Mongoose does. A `null` or non-string name in a profile update is not modelled.
- The product schema file (server/src/models/Product.js) is not part of this model: its validation is the `accepted` parameter. The product routes are not mounted in server/src/app.js, so these handlers are unreachable as shipped; they are modelled as written.
- The 500 replies of `register`, `login` and `createProduct` also carry `error: error.message`, the thrown error's text (server/src/controllers/userController.js:76-79 and 119-122, server/src/controllers/productController.js:22-25). The model keeps only the `message` field. That text comes from Mongoose and bcrypt, which are not part of this model.
- Inventory.ParseNumber: JavaScript numbers are doubles. The model takes quantities and running totals as exact integers, which they are only below 2^53, and takes `String(n)` as plain digits, which it is only below 10^21 (from there on it is exponent form, so `parseInt(1e21)` is 1).
- Inventory.ReduceStep: it rests on `ParseNumber`, so it adds the quantity only for values under those bounds.
- Inventory.TotalStock: it equals the sum of quantities only while quantities and running totals stay under those bounds.
- Inventory.Stats: its total stock carries the same bound as `TotalStock`.
- Inventory.AdjustArgsQuantity: a typed quantity above 2^53 reaches the callback rounded to a double. The model delivers it exactly.
- Sales.AddItem: a merge writes the new quantity into the existing line object of a shallow copy (client/src/pages/Sales.jsx:37-39), so the previous state's line changes too. The model has values, not shared objects, and the previous state keeps its old quantity.
- `getAllProducts` and `populate` (joining creator names) are not modelled.
- Concurrency between requests: each handler runs alone. So the email index never fires after the email lookup.
- The browser's own `required`/`min` constraints on the adjustment input are not modelled.
- The Inventory page passes `product.id`; the model reads it as the product's identifier.
- The validation schemas are not applied by any route. They are modelled on their own; Joi's `email()` and `date()` are parameters. When several keys are unknown, the model reports the set rather than the one Joi names first.
- The `catchAsync` wrapper (promise plumbing), and the fact that the file's second `module.exports` replaces the first, are not modelled.
- A non-integer `statusCode` given to `AppError` is not modelled.
- Loading the signed-in user into the profile form (client/src/pages/UserProfile.jsx:32-44) is a React effect: the model starts from any page state.

## Findings

| source | as written | input that shows it | evidently intended | confidence | as-written member | corrected member |
|---|---|---|---|---|---|---|
| server/src/models/User.js:21-27 | `phone` is `unique` and `sparse` with `default: null`, and `register` stores `phone: null` for a user without one (server/src/controllers/userController.js:43). A sparse index skips only documents without the field, so the stored `null`s collide | two valid registrations without a phone, with different emails: the second is answered 400 "phone already in use" | phone is optional, so any number of users may have none, and numbers are unique among those given | not executed | UserController.SecondPhonelessUserRefused | UserController.PhonelessRegistrationAccepted |

=== FILE: app_error.dfy ===
/** `AppError` (server/src/utils/catchAsync.js): an error carrying an HTTP
    status code, classified as a client failure or a server error by the
    first character of the code's decimal text. */
module AppErrors {
  import opened JsText

  datatype AppError = AppError(message: string, statusCode: int, status: string, isOperational: bool)

  /** `` `${statusCode}`.startsWith('4') ``. */
  predicate StartsWithFour(code: int)
  {
    IntToDecimal(code)[0] == '4'
  }

  /** The constructor: message and code are kept as given, the status is
      "fail" exactly when the code's text starts with 4 and "error"
      otherwise, and the error is always operational. */
  function MakeAppError(message: string, statusCode: int): (r: AppError)
    ensures r.message == message && r.statusCode == statusCode
    ensures r.isOperational
    ensures r.status == "fail" <==> StartsWithFour(statusCode)
    ensures r.status == "fail" || r.status == "error"
  {
    AppError(message, statusCode, if StartsWithFour(statusCode) then "fail" else "error", true)
  }

  /** The text starts with 4 exactly for the non-negative numbers whose
      leading digit is 4: 4, 40..49, 400..499, and so on. */
  lemma StartsWithFourIff(code: int)
    ensures StartsWithFour(code) <==> code >= 0 && LeadingDigit(code) == 4
  {
    if code >= 0 {
      NatToDecimalFirst(code);
    }
  }

  /** Every 4xx code is a failure. */
  lemma ClientCodesFail(message: string, code: int)
    requires 400 <= code <= 499
    ensures MakeAppError(message, code).status == "fail"
  {
    LeadingDigitOfRange(code, 4, 2);
    StartsWithFourIff(code);
  }

  /** Every 5xx code is an error. */
  lemma ServerCodesError(message: string, code: int)
    requires 500 <= code <= 599
    ensures MakeAppError(message, code).status == "error"
  {
    LeadingDigitOfRange(code, 5, 2);
    StartsWithFourIff(code);
  }

  /** Only a number in [4 * 10^k, 5 * 10^k) for some k is a failure; in
      particular 4 and 4000 are, 40 is, and -400 is not. */
  lemma FailCodesAreRanges(code: int)
    ensures MakeAppError("", code).status == "fail" <==>
      code >= 0 && 4 * Pow10(DigitCount(code) - 1) <= code < 5 * Pow10(DigitCount(code) - 1)
  {
    StartsWithFourIff(code);
    if code >= 0 {
      LeadingDigitBounds(code);
      var k := DigitCount(code) - 1;
      if 4 * Pow10(k) <= code < 5 * Pow10(k) {
        LeadingDigitOfRange(code, 4, k);
      }
    }
  }
}

=== FILE: folds.dfy ===
/** Folds over sequences used by the reducers and reports: `Array.prototype.reduce`
    with `+`, `Array.prototype.filter`, and counting. */
module Folds {

  /** The value of `s.reduce((t, x) => t + f(x), 0)` for integer-valued `f`. */
  function SumOf<T>(s: seq<T>, f: T -> int): int
  {
    if |s| == 0 then 0 else f(s[0]) + SumOf(s[1..], f)
  }

  /** Summing distributes over concatenation. */
  lemma {:induction false} SumOfAppend<T>(a: seq<T>, b: seq<T>, f: T -> int)
    ensures SumOf(a + b, f) == SumOf(a, f) + SumOf(b, f)
  {
    if |a| == 0 {
      assert a + b == b;
    } else {
      assert (a + b)[1..] == a[1..] + b;
      SumOfAppend(a[1..], b, f);
    }
  }

  /** Peeling the last term off a sum. */
  lemma SumOfSnoc<T>(s: seq<T>, f: T -> int)
    requires |s| > 0
    ensures SumOf(s, f) == SumOf(s[..|s| - 1], f) + f(s[|s| - 1])
  {
    assert s == s[..|s| - 1] + [s[|s| - 1]];
    SumOfAppend(s[..|s| - 1], [s[|s| - 1]], f);
  }

  /** A sum over non-negative terms is non-negative. */
  lemma {:induction false} SumOfNonNegative<T>(s: seq<T>, f: T -> int)
    requires forall i :: 0 <= i < |s| ==> f(s[i]) >= 0
    ensures SumOf(s, f) >= 0
  {
    if |s| > 0 {
      assert forall i :: 0 <= i < |s[1..]| ==> s[1..][i] == s[i + 1];
      SumOfNonNegative(s[1..], f);
    }
  }

  /** Sequences whose elements have pointwise equal terms have equal sums. */
  lemma {:induction false} SumOfPointwise<T>(a: seq<T>, b: seq<T>, f: T -> int)
    requires |a| == |b|
    requires forall i :: 0 <= i < |a| ==> f(a[i]) == f(b[i])
    ensures SumOf(a, f) == SumOf(b, f)
  {
    if |a| > 0 {
      assert forall i :: 0 <= i < |a[1..]| ==> a[1..][i] == a[i + 1] && b[1..][i] == b[i + 1];
      SumOfPointwise(a[1..], b[1..], f);
    }
  }

  /** Changing the term at one position changes the sum by the difference. */
  lemma {:induction false} SumOfPointUpdate<T>(a: seq<T>, b: seq<T>, k: nat, f: T -> int)
    requires |a| == |b| && k < |a|
    requires forall i :: 0 <= i < |a| && i != k ==> f(a[i]) == f(b[i])
    ensures SumOf(b, f) == SumOf(a, f) - f(a[k]) + f(b[k])
  {
    assert forall i :: 0 <= i < |a[1..]| ==> a[1..][i] == a[i + 1] && b[1..][i] == b[i + 1];
    if k == 0 {
      SumOfPointwise(a[1..], b[1..], f);
    } else {
      SumOfPointUpdate(a[1..], b[1..], k - 1, f);
    }
  }

  /** `s.filter(keep)`: the elements satisfying `keep`, in their original order. */
  function Filter<T>(s: seq<T>, keep: T -> bool): (r: seq<T>)
    ensures |r| <= |s|
    ensures forall i :: 0 <= i < |r| ==> r[i] in s && keep(r[i])
    ensures forall i :: 0 <= i < |s| && keep(s[i]) ==> s[i] in r
    ensures multiset(r) <= multiset(s)
  {
    if |s| == 0 then []
    else
      assert s == [s[0]] + s[1..];
      (if keep(s[0]) then [s[0]] else []) + Filter(s[1..], keep)
  }

  /** Filtering distributes over concatenation, so relative order is kept. */
  lemma {:induction false} FilterAppend<T>(a: seq<T>, b: seq<T>, keep: T -> bool)
    ensures Filter(a + b, keep) == Filter(a, keep) + Filter(b, keep)
  {
    if |a| == 0 {
      assert a + b == b;
    } else {
      assert (a + b)[1..] == a[1..] + b;
      FilterAppend(a[1..], b, keep);
    }
  }

  /** Summing over a filter, one element at a time. */
  lemma SumOfFilterCons<T>(s: seq<T>, keep: T -> bool, f: T -> int)
    requires |s| > 0
    ensures SumOf(Filter(s, keep), f) == (if keep(s[0]) then f(s[0]) else 0) + SumOf(Filter(s[1..], keep), f)
  {
    var rest := Filter(s[1..], keep);
    if keep(s[0]) {
      assert Filter(s, keep) == [s[0]] + rest;
      assert ([s[0]] + rest)[1..] == rest;
    } else {
      assert Filter(s, keep) == rest;
    }
  }

  /** A filter that keeps every element returns its input unchanged. */
  lemma {:induction false} FilterKeepsAll<T>(s: seq<T>, keep: T -> bool)
    requires forall i :: 0 <= i < |s| ==> keep(s[i])
    ensures Filter(s, keep) == s
  {
    if |s| > 0 {
      assert forall i :: 0 <= i < |s[1..]| ==> s[1..][i] == s[i + 1];
      FilterKeepsAll(s[1..], keep);
    }
  }

  /** `s.filter(p).length`. */
  function CountOf<T>(s: seq<T>, p: T -> bool): nat
  {
    |Filter(s, p)|
  }

  /** Counting through a weaker predicate never gives fewer elements. */
  lemma {:induction false} CountOfMonotone<T>(s: seq<T>, p: T -> bool, q: T -> bool)
    requires forall i :: 0 <= i < |s| ==> p(s[i]) ==> q(s[i])
    ensures CountOf(s, p) <= CountOf(s, q)
  {
    if |s| > 0 {
      assert forall i :: 0 <= i < |s[1..]| ==> s[1..][i] == s[i + 1];
      CountOfMonotone(s[1..], p, q);
    }
  }

  /** When `p` splits into two exclusive cases `q` and `r`, the counts add up. */
  lemma {:induction false} CountOfSplit<T>(s: seq<T>, p: T -> bool, q: T -> bool, r: T -> bool)
    requires forall i :: 0 <= i < |s| ==> (p(s[i]) <==> q(s[i]) || r(s[i]))
    requires forall i :: 0 <= i < |s| ==> !(q(s[i]) && r(s[i]))
    ensures CountOf(s, p) == CountOf(s, q) + CountOf(s, r)
  {
    if |s| > 0 {
      assert forall i :: 0 <= i < |s[1..]| ==> s[1..][i] == s[i + 1];
      CountOfSplit(s[1..], p, q, r);
    }
  }

  /** No two elements of `s` share a key. */
  predicate UniqueBy<T, K(==)>(s: seq<T>, key: T -> K)
  {
    forall i, j :: 0 <= i < j < |s| ==> key(s[i]) != key(s[j])
  }

  lemma UniqueByTail<T, K>(s: seq<T>, key: T -> K)
    requires |s| > 0 && UniqueBy(s, key)
    ensures UniqueBy(s[1..], key)
    ensures forall i :: 0 <= i < |s[1..]| ==> key(s[1..][i]) != key(s[0])
  {
    var tail := s[1..];
    forall i, j | 0 <= i < j < |tail| ensures key(tail[i]) != key(tail[j]) {
      assert tail[i] == s[i + 1] && tail[j] == s[j + 1];
    }
    forall i | 0 <= i < |tail| ensures key(tail[i]) != key(s[0]) {
      assert tail[i] == s[i + 1];
    }
  }

  /** Filtering keeps keys unique. */
  lemma {:induction false} FilterKeepsUniqueBy<T, K>(s: seq<T>, keep: T -> bool, key: T -> K)
    requires UniqueBy(s, key)
    ensures UniqueBy(Filter(s, keep), key)
  {
    if |s| > 0 {
      var tail := s[1..];
      UniqueByTail(s, key);
      FilterKeepsUniqueBy(tail, keep, key);
      var rest := Filter(tail, keep);
      forall i | 0 <= i < |rest| ensures key(rest[i]) != key(s[0]) {
        var j :| 0 <= j < |tail| && tail[j] == rest[i];
      }
      var r := Filter(s, keep);
      if keep(s[0]) {
        assert r == [s[0]] + rest;
        forall i, j | 0 <= i < j < |r| ensures key(r[i]) != key(r[j]) {
          assert r[j] == rest[j - 1];
          if i > 0 { assert r[i] == rest[i - 1]; }
        }
      } else {
        assert r == rest;
      }
    }
  }
}

=== FILE: inventory.dfy ===
/** The Inventory page (client/src/pages/Inventory.jsx): the stock figures
    above the table, the per-row stock status, and the arguments the
    adjustment modal hands to its callback. */
module Inventory {
  import opened Options
  import opened Folds
  import opened Records
  import opened JsText

  /** `inventoryStats`. */
  datatype InventoryStats = InventoryStats(totalProducts: nat, totalStock: int, lowStockItems: nat, outOfStockItems: nat)

  /** The three labels of the status column. */
  datatype StockStatus = OutOfStock | LowStock | InStock

  function Quantity(p: Product): int
  {
    p.quantity
  }

  /** `product.quantity < 10`. */
  function IsLow(p: Product): bool
  {
    p.quantity < 10
  }

  /** `product.quantity === 0`. */
  function IsOut(p: Product): bool
  {
    p.quantity == 0
  }

  /** The status column: zero is out of stock, anything else below ten
      (negative stock included) is low, ten and above is in stock. */
  function Status(quantity: int): (r: StockStatus)
    ensures r == OutOfStock <==> quantity == 0
    ensures r == LowStock <==> quantity != 0 && quantity < 10
    ensures r == InStock <==> quantity >= 10
  {
    if quantity == 0 then OutOfStock else if quantity < 10 then LowStock else InStock
  }

  function HasStatus(s: StockStatus): Product -> bool
  {
    (p: Product) => Status(p.quantity) == s
  }

  /** `parseInt(x)` applied to a number: the number's decimal text read back.
      Numbers are exact integers written in plain digits here; JavaScript's
      doubles are so only below 2^53 and 10^21 respectively. */
  function ParseNumber(n: int): (r: int)
    ensures r == n
  {
    ParseIntRoundTrip(n);
    ParseInt(IntToDecimal(n)).value
  }

  /** `products.reduce((sum, product) => parseInt(sum) + parseInt(product.quantity), 0)`:
      the `parseInt` round trips change nothing, so this is the sum of the
      quantities. */
  method TotalStock(products: seq<Product>) returns (total: int)
    ensures total == SumOf(products, Quantity)
  {
    total := 0;
    var i := 0;
    while i < |products|
      invariant 0 <= i <= |products|
      invariant total == SumOf(products[..i], Quantity)
    {
      total := ReduceStep(total, products[i]);
      PrefixSumStep(products, i);
      i := i + 1;
    }
    assert products[..i] == products;
  }

  /** The reduce callback `(sum, product) => parseInt(sum) + parseInt(product.quantity)`:
      both round trips change nothing, so it adds the quantity. */
  function ReduceStep(sum: int, product: Product): (r: int)
    ensures r == sum + product.quantity
  {
    ParseNumber(sum) + ParseNumber(product.quantity)
  }

  lemma PrefixSumStep(products: seq<Product>, i: nat)
    requires i < |products|
    ensures SumOf(products[..i + 1], Quantity) == SumOf(products[..i], Quantity) + products[i].quantity
  {
    SumOfSnoc(products[..i + 1], Quantity);
    assert products[..i + 1][..i] == products[..i];
  }

  /** `inventoryStats`: the number of products, the total stock, and how many
      products have fewer than ten and exactly zero units. */
  method Stats(products: seq<Product>) returns (r: InventoryStats)
    ensures r.totalProducts == |products|
    ensures r.totalStock == SumOf(products, Quantity)
    ensures r.lowStockItems == CountOf(products, IsLow)
    ensures r.outOfStockItems == CountOf(products, IsOut)
    ensures r.outOfStockItems <= r.lowStockItems <= r.totalProducts
  {
    var stock := TotalStock(products);
    CountOfMonotone(products, IsOut, IsLow);
    r := InventoryStats(|products|, stock, CountOf(products, IsLow), CountOf(products, IsOut));
  }

  /** The "Low Stock" figure counts the rows labelled "Out of Stock" as well
      as those labelled "Low Stock"; the labels split the products three
      ways. */
  lemma StatusCounts(products: seq<Product>)
    ensures CountOf(products, IsLow) == CountOf(products, HasStatus(OutOfStock)) + CountOf(products, HasStatus(LowStock))
    ensures CountOf(products, IsOut) == CountOf(products, HasStatus(OutOfStock))
    ensures CountOf(products, HasStatus(OutOfStock)) + CountOf(products, HasStatus(LowStock)) + CountOf(products, HasStatus(InStock)) == |products|
  {
    CountOfSplit(products, IsLow, HasStatus(OutOfStock), HasStatus(LowStock));
    FilterSame(products, IsOut, HasStatus(OutOfStock));
    var notIn := (p: Product) => Status(p.quantity) != InStock;
    var any := (p: Product) => true;
    CountOfSplit(products, notIn, HasStatus(OutOfStock), HasStatus(LowStock));
    CountOfSplit(products, any, notIn, HasStatus(InStock));
    FilterKeepsAll(products, any);
  }

  /** Filters through equivalent predicates agree. */
  lemma {:induction false} FilterSame(s: seq<Product>, p: Product -> bool, q: Product -> bool)
    requires forall i :: 0 <= i < |s| ==> p(s[i]) == q(s[i])
    ensures Filter(s, p) == Filter(s, q)
  {
    if |s| > 0 {
      assert forall i :: 0 <= i < |s[1..]| ==> s[1..][i] == s[i + 1];
      FilterSame(s[1..], p, q);
    }
  }

  /** The two options of the adjustment type select. */
  datatype AdjustKind = Add | Remove

  function KindValue(k: AdjustKind): string
  {
    match k
    case Add => "add"
    case Remove => "remove"
  }

  /** The adjustment modal's fields: the quantity input's text and the type. */
  datatype AdjustForm = AdjustForm(quantity: string, kind: AdjustKind)

  /** What `handleSubmit` passes to `onAdjust`: the product's identifier,
      `parseInt` of the quantity text (`None` for `NaN`) and the type. */
  datatype AdjustRequest = AdjustRequest(productId: string, quantity: Option<int>, kind: string)

  function AdjustArgs(product: Product, form: AdjustForm): (r: AdjustRequest)
    ensures r.productId == product.id
    ensures r.kind == "add" || r.kind == "remove"
    ensures r.kind == "add" <==> form.kind == Add
    ensures r.quantity.None? <==> DigitRun(SignlessPart(TrimStart(form.quantity))) == 0
  {
    AdjustRequest(product.id, ParseInt(form.quantity), KindValue(form.kind))
  }

  /** The quantity typed as the decimal text of `n` reaches the callback as
      `n`. */
  lemma AdjustArgsQuantity(product: Product, n: int, kind: AdjustKind)
    ensures AdjustArgs(product, AdjustForm(IntToDecimal(n), kind)).quantity == Some(n)
  {
    ParseIntRoundTrip(n);
  }
}

=== FILE: js_text.dfy ===
/** The JavaScript string primitives the application relies on: `trim`, the
    `\s` character class, `parseInt` (decimal), and the decimal text of an
    integer (template-literal conversion `${n}`). */
module JsText {
  import opened Options

  /** JavaScript's WhiteSpace and LineTerminator code points: exactly what the
      regular-expression class `\s` matches and what `String.prototype.trim`
      removes. */
  predicate IsWhiteSpace(c: char)
  {
    || c == '\t' || c == '\n' || c == '\U{000B}' || c == '\U{000C}' || c == '\r'
    || c == ' ' || c == '\U{00A0}' || c == '\U{1680}'
    || ('\U{2000}' <= c <= '\U{200A}')
    || c == '\U{2028}' || c == '\U{2029}' || c == '\U{202F}' || c == '\U{205F}'
    || c == '\U{3000}' || c == '\U{FEFF}'
  }

  predicate AllWhiteSpace(s: string)
  {
    forall i :: 0 <= i < |s| ==> IsWhiteSpace(s[i])
  }

  /** `s` with its leading white space removed: a suffix of `s`. */
  function TrimStart(s: string): (r: string)
    ensures |r| <= |s| && r == s[|s| - |r|..]
    ensures AllWhiteSpace(s[..|s| - |r|])
    ensures |r| > 0 ==> !IsWhiteSpace(r[0])
  {
    if |s| > 0 && IsWhiteSpace(s[0]) then TrimStart(s[1..]) else s
  }

  /** `s` with its trailing white space removed: a prefix of `s`. */
  function TrimEnd(s: string): (r: string)
    ensures |r| <= |s| && r == s[..|r|]
    ensures AllWhiteSpace(s[|r|..])
    ensures |r| > 0 ==> !IsWhiteSpace(r[|r| - 1])
  {
    if |s| > 0 && IsWhiteSpace(s[|s| - 1]) then TrimEnd(s[..|s| - 1]) else s
  }

  /** `s.trim()`. It is empty exactly when `s` is all white space, and
      otherwise starts and ends with a non-white-space character. */
  function Trim(s: string): (r: string)
    ensures |r| == 0 <==> AllWhiteSpace(s)
    ensures |r| > 0 ==> !IsWhiteSpace(r[0]) && !IsWhiteSpace(r[|r| - 1])
  {
    var t := TrimStart(s);
    var r := TrimEnd(t);
    assert |r| == 0 ==> s == s[..|s| - |t|] + t;
    assert |r| > 0 ==> r[0] == t[0];
    r
  }

  /** Trimming a string that has no white space at either end changes nothing. */
  lemma TrimUnchanged(s: string)
    requires |s| > 0 ==> !IsWhiteSpace(s[0]) && !IsWhiteSpace(s[|s| - 1])
    ensures Trim(s) == s
  {
  }

  /** Trimming is idempotent. */
  lemma TrimIdempotent(s: string)
    ensures Trim(Trim(s)) == Trim(s)
  {
    TrimUnchanged(Trim(s));
  }

  predicate IsDigit(c: char)
  {
    '0' <= c <= '9'
  }

  predicate AllDigits(s: string)
  {
    forall i :: 0 <= i < |s| ==> IsDigit(s[i])
  }

  /** `/^[0-9]{10}$/.test(s)`: exactly ten ASCII digits. */
  predicate TenDigits(s: string)
  {
    |s| == 10 && AllDigits(s)
  }

  function DigitValue(c: char): nat
    requires IsDigit(c)
  {
    c as int - '0' as int
  }

  function DigitChar(d: nat): (c: char)
    requires d < 10
    ensures IsDigit(c) && DigitValue(c) == d
  {
    ('0' as int + d) as char
  }

  /** Length of the longest prefix of `s` made of decimal digits. */
  function DigitRun(s: string): (n: nat)
    ensures n <= |s| && AllDigits(s[..n])
    ensures n < |s| ==> !IsDigit(s[n])
  {
    if |s| > 0 && IsDigit(s[0]) then
      var n := 1 + DigitRun(s[1..]);
      assert s[..n] == [s[0]] + s[1..][..n - 1];
      n
    else 0
  }

  /** The number a string of decimal digits denotes, most significant first. */
  function DigitsValue(s: string): nat
    requires AllDigits(s)
  {
    if |s| == 0 then 0 else 10 * DigitsValue(s[..|s| - 1]) + DigitValue(s[|s| - 1])
  }

  /** `parseInt(s)` with the default radix on text without a `0x` prefix:
      leading white space is skipped, one optional sign is read, then the
      longest run of decimal digits; with no digit the result is `NaN`
      (here `None`). */
  function ParseInt(s: string): (r: Option<int>)
    ensures r.None? <==> DigitRun(SignlessPart(TrimStart(s))) == 0
  {
    var t := TrimStart(s);
    var u := SignlessPart(t);
    var n := DigitRun(u);
    var magnitude: int := if n == 0 then 0 else DigitsValue(u[..n]);
    if n == 0 then None
    else if |t| > 0 && t[0] == '-' then Some(-magnitude)
    else Some(magnitude)
  }

  /** The text after one optional leading `+` or `-`. */
  function SignlessPart(t: string): (u: string)
    ensures u == t || (|t| > 0 && (t[0] == '-' || t[0] == '+') && u == t[1..])
  {
    if |t| > 0 && (t[0] == '-' || t[0] == '+') then t[1..] else t
  }

  /** Decimal text of a natural number, without leading zeros. */
  function NatToDecimal(n: nat): (r: string)
    ensures |r| > 0 && AllDigits(r)
    ensures DigitsValue(r) == n
    ensures |r| > 1 ==> r[0] != '0'
  {
    if n < 10 then [DigitChar(n)]
    else
      var r := NatToDecimal(n / 10) + [DigitChar(n % 10)];
      assert r[..|r| - 1] == NatToDecimal(n / 10);
      r
  }

  /** `${n}` for an integer `n` of magnitude below 10^21: a minus sign for
      negatives, then the digits. JavaScript writes larger numbers in
      exponent form, which this does not model. */
  function IntToDecimal(n: int): (r: string)
    ensures |r| > 0
    ensures n < 0 <==> r[0] == '-'
    ensures n >= 0 ==> IsDigit(r[0])
  {
    if n < 0 then "-" + NatToDecimal(-n) else NatToDecimal(n)
  }

  /** `parseInt` reads back every integer's decimal text. */
  lemma ParseIntRoundTrip(n: int)
    ensures ParseInt(IntToDecimal(n)) == Some(n)
  {
    var s := IntToDecimal(n);
    assert TrimStart(s) == s;
    var d := if n < 0 then -n else n;
    var digits := NatToDecimal(d);
    assert SignlessPart(s) == digits;
    DigitRunAll(digits);
    assert digits[..|digits|] == digits;
  }

  /** A string made only of digits is its own longest digit run. */
  lemma {:induction false} DigitRunAll(s: string)
    requires AllDigits(s)
    ensures DigitRun(s) == |s|
  {
    if |s| > 0 {
      DigitRunAll(s[1..]);
    }
  }

  /** The most significant decimal digit of `n`. */
  function LeadingDigit(n: nat): (d: nat)
    ensures d < 10
    ensures n > 0 ==> d > 0
  {
    if n < 10 then n else LeadingDigit(n / 10)
  }

  /** Number of decimal digits of `n`. */
  function DigitCount(n: nat): (k: nat)
    ensures k >= 1
  {
    if n < 10 then 1 else 1 + DigitCount(n / 10)
  }

  function Pow10(k: nat): (p: nat)
    ensures p >= 1
  {
    if k == 0 then 1 else 10 * Pow10(k - 1)
  }

  /** The first character of the decimal text is the leading digit. */
  lemma {:induction false} NatToDecimalFirst(n: nat)
    ensures NatToDecimal(n)[0] == DigitChar(LeadingDigit(n))
  {
    if n >= 10 {
      NatToDecimalFirst(n / 10);
    }
  }

  /** `n` lies in [d * 10^k, (d + 1) * 10^k) for its leading digit `d` and
      `k` one less than its digit count. */
  lemma {:induction false} LeadingDigitBounds(n: nat)
    ensures LeadingDigit(n) * Pow10(DigitCount(n) - 1) <= n
    ensures n < (LeadingDigit(n) + 1) * Pow10(DigitCount(n) - 1)
  {
    if n >= 10 {
      var q := n / 10;
      LeadingDigitBounds(q);
      var d := LeadingDigit(q);
      var p := Pow10(DigitCount(q) - 1);
      assert LeadingDigit(n) == d;
      assert Pow10(DigitCount(n) - 1) == 10 * p;
      var lo := d * p;
      var hi := (d + 1) * p;
      assert lo <= q < hi;
      ScaleByTen(d, p);
      ScaleByTen(d + 1, p);
      assert 10 * q <= n < 10 * q + 10;
    }
  }

  lemma ScaleByTen(d: nat, p: nat)
    ensures d * (10 * p) == 10 * (d * p)
  {
  }

  /** Conversely, a number in [d * 10^k, (d + 1) * 10^k) with 1 <= d <= 9 has
      leading digit `d`. */
  lemma {:induction false} LeadingDigitOfRange(n: nat, d: nat, k: nat)
    requires 1 <= d <= 9
    requires d * Pow10(k) <= n < (d + 1) * Pow10(k)
    ensures LeadingDigit(n) == d
  {
    if k > 0 {
      var p := Pow10(k - 1);
      assert Pow10(k) == 10 * p;
      var lo := d * p;
      var hi := (d + 1) * p;
      ScaleByTen(d, p);
      ScaleByTen(d + 1, p);
      assert hi >= 2;
      assert n >= 10;
      var q := n / 10;
      assert lo <= q < hi;
      LeadingDigitOfRange(q, d, k - 1);
    }
  }
}

=== FILE: options.dfy ===
/** Optional values and success/failure results shared by the whole model.
    `None` stands for JavaScript's `null`/`undefined`; `Err` for a thrown or
    returned error. */
module Options {

  datatype Option<+T> = None | Some(value: T)

  datatype Result<+T, +E> = Ok(value: T) | Err(error: E)
}

=== FILE: product_context.dfy ===
/** The client's product list: `productReducer` and the state changes the
    asynchronous `fetchProducts`, `addProduct`, `updateProduct` and
    `deleteProduct` dispatch around their HTTP call
    (client/src/context/ProductContext.jsx). The HTTP call itself is a
    parameter: its answer, or the message of the error it threw. */
module ProductContext {
  import opened Options
  import opened Folds
  import opened Records

  datatype ProductState = ProductState(products: seq<Product>, loading: bool, error: Option<string>)

  /** The reducer's actions; `Unrecognized` is any other type, which falls to
      the `default` case. */
  datatype ProductAction =
    | SetLoading(loading: bool)
    | SetError(message: string)
    | SetProducts(products: seq<Product>)
    | AddProduct(product: Product)
    | UpdateProduct(product: Product)
    | DeleteProduct(productId: string)
    | Unrecognized(tag: string)

  const InitialState: ProductState := ProductState([], false, None)

  /** What the HTTP call produced: the response's value, or the thrown
      error's message. */
  datatype Reply<+T> = Answered(value: T) | Failed(message: string)

  /** What the asynchronous operation hands its caller: the value it returns,
      or the error it re-throws. */
  datatype Outcome<+T> = Returned(value: T) | Rethrown(message: string)

  predicate HasId(products: seq<Product>, id: string)
  {
    exists i :: 0 <= i < |products| && products[i].id == id
  }

  /** UPDATE_PRODUCT on the list: every product with the payload's `_id` is
      replaced by the payload; positions and all other products stay. */
  function ReplaceById(products: seq<Product>, product: Product): (r: seq<Product>)
    ensures |r| == |products|
    ensures forall i :: 0 <= i < |products| && products[i].id == product.id ==> r[i] == product
    ensures forall i :: 0 <= i < |products| && products[i].id != product.id ==> r[i] == products[i]
  {
    seq(|products|, i requires 0 <= i < |products| =>
      if products[i].id == product.id then product else products[i])
  }

  /** DELETE_PRODUCT on the list: the products with that `_id` are dropped. */
  function RemoveById(products: seq<Product>, id: string): (r: seq<Product>)
    ensures !HasId(r, id)
    ensures forall i :: 0 <= i < |products| && products[i].id != id ==> products[i] in r
    ensures forall i :: 0 <= i < |r| ==> r[i] in products
  {
    Filter(products, KeepOtherIds(id))
  }

  /** `productReducer`. Each action changes only its own field. */
  function Reduce(state: ProductState, action: ProductAction): (r: ProductState)
    ensures !action.SetLoading? ==> r.loading == state.loading
    ensures !action.SetError? ==> r.error == state.error
    ensures action.SetLoading? ==> r == state.(loading := action.loading)
    ensures action.SetError? ==> r == state.(error := Some(action.message))
    ensures action.SetProducts? ==> r == state.(products := action.products)
    ensures action.AddProduct? ==> r.products == state.products + [action.product]
    ensures action.Unrecognized? ==> r == state
  {
    match action
    case SetLoading(b) => state.(loading := b)
    case SetError(m) => state.(error := Some(m))
    case SetProducts(ps) => state.(products := ps)
    case AddProduct(p) => state.(products := state.products + [p])
    case UpdateProduct(p) => state.(products := ReplaceById(state.products, p))
    case DeleteProduct(id) => state.(products := RemoveById(state.products, id))
    case Unrecognized(_) => state
  }

  /** The state after dispatching `actions` in order. */
  function Dispatch(state: ProductState, actions: seq<ProductAction>): ProductState
    decreases |actions|
  {
    if |actions| == 0 then state else Dispatch(Reduce(state, actions[0]), actions[1..])
  }

  /** The three dispatches every operation makes: loading on, the outcome's
      action, loading off (the `finally` block). */
  function Bracketed(state: ProductState, action: ProductAction): (r: ProductState)
    requires !action.SetLoading?
    ensures !r.loading
    ensures r.products == Reduce(state, action).products
    ensures r.error == Reduce(state, action).error
  {
    var actions := [SetLoading(true), action, SetLoading(false)];
    var s1 := Reduce(state, SetLoading(true));
    var s2 := Reduce(s1, action);
    var s3 := Reduce(s2, SetLoading(false));
    assert actions[1..] == [action, SetLoading(false)];
    assert actions[1..][1..] == [SetLoading(false)];
    assert Dispatch(s3, []) == s3;
    assert Dispatch(s2, [SetLoading(false)]) == s3;
    assert Dispatch(s1, actions[1..]) == s3;
    Dispatch(state, actions)
  }

  /** `fetchProducts`: the list becomes the answered one, or the error is set
      and the list kept. */
  function FetchProducts(state: ProductState, reply: Reply<seq<Product>>): (r: ProductState)
    ensures !r.loading
    ensures reply.Answered? ==> r.products == reply.value && r.error == state.error
    ensures reply.Failed? ==> r.products == state.products && r.error == Some(reply.message)
  {
    match reply
    case Answered(ps) => Bracketed(state, SetProducts(ps))
    case Failed(m) => Bracketed(state, SetError(m))
  }

  /** `addProduct`: the created product is appended and returned; on failure
      the list is kept, the error set and the error re-thrown. */
  function AddProductOp(state: ProductState, reply: Reply<Product>): (r: (ProductState, Outcome<Product>))
    ensures !r.0.loading
    ensures reply.Answered? ==>
      r.0.products == state.products + [reply.value] && r.0.error == state.error && r.1 == Returned(reply.value)
    ensures reply.Failed? ==>
      r.0.products == state.products && r.0.error == Some(reply.message) && r.1 == Rethrown(reply.message)
  {
    match reply
    case Answered(p) => (Bracketed(state, AddProduct(p)), Returned(p))
    case Failed(m) => (Bracketed(state, SetError(m)), Rethrown(m))
  }

  /** `updateProduct`: the updated product replaces its namesakes by `_id` and
      is returned; on failure the list is kept, the error set and re-thrown. */
  function UpdateProductOp(state: ProductState, reply: Reply<Product>): (r: (ProductState, Outcome<Product>))
    ensures !r.0.loading
    ensures reply.Answered? ==>
      r.0.products == ReplaceById(state.products, reply.value) && r.0.error == state.error && r.1 == Returned(reply.value)
    ensures reply.Failed? ==>
      r.0.products == state.products && r.0.error == Some(reply.message) && r.1 == Rethrown(reply.message)
  {
    match reply
    case Answered(p) => (Bracketed(state, UpdateProduct(p)), Returned(p))
    case Failed(m) => (Bracketed(state, SetError(m)), Rethrown(m))
  }

  /** `deleteProduct(productId)`: once the server confirms, the products with
      that `_id` leave the list; on failure the list is kept, the error set
      and re-thrown. */
  function DeleteProductOp(state: ProductState, productId: string, reply: Reply<()>): (r: (ProductState, Outcome<()>))
    ensures !r.0.loading
    ensures reply.Answered? ==>
      r.0.products == RemoveById(state.products, productId) && r.0.error == state.error && r.1 == Returned(())
    ensures reply.Failed? ==>
      r.0.products == state.products && r.0.error == Some(reply.message) && r.1 == Rethrown(reply.message)
  {
    match reply
    case Answered(_) => (Bracketed(state, DeleteProduct(productId)), Returned(()))
    case Failed(m) => (Bracketed(state, SetError(m)), Rethrown(m))
  }

  /** DELETE_PRODUCT keeps the surviving products in their original order and
      is a no-op for an id not in the list. */
  lemma RemoveByIdKeepsOrder(a: seq<Product>, b: seq<Product>, id: string)
    ensures RemoveById(a + b, id) == RemoveById(a, id) + RemoveById(b, id)
    ensures !HasId(a, id) ==> RemoveById(a, id) == a
  {
    FilterAppend(a, b, KeepOtherIds(id));
    if !HasId(a, id) {
      FilterKeepsAll(a, KeepOtherIds(id));
    }
  }

  /** Adding a product whose `_id` is not in the list and then deleting that
      `_id` restores the list. */
  lemma AddThenDeleteRestores(state: ProductState, product: Product)
    requires !HasId(state.products, product.id)
    ensures Reduce(Reduce(state, AddProduct(product)), DeleteProduct(product.id)).products == state.products
  {
    RemoveByIdKeepsOrder(state.products, [product], product.id);
    assert RemoveById([product], product.id) == [];
  }

  /** UPDATE_PRODUCT for an id not in the list changes nothing, and applying
      the same update twice is the same as applying it once. */
  lemma ReplaceByIdProperties(products: seq<Product>, product: Product)
    ensures !HasId(products, product.id) ==> ReplaceById(products, product) == products
    ensures ReplaceById(ReplaceById(products, product), product) == ReplaceById(products, product)
  {
  }
}

=== FILE: product_controller.dfy ===
/** The product handlers of server/src/controllers/productController.js as
    functions over the collection, held as a map from `_id` to document. Each
    handler returns the new collection and the HTTP response. */
module ProductController {
  import opened Options
  import UserController

  /** A stored product. The body's fields are stored as sent; an absent one
      is `None`. `createdBy` is the creator's user id. */
  datatype ProductDoc = ProductDoc(
    name: Option<string>, category: Option<string>, quantity: Option<int>, price: Option<int>, createdBy: string)

  /** `{ name, category, quantity, price }` of the request body. */
  datatype ProductInput = ProductInput(name: Option<string>, category: Option<string>, quantity: Option<int>, price: Option<int>)

  type Store = map<string, ProductDoc>

  /** `req.user`: the authenticated caller's id and role. */
  datatype Caller = Caller(id: string, role: string)

  datatype Body =
    | ProductBody(id: string, product: ProductDoc)
    | RemovedBody(message: string, id: string, product: ProductDoc)
    | MessageBody(message: string)

  datatype Response = Response(status: nat, body: Body)

  const NotFound := Response(404, MessageBody("Product not found"))
  const CreateFailed := Response(500, MessageBody("Error creating product"))
  const UpdateForbidden := Response(403, MessageBody("Not authorized to update this product"))
  const DeleteForbidden := Response(403, MessageBody("Not authorized to delete this product"))
  const RemovedMessage := "Product removed successfully"

  /** `createProduct`. `newId` is the `_id` the new document receives and
      `accepted` whether the product schema's validation passes (the schema
      is not part of this model). A rejected document, or an `_id` already
      taken, is a 500 and nothing is stored; otherwise the document is stored
      under `newId` with the caller as creator and returned with 201. */
  function CreateProduct(store: Store, caller: Caller, input: ProductInput, newId: string, accepted: bool): (r: (Store, Response))
    ensures !accepted || newId in store ==> r == (store, CreateFailed)
    ensures accepted && newId !in store ==>
      var doc := ProductDoc(input.name, input.category, input.quantity, input.price, caller.id);
      r == (store[newId := doc], Response(201, ProductBody(newId, doc)))
    ensures forall id :: id != newId ==> (id in r.0 <==> id in store) && (id in store ==> r.0[id] == store[id])
  {
    if !accepted || newId in store then (store, CreateFailed)
    else
      var doc := ProductDoc(input.name, input.category, input.quantity, input.price, caller.id);
      (store[newId := doc], Response(201, ProductBody(newId, doc)))
  }

  /** `getProduct`: 404 for an unknown id, otherwise the document. The store
      is read only. */
  function GetProduct(store: Store, id: string): (r: Response)
    ensures id !in store <==> r == NotFound
    ensures id in store ==> r == Response(200, ProductBody(id, store[id]))
  {
    if id !in store then NotFound else Response(200, ProductBody(id, store[id]))
  }

  /** The owner-or-admin rule. */
  predicate MayUpdate(doc: ProductDoc, caller: Caller)
  {
    doc.createdBy == caller.id || caller.role == "admin"
  }

  /** The update `{ name, category, quantity, price }`: fields sent replace
      the stored ones, absent ones are dropped from the update; `createdBy`
      is never touched. */
  function Patch(doc: ProductDoc, input: ProductInput): (r: ProductDoc)
    ensures r.createdBy == doc.createdBy
    ensures r.name == (if input.name.Some? then input.name else doc.name)
    ensures r.category == (if input.category.Some? then input.category else doc.category)
    ensures r.quantity == (if input.quantity.Some? then input.quantity else doc.quantity)
    ensures r.price == (if input.price.Some? then input.price else doc.price)
  {
    ProductDoc(
      if input.name.Some? then input.name else doc.name,
      if input.category.Some? then input.category else doc.category,
      if input.quantity.Some? then input.quantity else doc.quantity,
      if input.price.Some? then input.price else doc.price,
      doc.createdBy)
  }

  /** `updateProduct`: existence is checked before authorisation, so an
      unknown id is a 404 for every caller; a caller who neither created the
      product nor is an admin gets 403; otherwise the product is patched and
      returned. The store changes only on success, and only at `id`. */
  function UpdateProduct(store: Store, caller: Caller, id: string, input: ProductInput): (r: (Store, Response))
    ensures id !in store ==> r == (store, NotFound)
    ensures id in store && !MayUpdate(store[id], caller) ==> r == (store, UpdateForbidden)
    ensures id in store && MayUpdate(store[id], caller) ==>
      r == (store[id := Patch(store[id], input)], Response(200, ProductBody(id, Patch(store[id], input))))
    ensures r.0.Keys == store.Keys
    ensures forall k :: k in store && k != id ==> r.0[k] == store[k]
  {
    if id !in store then (store, NotFound)
    else if !MayUpdate(store[id], caller) then (store, UpdateForbidden)
    else
      var doc := Patch(store[id], input);
      (store[id := doc], Response(200, ProductBody(id, doc)))
  }

  /** `deleteProduct`: a caller whose role is "user" is refused before the
      id is even looked up; otherwise an unknown id is a 404, and a known one
      is removed and returned. */
  function DeleteProduct(store: Store, caller: Caller, id: string): (r: (Store, Response))
    ensures caller.role == "user" ==> r == (store, DeleteForbidden)
    ensures caller.role != "user" && id !in store ==> r == (store, NotFound)
    ensures caller.role != "user" && id in store ==>
      r == (store - {id}, Response(200, RemovedBody(RemovedMessage, id, store[id])))
    ensures forall k :: k != id ==> (k in r.0 <==> k in store) && (k in store ==> r.0[k] == store[k])
  {
    if caller.role == "user" then (store, DeleteForbidden)
    else if id !in store then (store, NotFound)
    else (store - {id}, Response(200, RemovedBody(RemovedMessage, id, store[id])))
  }

  /** A created product can be fetched back, with the caller as creator. */
  lemma GetAfterCreate(store: Store, caller: Caller, input: ProductInput, newId: string)
    requires newId !in store
    ensures
      var (s, _) := CreateProduct(store, caller, input, newId, true);
      GetProduct(s, newId) == Response(200, ProductBody(newId, ProductDoc(input.name, input.category, input.quantity, input.price, caller.id)))
  {
  }

  /** An authorised update is what a following fetch returns; patching with
      the same input again changes nothing more. */
  lemma GetAfterUpdate(store: Store, caller: Caller, id: string, input: ProductInput)
    requires id in store && MayUpdate(store[id], caller)
    ensures
      var (s, _) := UpdateProduct(store, caller, id, input);
      && GetProduct(s, id) == Response(200, ProductBody(id, Patch(store[id], input)))
      && UpdateProduct(s, caller, id, input).0 == s
  {
  }

  /** After a delete, the product is gone. */
  lemma GetAfterDelete(store: Store, caller: Caller, id: string)
    requires caller.role != "user"
    ensures GetProduct(DeleteProduct(store, caller, id).0, id) == NotFound
  {
  }

  /** Creating a product and deleting it again restores the store. */
  lemma CreateThenDelete(store: Store, caller: Caller, input: ProductInput, newId: string, deleter: Caller)
    requires newId !in store && deleter.role != "user"
    ensures DeleteProduct(CreateProduct(store, caller, input, newId, true).0, deleter, newId).0 == store
  {
    var s := CreateProduct(store, caller, input, newId, true).0;
    assert s - {newId} == store;
  }

  /** The user schema admits no role "user", so the delete handler's refusal
      never fires for a registered account: every such caller may delete any
      product. */
  lemma DeleteNeverForbiddenForAccountRoles(store: Store, caller: Caller, id: string)
    requires caller.role in UserController.SchemaRoles
    ensures DeleteProduct(store, caller, id).1 != DeleteForbidden
  {
  }
}

=== FILE: records.dfy ===
/** The records the client pages pass around: products as fetched from the
    API, sale line items and recorded sales. Money is held in integer cents. */
module Records {
  import opened Folds

  /** A product as the client holds it: `_id`, `name`, `category`,
      `quantity` (stock on hand, or the count when it sits in the cart) and
      `price`. */
  datatype Product = Product(id: string, name: string, category: string, quantity: int, price: int)

  /** The filter predicate `p => p._id !== id`. */
  function KeepOtherIds(id: string): Product -> bool
  {
    (p: Product) => p.id != id
  }

  /** One line of a sale: the product's `_id` with the name and unit price
      copied when the line was added, and the quantity sold. */
  datatype SaleItem = SaleItem(productId: string, name: string, price: int, quantity: int)

  /** A recorded sale; `date` is a timestamp in milliseconds since the epoch. */
  datatype Sale = Sale(id: string, items: seq<SaleItem>, total: int, date: int)

  /** `item.price * item.quantity`. */
  function LineAmount(item: SaleItem): int
  {
    item.price * item.quantity
  }

  /** `items.reduce((total, item) => total + item.price * item.quantity, 0)`. */
  function ItemsTotal(items: seq<SaleItem>): int
  {
    SumOf(items, LineAmount)
  }

  function SaleTotal(sale: Sale): int
  {
    sale.total
  }

  function ItemQuantity(item: SaleItem): int
  {
    item.quantity
  }
}

=== FILE: register.dfy ===
/** The registration page (client/src/pages/Register.jsx): field edits, the
    required-field check and the payload handed to `register`. */
module Register {
  import opened Options
  import opened JsText

  /** The inputs, by their `name` attribute. */
  datatype Field = FirstName | LastName | Email | Password | Phone | Role

  datatype Form = Form(firstName: string, lastName: string, email: string, password: string, phone: string, role: string)

  /** The form, the error banner (`""` for none) and the loading flag. */
  datatype RegisterPage = RegisterPage(form: Form, error: string, loading: bool)

  /** Every field starts empty except the role, which starts as "staff". */
  const InitialPage: RegisterPage := RegisterPage(Form("", "", "", "", "", "staff"), "", false)

  const RequiredMessage := "Please fill in all required fields"
  const FallbackMessage := "Registration failed"

  /** `registrationData`: `phone` is present only when given. */
  datatype Registration = Registration(
    firstName: string, lastName: string, email: string, password: string, role: string, phone: Option<string>)

  function Get(f: Form, field: Field): string
  {
    match field
    case FirstName => f.firstName
    case LastName => f.lastName
    case Email => f.email
    case Password => f.password
    case Phone => f.phone
    case Role => f.role
  }

  /** `handleChange`: sets one field and clears any pending error. */
  function HandleChange(page: RegisterPage, field: Field, value: string): (r: RegisterPage)
    ensures Get(r.form, field) == value
    ensures forall g :: g != field ==> Get(r.form, g) == Get(page.form, g)
    ensures r.error == "" && r.loading == page.loading
  {
    var f := page.form;
    var form := match field
      case FirstName => f.(firstName := value)
      case LastName => f.(lastName := value)
      case Email => f.(email := value)
      case Password => f.(password := value)
      case Phone => f.(phone := value)
      case Role => f.(role := value);
    RegisterPage(form, "", page.loading)
  }

  /** The payload built from a form: the four required fields and the role
      verbatim, and the phone trimmed when it is not blank. */
  function Payload(f: Form): (r: Registration)
    ensures r.firstName == f.firstName && r.lastName == f.lastName
    ensures r.email == f.email && r.password == f.password && r.role == f.role
    ensures r.phone.Some? <==> !AllWhiteSpace(f.phone)
    ensures r.phone.Some? ==> r.phone.value == Trim(f.phone)
  {
    var phone := Trim(f.phone);
    Registration(f.firstName, f.lastName, f.email, f.password, f.role, if phone != "" then Some(phone) else None)
  }

  /** `handleSubmit` up to the `register` call: with any required field
      empty the error is set, loading is off and nothing is sent; otherwise
      the error is cleared, loading is on, and the payload is sent. */
  function HandleSubmit(page: RegisterPage): (r: (RegisterPage, Option<Registration>))
    ensures
      var f := page.form;
      r.1.None? <==> f.firstName == "" || f.lastName == "" || f.email == "" || f.password == ""
    ensures r.1.None? ==> r.0 == page.(error := RequiredMessage, loading := false)
    ensures r.1.Some? ==> r.0 == page.(error := "", loading := true) && r.1.value == Payload(page.form)
  {
    var f := page.form;
    if f.firstName == "" || f.lastName == "" || f.email == "" || f.password == "" then
      (page.(error := RequiredMessage, loading := false), None)
    else
      (page.(error := "", loading := true), Some(Payload(f)))
  }

  /** The `catch` branch: the server's message when it sent a non-empty one,
      otherwise the fallback text; loading stops. */
  function RegisterFailed(page: RegisterPage, serverMessage: Option<string>): (r: RegisterPage)
    ensures r.form == page.form && !r.loading
    ensures r.error != ""
    ensures serverMessage.Some? && serverMessage.value != "" ==> r.error == serverMessage.value
  {
    var message := if serverMessage.Some? && serverMessage.value != "" then serverMessage.value else FallbackMessage;
    page.(error := message, loading := false)
  }

  /** A sent phone number is already trimmed and not blank. */
  lemma PayloadPhoneTrimmed(f: Form)
    requires Payload(f).phone.Some?
    ensures Trim(Payload(f).phone.value) == Payload(f).phone.value
    ensures Payload(f).phone.value != ""
  {
    TrimIdempotent(f.phone);
  }

  /** Typing in any field after a rejected submission clears the error, and
      filling all required fields makes the next submission send the
      payload. */
  lemma FixThenSubmit(page: RegisterPage, field: Field, value: string)
    requires HandleSubmit(page).1.None?
    requires value != ""
    requires forall g :: g in {FirstName, LastName, Email, Password} && g != field ==> Get(page.form, g) != ""
    requires field in {FirstName, LastName, Email, Password}
    ensures HandleChange(HandleSubmit(page).0, field, value).error == ""
    ensures HandleSubmit(HandleChange(HandleSubmit(page).0, field, value)).1.Some?
  {
    var p := HandleChange(HandleSubmit(page).0, field, value);
    assert Get(p.form, field) == value;
    assert forall g :: g != field ==> Get(p.form, g) == Get(page.form, g);
    assert Get(p.form, FirstName) != "" && Get(p.form, LastName) != "";
    assert Get(p.form, Email) != "" && Get(p.form, Password) != "";
  }
}

=== FILE: reports.dfy ===
/** The three reports of the Reports page (client/src/pages/Reports.jsx): the
    date-range filter over sales, the monthly sales totals, the inventory
    valuation and the product performance ranking. */
module Reports {
  import opened Folds
  import opened Sorting
  import opened Records

  /** One property of a plain object used as an accumulator: a key and the
      number accumulated under it. A report is the sequence of entries in
      `Object.keys` order. */
  datatype Entry = Entry(key: string, amount: int)

  function KeyOf(e: Entry): string
  {
    e.key
  }

  function Amount(e: Entry): int
  {
    e.amount
  }

  function HasKey(k: string): Entry -> bool
  {
    (e: Entry) => e.key == k
  }

  /** The keys present. */
  function Keys(t: seq<Entry>): set<string>
  {
    set i | 0 <= i < |t| :: t[i].key
  }

  /** `acc[k]`, with 0 for a missing key (the `|| 0` of the source). */
  function Lookup(t: seq<Entry>, k: string): int
  {
    if |t| == 0 then 0 else if t[0].key == k then t[0].amount else Lookup(t[1..], k)
  }

  /** `acc[k] = (acc[k] || 0) + v`: an existing key keeps its place and grows
      by `v`; a new key goes last. */
  function Bump(t: seq<Entry>, k: string, v: int): (r: seq<Entry>)
    ensures |r| == |t| || |r| == |t| + 1
    ensures forall i :: 0 <= i < |t| ==> r[i].key == t[i].key
    ensures |r| == |t| + 1 <==> k !in Keys(t)
    ensures |r| == |t| + 1 ==> r[|t|] == Entry(k, v)
  {
    if |t| == 0 then [Entry(k, v)]
    else if t[0].key == k then [t[0].(amount := t[0].amount + v)] + t[1..]
    else
      var rest := Bump(t[1..], k, v);
      assert Keys(t) == {t[0].key} + Keys(t[1..]) by {
        assert forall i :: 0 <= i < |t[1..]| ==> t[1..][i] == t[i + 1];
      }
      [t[0]] + rest
  }

  /** Bumping reads back as the old value plus `v` under `k`, and leaves
      every other key's value alone. */
  lemma {:induction false} BumpLookup(t: seq<Entry>, k: string, v: int, k': string)
    ensures Lookup(Bump(t, k, v), k') == Lookup(t, k') + (if k' == k then v else 0)
  {
    if |t| > 0 && t[0].key != k {
      BumpLookup(t[1..], k, v, k');
      assert Bump(t, k, v)[1..] == Bump(t[1..], k, v);
    } else if |t| > 0 {
      assert Bump(t, k, v)[1..] == t[1..];
    }
  }

  /** Bumping adds `v` to the sum of all values. */
  lemma {:induction false} BumpSum(t: seq<Entry>, k: string, v: int)
    ensures SumOf(Bump(t, k, v), Amount) == SumOf(t, Amount) + v
  {
    if |t| > 0 && t[0].key != k {
      BumpSum(t[1..], k, v);
      assert Bump(t, k, v)[1..] == Bump(t[1..], k, v);
    } else if |t| > 0 {
      assert Bump(t, k, v)[1..] == t[1..];
    }
  }

  /** Bumping adds `k` to the keys and keeps them unique. */
  lemma BumpKeys(t: seq<Entry>, k: string, v: int)
    ensures Keys(Bump(t, k, v)) == Keys(t) + {k}
    ensures UniqueBy(t, KeyOf) ==> UniqueBy(Bump(t, k, v), KeyOf)
  {
    BumpKeySet(t, k, v);
    if UniqueBy(t, KeyOf) {
      BumpUnique(t, k, v);
    }
  }

  lemma BumpKeySet(t: seq<Entry>, k: string, v: int)
    ensures Keys(Bump(t, k, v)) == Keys(t) + {k}
  {
    var r := Bump(t, k, v);
    if |r| == |t| {
      var i :| 0 <= i < |t| && t[i].key == k;
      assert r[i].key == k;
    } else {
      assert r[|t|].key == k;
    }
  }

  lemma BumpUnique(t: seq<Entry>, k: string, v: int)
    requires UniqueBy(t, KeyOf)
    ensures UniqueBy(Bump(t, k, v), KeyOf)
  {
    var r := Bump(t, k, v);
    forall i, j | 0 <= i < j < |r| ensures KeyOf(r[i]) != KeyOf(r[j]) {
      assert r[i].key == t[i].key;
      if j < |t| {
        assert r[j].key == t[j].key;
      } else {
        assert t[i].key in Keys(t);
        assert r[j].key == k && k !in Keys(t);
      }
    }
  }

  /** The accumulator object after `forEach` over `pairs` adding each
      amount under its key. */
  function Tally(pairs: seq<Entry>): seq<Entry>
  {
    if |pairs| == 0 then []
    else
      var last := pairs[|pairs| - 1];
      Bump(Tally(pairs[..|pairs| - 1]), last.key, last.amount)
  }

  /** The sum of the amounts `pairs` carries under key `k`. */
  function KeyTotal(pairs: seq<Entry>, k: string): int
  {
    SumOf(Filter(pairs, HasKey(k)), Amount)
  }

  /** Peeling the last pair off a key total. */
  lemma KeyTotalSnoc(pairs: seq<Entry>, k: string)
    requires |pairs| > 0
    ensures
      var last := pairs[|pairs| - 1];
      KeyTotal(pairs, k) == KeyTotal(pairs[..|pairs| - 1], k) + (if last.key == k then last.amount else 0)
  {
    var init := pairs[..|pairs| - 1];
    var last := pairs[|pairs| - 1];
    assert pairs == init + [last];
    FilterAppend(init, [last], HasKey(k));
    SumOfAppend(Filter(init, HasKey(k)), Filter([last], HasKey(k)), Amount);
  }

  /** The keys of a sequence grow by one key per appended entry. */
  lemma KeysSnoc(pairs: seq<Entry>)
    requires |pairs| > 0
    ensures Keys(pairs) == Keys(pairs[..|pairs| - 1]) + {pairs[|pairs| - 1].key}
  {
    var init := pairs[..|pairs| - 1];
    forall x | x in Keys(pairs) ensures x in Keys(init) + {pairs[|pairs| - 1].key} {
      var i :| 0 <= i < |pairs| && pairs[i].key == x;
      if i < |init| { assert init[i] == pairs[i]; }
    }
    forall x | x in Keys(init) ensures x in Keys(pairs) {
      var i :| 0 <= i < |init| && init[i].key == x;
      assert pairs[i] == init[i];
    }
  }

  /** The accumulator holds each key once, and exactly the keys of the pairs. */
  lemma {:induction false} TallyKeys(pairs: seq<Entry>)
    ensures UniqueBy(Tally(pairs), KeyOf)
    ensures Keys(Tally(pairs)) == Keys(pairs)
  {
    if |pairs| > 0 {
      var init := pairs[..|pairs| - 1];
      var last := pairs[|pairs| - 1];
      TallyKeys(init);
      BumpKeys(Tally(init), last.key, last.amount);
      KeysSnoc(pairs);
    }
  }

  /** Under each key the accumulator holds the total of that key's amounts. */
  lemma {:induction false} TallyLookup(pairs: seq<Entry>, k: string)
    ensures Lookup(Tally(pairs), k) == KeyTotal(pairs, k)
  {
    if |pairs| > 0 {
      var init := pairs[..|pairs| - 1];
      var last := pairs[|pairs| - 1];
      TallyLookup(init, k);
      BumpLookup(Tally(init), last.key, last.amount, k);
      KeyTotalSnoc(pairs, k);
    }
  }

  /** The accumulator keeps the grand total. */
  lemma {:induction false} TallySum(pairs: seq<Entry>)
    ensures SumOf(Tally(pairs), Amount) == SumOf(pairs, Amount)
  {
    if |pairs| > 0 {
      var init := pairs[..|pairs| - 1];
      var last := pairs[|pairs| - 1];
      TallySum(init);
      BumpSum(Tally(init), last.key, last.amount);
      SumOfSnoc(pairs, Amount);
    }
  }

  /** The accumulator holds each key once, exactly the keys of the pairs,
      under each the total of its amounts, and the same grand total. */
  lemma TallySpec(pairs: seq<Entry>)
    ensures UniqueBy(Tally(pairs), KeyOf)
    ensures Keys(Tally(pairs)) == Keys(pairs)
    ensures forall k :: Lookup(Tally(pairs), k) == KeyTotal(pairs, k)
    ensures SumOf(Tally(pairs), Amount) == SumOf(pairs, Amount)
  {
    TallyKeys(pairs);
    TallySum(pairs);
    forall k ensures Lookup(Tally(pairs), k) == KeyTotal(pairs, k) {
      TallyLookup(pairs, k);
    }
  }

  /** The position of the first pair carrying `k`. */
  function FirstSeen(pairs: seq<Entry>, k: string): (r: nat)
    requires k in Keys(pairs)
    ensures r < |pairs| && pairs[r].key == k
    ensures forall j :: 0 <= j < r ==> pairs[j].key != k
  {
    if pairs[0].key == k then 0
    else
      assert k in Keys(pairs[1..]) by {
        var i :| 0 <= i < |pairs| && pairs[i].key == k;
        assert pairs[1..][i - 1] == pairs[i];
      }
      1 + FirstSeen(pairs[1..], k)
  }

  /** A position carrying `k` with no earlier one is the first. */
  lemma FirstSeenAt(pairs: seq<Entry>, k: string, r: nat)
    requires r < |pairs| && pairs[r].key == k
    requires forall j :: 0 <= j < r ==> pairs[j].key != k
    ensures k in Keys(pairs) && FirstSeen(pairs, k) == r
  {
  }

  /** Appending a pair moves no key's first position, and a key new to the
      pairs is first seen at the end. */
  lemma FirstSeenSnoc(pairs: seq<Entry>, k: string)
    requires |pairs| > 0 && k in Keys(pairs)
    ensures var init := pairs[..|pairs| - 1];
      && (k in Keys(init) ==> FirstSeen(pairs, k) == FirstSeen(init, k))
      && (k !in Keys(init) ==> FirstSeen(pairs, k) == |pairs| - 1)
  {
    var init := pairs[..|pairs| - 1];
    assert forall j :: 0 <= j < |init| ==> pairs[j] == init[j];
    if k in Keys(init) {
      FirstSeenAt(pairs, k, FirstSeen(init, k));
    } else {
      assert forall j :: 0 <= j < |init| ==> init[j].key in Keys(init);
      FirstSeenAt(pairs, k, |pairs| - 1);
    }
  }

  /** The entries' keys all occur in the pairs and are listed in the order
      the pairs first carry them: the insertion order `Object.keys` keeps. */
  predicate InFirstSeenOrder(t: seq<Entry>, pairs: seq<Entry>)
  {
    && (forall i :: 0 <= i < |t| ==> t[i].key in Keys(pairs))
    && (forall i, j :: 0 <= i < j < |t| ==> FirstSeen(pairs, t[i].key) < FirstSeen(pairs, t[j].key))
  }

  /** The accumulator lists its keys in order of first occurrence. */
  lemma {:induction false} TallyFirstSeen(pairs: seq<Entry>)
    ensures InFirstSeenOrder(Tally(pairs), pairs)
  {
    if |pairs| > 0 {
      var init := pairs[..|pairs| - 1];
      var last := pairs[|pairs| - 1];
      var t0 := Tally(init);
      var t := Tally(pairs);
      assert t == Bump(t0, last.key, last.amount);
      TallyFirstSeen(init);
      TallyKeys(init);
      TallyKeys(pairs);
      forall i | 0 <= i < |t| ensures t[i].key in Keys(pairs) {
        assert t[i].key in Keys(t);
      }
      forall i, j | 0 <= i < j < |t| ensures FirstSeen(pairs, t[i].key) < FirstSeen(pairs, t[j].key) {
        assert t[i].key in Keys(t) && t[j].key in Keys(t);
        assert t0[i].key in Keys(t0);
        FirstSeenSnoc(pairs, t[i].key);
        FirstSeenSnoc(pairs, t[j].key);
        if j == |t0| {
          assert t[j].key == last.key && last.key !in Keys(init);
        } else {
          assert t0[j].key in Keys(t0);
        }
      }
    }
  }

  /** With unique keys, an entry's amount is what looking its key up gives. */
  lemma {:induction false} LookupUnique(t: seq<Entry>, i: nat)
    requires i < |t| && UniqueBy(t, KeyOf)
    ensures Lookup(t, t[i].key) == t[i].amount
  {
    if i > 0 {
      UniqueByTail(t, KeyOf);
      assert t[1..][i - 1] == t[i];
      LookupUnique(t[1..], i - 1);
    }
  }

  /** Every entry of the accumulator carries its key's total. */
  lemma TallyEntries(pairs: seq<Entry>)
    ensures forall i :: 0 <= i < |Tally(pairs)| ==> Tally(pairs)[i].amount == KeyTotal(pairs, Tally(pairs)[i].key)
  {
    var t := Tally(pairs);
    TallySpec(pairs);
    forall i | 0 <= i < |t| ensures t[i].amount == KeyTotal(pairs, t[i].key) {
      LookupUnique(t, i);
    }
  }

  // ---------------------------------------------------------------- filter

  function InRange(start: int, end: int): Sale -> bool
  {
    (sale: Sale) => start <= sale.date <= end
  }

  /** `filteredSales`: the sales dated within `[start, end]`, both ends
      included, in their original order. `start` and `end` are the instants
      the two date inputs denote. */
  function FilteredSales(sales: seq<Sale>, start: int, end: int): (r: seq<Sale>)
    ensures forall i :: 0 <= i < |r| ==> r[i] in sales && start <= r[i].date <= end
    ensures forall i :: 0 <= i < |sales| && start <= sales[i].date <= end ==> sales[i] in r
  {
    Filter(sales, InRange(start, end))
  }

  /** Filtering a concatenation filters each part: no sale changes place. */
  lemma FilteredSalesAppend(a: seq<Sale>, b: seq<Sale>, start: int, end: int)
    ensures FilteredSales(a + b, start, end) == FilteredSales(a, start, end) + FilteredSales(b, start, end)
  {
    FilterAppend(a, b, InRange(start, end));
  }

  /** Filtering again with the same range changes nothing. */
  lemma FilteredSalesIdempotent(sales: seq<Sale>, start: int, end: int)
    ensures FilteredSales(FilteredSales(sales, start, end), start, end) == FilteredSales(sales, start, end)
  {
    FilterKeepsAll(FilteredSales(sales, start, end), InRange(start, end));
  }

  // ----------------------------------------------------------- monthly sales

  function InMonth(monthOf: int -> string, month: string): Sale -> bool
  {
    (sale: Sale) => monthOf(sale.date) == month
  }

  /** The month labels the sales fall in. */
  function Months(sales: seq<Sale>, monthOf: int -> string): set<string>
  {
    set i | 0 <= i < |sales| :: monthOf(sales[i].date)
  }

  /** The (month, total) pair each sale contributes. */
  function MonthEntries(sales: seq<Sale>, monthOf: int -> string): (r: seq<Entry>)
    ensures |r| == |sales|
  {
    if |sales| == 0 then [] else [Entry(monthOf(sales[0].date), sales[0].total)] + MonthEntries(sales[1..], monthOf)
  }

  /** Under each month label, the pairs carry the totals of that month's sales. */
  lemma {:induction false} MonthEntriesKeyTotal(sales: seq<Sale>, monthOf: int -> string, month: string)
    ensures KeyTotal(MonthEntries(sales, monthOf), month) == SumOf(Filter(sales, InMonth(monthOf, month)), SaleTotal)
  {
    if |sales| > 0 {
      var e := MonthEntries(sales, monthOf);
      MonthEntriesKeyTotal(sales[1..], monthOf, month);
      assert e[1..] == MonthEntries(sales[1..], monthOf);
      SumOfFilterCons(e, HasKey(month), Amount);
      SumOfFilterCons(sales, InMonth(monthOf, month), SaleTotal);
    }
  }

  /** The pairs carry the sum of all sale totals. */
  lemma {:induction false} MonthEntriesSum(sales: seq<Sale>, monthOf: int -> string)
    ensures SumOf(MonthEntries(sales, monthOf), Amount) == SumOf(sales, SaleTotal)
  {
    if |sales| > 0 {
      MonthEntriesSum(sales[1..], monthOf);
      assert MonthEntries(sales, monthOf)[1..] == MonthEntries(sales[1..], monthOf);
    }
  }

  lemma {:induction false} MonthEntriesKeys(sales: seq<Sale>, monthOf: int -> string)
    ensures Keys(MonthEntries(sales, monthOf)) == Months(sales, monthOf)
  {
    if |sales| > 0 {
      MonthEntriesKeys(sales[1..], monthOf);
      var e := MonthEntries(sales, monthOf);
      assert e[1..] == MonthEntries(sales[1..], monthOf);
      assert Keys(e) == {e[0].key} + Keys(e[1..]) by {
        assert forall i :: 0 <= i < |e[1..]| ==> e[1..][i] == e[i + 1];
      }
      assert Months(sales, monthOf) == {monthOf(sales[0].date)} + Months(sales[1..], monthOf) by {
        assert forall i :: 0 <= i < |sales[1..]| ==> sales[1..][i] == sales[i + 1];
      }
    }
  }

  /** `salesReportData`: one row per month label that some sale in the range
      falls in, carrying the sum of those sales' totals. Sales of the same
      month in different years share a row. The rows add up to the
      "Total Sales" figure. */
  function SalesReport(sales: seq<Sale>, start: int, end: int, monthOf: int -> string): (r: seq<Entry>)
    ensures UniqueBy(r, KeyOf)
    ensures Keys(r) == Months(FilteredSales(sales, start, end), monthOf)
    ensures forall i :: 0 <= i < |r| ==>
      r[i].amount == SumOf(Filter(FilteredSales(sales, start, end), InMonth(monthOf, r[i].key)), SaleTotal)
    ensures SumOf(r, Amount) == SumOf(FilteredSales(sales, start, end), SaleTotal)
  {
    var filtered := FilteredSales(sales, start, end);
    var pairs := MonthEntries(filtered, monthOf);
    TallySpec(pairs);
    TallyEntries(pairs);
    MonthEntriesKeys(filtered, monthOf);
    MonthEntriesSum(filtered, monthOf);
    forall month ensures KeyTotal(pairs, month) == SumOf(Filter(filtered, InMonth(monthOf, month)), SaleTotal) {
      MonthEntriesKeyTotal(filtered, monthOf, month);
    }
    Tally(pairs)
  }

  // ------------------------------------------------------ inventory valuation

  /** One bar of the inventory valuation: name, stock and stock value. */
  datatype InventoryRow = InventoryRow(name: string, quantity: int, value: int)

  function RowValue(row: InventoryRow): int
  {
    row.value
  }

  /** `product.quantity * product.price`. */
  function StockValue(p: Product): int
  {
    p.quantity * p.price
  }

  function InventoryRows(products: seq<Product>): (r: seq<InventoryRow>)
    ensures |r| == |products|
    ensures forall i :: 0 <= i < |r| ==>
      r[i] == InventoryRow(products[i].name, products[i].quantity, StockValue(products[i]))
  {
    if |products| == 0 then [] else [InventoryRow(products[0].name, products[0].quantity, StockValue(products[0]))] + InventoryRows(products[1..])
  }

  lemma {:induction false} InventoryRowsSum(products: seq<Product>)
    ensures SumOf(InventoryRows(products), RowValue) == SumOf(products, StockValue)
  {
    if |products| > 0 {
      InventoryRowsSum(products[1..]);
      assert InventoryRows(products)[1..] == InventoryRows(products[1..]);
    }
  }

  /** `inventoryReportData`: one row per product, most valuable first, and
      the rows add up to the "Total Inventory Value" of the stock. */
  function InventoryReport(products: seq<Product>): (r: seq<InventoryRow>)
    ensures multiset(r) == multiset(InventoryRows(products))
    ensures SortedDesc(r, RowValue)
    ensures SumOf(r, RowValue) == SumOf(products, StockValue)
  {
    var rows := InventoryRows(products);
    SortDescSum(rows, RowValue, RowValue);
    InventoryRowsSum(products);
    SortDesc(rows, RowValue)
  }

  /** The first bar is the first product with the greatest stock value. */
  lemma InventoryReportHead(products: seq<Product>) returns (k: nat)
    requires |products| > 0
    ensures k < |products|
    ensures InventoryReport(products)[0] == InventoryRow(products[k].name, products[k].quantity, StockValue(products[k]))
    ensures forall j :: 0 <= j < |products| ==> StockValue(products[j]) <= StockValue(products[k])
    ensures forall j :: 0 <= j < k ==> StockValue(products[j]) < StockValue(products[k])
  {
    var rows := InventoryRows(products);
    k := SortDescHead(rows, RowValue);
    assert forall j :: 0 <= j < |rows| ==> RowValue(rows[j]) == StockValue(products[j]);
  }

  // ----------------------------------------------------- product performance

  function ItemNamed(name: string): SaleItem -> bool
  {
    (item: SaleItem) => item.name == name
  }

  /** The (name, quantity) pair each line item contributes. */
  function NameEntries(items: seq<SaleItem>): (r: seq<Entry>)
    ensures |r| == |items|
  {
    if |items| == 0 then [] else [Entry(items[0].name, items[0].quantity)] + NameEntries(items[1..])
  }

  /** The pairs of every line of every sale, sale by sale. */
  function ItemEntries(sales: seq<Sale>): seq<Entry>
  {
    if |sales| == 0 then [] else NameEntries(sales[0].items) + ItemEntries(sales[1..])
  }

  /** Units of the named product in one sale. */
  function UnitsNamedIn(name: string): Sale -> int
  {
    (sale: Sale) => SumOf(Filter(sale.items, ItemNamed(name)), ItemQuantity)
  }

  /** Units in one sale. */
  function SaleUnits(sale: Sale): int
  {
    SumOf(sale.items, ItemQuantity)
  }

  lemma {:induction false} NameEntriesKeyTotal(items: seq<SaleItem>, name: string)
    ensures KeyTotal(NameEntries(items), name) == SumOf(Filter(items, ItemNamed(name)), ItemQuantity)
  {
    if |items| > 0 {
      var e := NameEntries(items);
      NameEntriesKeyTotal(items[1..], name);
      assert e[1..] == NameEntries(items[1..]);
      SumOfFilterCons(e, HasKey(name), Amount);
      SumOfFilterCons(items, ItemNamed(name), ItemQuantity);
    }
  }

  lemma {:induction false} NameEntriesSum(items: seq<SaleItem>)
    ensures SumOf(NameEntries(items), Amount) == SumOf(items, ItemQuantity)
  {
    if |items| > 0 {
      NameEntriesSum(items[1..]);
      assert NameEntries(items)[1..] == NameEntries(items[1..]);
    }
  }

  lemma ItemEntriesTotals(sales: seq<Sale>, name: string)
    ensures KeyTotal(ItemEntries(sales), name) == SumOf(sales, UnitsNamedIn(name))
    ensures SumOf(ItemEntries(sales), Amount) == SumOf(sales, SaleUnits)
  {
    ItemEntriesKeyTotal(sales, name);
    ItemEntriesSum(sales);
  }

  lemma {:induction false} ItemEntriesKeyTotal(sales: seq<Sale>, name: string)
    ensures KeyTotal(ItemEntries(sales), name) == SumOf(sales, UnitsNamedIn(name))
  {
    if |sales| > 0 {
      var head := NameEntries(sales[0].items);
      var tail := ItemEntries(sales[1..]);
      ItemEntriesKeyTotal(sales[1..], name);
      NameEntriesKeyTotal(sales[0].items, name);
      FilterAppend(head, tail, HasKey(name));
      SumOfAppend(Filter(head, HasKey(name)), Filter(tail, HasKey(name)), Amount);
    }
  }

  lemma {:induction false} ItemEntriesSum(sales: seq<Sale>)
    ensures SumOf(ItemEntries(sales), Amount) == SumOf(sales, SaleUnits)
  {
    if |sales| > 0 {
      ItemEntriesSum(sales[1..]);
      NameEntriesSum(sales[0].items);
      SumOfAppend(NameEntries(sales[0].items), ItemEntries(sales[1..]), Amount);
    }
  }


  /** The names on the line items of the sales. */
  function NamesSold(sales: seq<Sale>): set<string>
  {
    set i, j | 0 <= i < |sales| && 0 <= j < |sales[i].items| :: sales[i].items[j].name
  }

  lemma KeysAppend(a: seq<Entry>, b: seq<Entry>)
    ensures Keys(a + b) == Keys(a) + Keys(b)
  {
    var c := a + b;
    forall k | k in Keys(c) ensures k in Keys(a) + Keys(b) {
      var i :| 0 <= i < |c| && c[i].key == k;
      if i >= |a| {
        assert b[i - |a|] == c[i];
      }
    }
    forall k | k in Keys(a) ensures k in Keys(c) {
      var i :| 0 <= i < |a| && a[i].key == k;
      assert c[i] == a[i];
    }
    forall k | k in Keys(b) ensures k in Keys(c) {
      var i :| 0 <= i < |b| && b[i].key == k;
      assert c[|a| + i] == b[i];
    }
  }

  lemma {:induction false} NameEntriesKeys(items: seq<SaleItem>)
    ensures Keys(NameEntries(items)) == set j | 0 <= j < |items| :: items[j].name
  {
    if |items| > 0 {
      var e := NameEntries(items);
      NameEntriesKeys(items[1..]);
      assert e == [e[0]] + NameEntries(items[1..]);
      KeysAppend([e[0]], NameEntries(items[1..]));
      assert Keys([e[0]]) == {items[0].name};
      var names := set j | 0 <= j < |items| :: items[j].name;
      var rest := set j | 0 <= j < |items[1..]| :: items[1..][j].name;
      forall n | n in names ensures n in {items[0].name} + rest {
        var j :| 0 <= j < |items| && items[j].name == n;
        if j > 0 {
          assert items[1..][j - 1] == items[j];
        }
      }
      forall n | n in rest ensures n in names {
        var j :| 0 <= j < |items[1..]| && items[1..][j].name == n;
        assert items[j + 1] == items[1..][j];
      }
    }
  }

  /** The pairs carry exactly the names sold. */
  lemma {:induction false} ItemEntriesKeys(sales: seq<Sale>)
    ensures Keys(ItemEntries(sales)) == NamesSold(sales)
  {
    if |sales| > 0 {
      ItemEntriesKeys(sales[1..]);
      NameEntriesKeys(sales[0].items);
      KeysAppend(NameEntries(sales[0].items), ItemEntries(sales[1..]));
      var head := set j | 0 <= j < |sales[0].items| :: sales[0].items[j].name;
      forall n | n in NamesSold(sales) ensures n in head + NamesSold(sales[1..]) {
        var i, j :| 0 <= i < |sales| && 0 <= j < |sales[i].items| && sales[i].items[j].name == n;
        if i > 0 {
          assert sales[1..][i - 1] == sales[i];
        }
      }
      forall n | n in NamesSold(sales[1..]) ensures n in NamesSold(sales) {
        var i, j :| 0 <= i < |sales[1..]| && 0 <= j < |sales[1..][i].items| && sales[1..][i].items[j].name == n;
        assert sales[i + 1] == sales[1..][i];
      }
    }
  }

  /** The per-name accumulator before sorting. */
  function UnitsByName(sales: seq<Sale>): (t: seq<Entry>)
    ensures UniqueBy(t, KeyOf)
    ensures Keys(t) == NamesSold(sales)
    ensures forall i :: 0 <= i < |t| ==> t[i].amount == SumOf(sales, UnitsNamedIn(t[i].key))
    ensures SumOf(t, Amount) == SumOf(sales, SaleUnits)
  {
    var pairs := ItemEntries(sales);
    TallySpec(pairs);
    TallyEntries(pairs);
    ItemEntriesKeys(sales);
    ItemEntriesTotals(sales, "");
    forall name ensures KeyTotal(pairs, name) == SumOf(sales, UnitsNamedIn(name)) {
      ItemEntriesTotals(sales, name);
    }
    Tally(pairs)
  }

  /** `productPerformanceData`: one row per product name sold in the range,
      carrying the units sold under that name across all filtered sales,
      best sellers first. Lines are grouped by name, not by product `_id`.
      The rows add up to "Total Units Sold". */
  function ProductPerformance(filtered: seq<Sale>): (r: seq<Entry>)
    ensures multiset(r) == multiset(UnitsByName(filtered))
    ensures SortedDesc(r, Amount)
    ensures UniqueBy(r, KeyOf)
    ensures Keys(r) == NamesSold(filtered)
    ensures forall i :: 0 <= i < |r| ==> r[i].amount == SumOf(filtered, UnitsNamedIn(r[i].key))
    ensures SumOf(r, Amount) == SumOf(filtered, SaleUnits)
  {
    var t := UnitsByName(filtered);
    SortDescKeepsUniqueBy(t, Amount, KeyOf);
    SortDescSum(t, Amount, Amount);
    var r := SortDesc(t, Amount);
    forall i | 0 <= i < |r| ensures r[i].amount == SumOf(filtered, UnitsNamedIn(r[i].key)) {
      assert r[i] in multiset(t);
      var j :| 0 <= j < |t| && t[j] == r[i];
    }
    SameMembersSameKeys(r, t);
    r
  }

  /** Rearranging entries keeps the keys. */
  lemma SameMembersSameKeys(a: seq<Entry>, b: seq<Entry>)
    requires multiset(a) == multiset(b)
    ensures Keys(a) == Keys(b)
  {
    forall k | k in Keys(a) ensures k in Keys(b) {
      var i :| 0 <= i < |a| && a[i].key == k;
      assert a[i] in multiset(b);
      var j :| 0 <= j < |b| && b[j] == a[i];
    }
    forall k | k in Keys(b) ensures k in Keys(a) {
      var i :| 0 <= i < |b| && b[i].key == k;
      assert b[i] in multiset(a);
      var j :| 0 <= j < |a| && a[j] == b[i];
    }
  }

  /** `productPerformanceData[0]?.name || 'N/A'`. */
  function TopProduct(performance: seq<Entry>): string
  {
    if |performance| == 0 || performance[0].key == "" then "N/A" else performance[0].key
  }

  /** The top seller is the name with the most units and, among names tied
      on units, the one sold first; "N/A" when nothing was sold or that name
      is empty. The per-name totals `t` list the names in order of first
      sale, and the stable sort keeps that order among ties. */
  lemma TopProductSpec(filtered: seq<Sale>) returns (k: nat)
    ensures var t := UnitsByName(filtered);
      |t| == 0 ==> TopProduct(ProductPerformance(filtered)) == "N/A"
    ensures var t := UnitsByName(filtered);
      var pairs := ItemEntries(filtered);
      |t| > 0 ==>
        && IsFirstMax(t, Amount, k)
        && InFirstSeenOrder(t, pairs)
        && (forall j :: 0 <= j < |t| && t[j].amount == t[k].amount ==>
              FirstSeen(pairs, t[k].key) <= FirstSeen(pairs, t[j].key))
        && TopProduct(ProductPerformance(filtered)) == (if t[k].key == "" then "N/A" else t[k].key)
  {
    var t := UnitsByName(filtered);
    var pairs := ItemEntries(filtered);
    k := 0;
    if |t| > 0 {
      k := SortDescHead(t, Amount);
      assert t == Tally(pairs);
      TallyFirstSeen(pairs);
    }
  }
}

=== FILE: sales.dfy ===
/** The sale modal's line-item builder and the sales statistics of the Sales
    page (client/src/pages/Sales.jsx). */
module Sales {
  import opened Options
  import opened Folds
  import opened Records
  import opened JsText

  /** The modal's state: the line items, the selected product `_id` (`""` when
      nothing is selected) and the value of the quantity input. */
  datatype SaleModal = SaleModal(items: seq<SaleItem>, selected: string, quantity: int)

  const InitialModal: SaleModal := SaleModal([], "", 1)

  /** The argument `handleSubmit` passes to `onCreateSale`; `date` is the
      clock reading at submission. */
  datatype SaleRequest = SaleRequest(items: seq<SaleItem>, total: int, date: int)

  /** The figures shown above the sales history. */
  datatype SalesStats = SalesStats(totalSales: int, totalTransactions: nat, averageTransactionValue: real)

  function ProductIdOf(item: SaleItem): string
  {
    item.productId
  }

  /** No two line items refer to the same product. */
  predicate UniqueProducts(items: seq<SaleItem>)
  {
    UniqueBy(items, ProductIdOf)
  }

  /** What the modal keeps true while it is open: line items are unique by
      product, every quantity is positive, and so is the quantity input. */
  predicate ModalInvariant(m: SaleModal)
  {
    && UniqueProducts(m.items)
    && m.quantity >= 1
    && forall i :: 0 <= i < |m.items| ==> m.items[i].quantity >= 1
  }

  /** `products.find(p => p._id === id)`. */
  function FindProduct(products: seq<Product>, id: string): (r: Option<Product>)
    ensures r.Some? ==> r.value in products && r.value.id == id
    ensures r.None? ==> forall i :: 0 <= i < |products| ==> products[i].id != id
  {
    if |products| == 0 then None
    else if products[0].id == id then Some(products[0])
    else FindProduct(products[1..], id)
  }

  /** `items.findIndex(item => item.productId === id)`, with `None` for -1. */
  function FindItemIndex(items: seq<SaleItem>, id: string): (r: Option<nat>)
    ensures r.Some? ==> r.value < |items| && items[r.value].productId == id
    ensures r.Some? ==> forall j :: 0 <= j < r.value ==> items[j].productId != id
    ensures r.None? ==> forall j :: 0 <= j < |items| ==> items[j].productId != id
  {
    if |items| == 0 then None
    else if items[0].productId == id then Some(0)
    else match FindItemIndex(items[1..], id)
      case None => None
      case Some(k) => Some(k + 1)
  }

  /** The product the selection names, if the selection is non-empty and the
      product is in the list. */
  function SelectedProduct(m: SaleModal, products: seq<Product>): Option<Product>
  {
    if m.selected == "" then None else FindProduct(products, m.selected)
  }

  /** The guards `handleAddItem` passes: the selection names a known
      product, whose stock covers the requested quantity and, when the
      product already has a line, the merged quantity too. */
  predicate AddAllowed(m: SaleModal, products: seq<Product>)
  {
    && SelectedProduct(m, products).Some?
    && m.quantity <= SelectedProduct(m, products).value.quantity
    && (FindItemIndex(m.items, m.selected).Some? ==>
          m.items[FindItemIndex(m.items, m.selected).value].quantity + m.quantity
            <= SelectedProduct(m, products).value.quantity)
  }

  /** `handleAddItem`. With no selection, an unknown product, too little stock
      for the requested quantity, or too little stock for the merged quantity,
      nothing changes. Otherwise the quantity is merged into the product's
      existing line or a new line is appended that copies the product's `_id`,
      name and price, and the selection and quantity input are reset. */
  function AddItem(m: SaleModal, products: seq<Product>): (r: SaleModal)
    ensures r != m <==> AddAllowed(m, products)
    ensures SelectedProduct(m, products).None? ==> r == m
    ensures SelectedProduct(m, products).Some? && SelectedProduct(m, products).value.quantity < m.quantity ==> r == m
    ensures
      && SelectedProduct(m, products).Some? && FindItemIndex(m.items, m.selected).Some?
      && m.items[FindItemIndex(m.items, m.selected).value].quantity + m.quantity > SelectedProduct(m, products).value.quantity
      ==> r == m
    ensures r == m || (r.selected == "" && r.quantity == 1)
    ensures r != m ==> SelectedProduct(m, products).Some?
    ensures r != m && FindItemIndex(m.items, m.selected).None? ==>
      var p := SelectedProduct(m, products).value;
      r.items == m.items + [SaleItem(p.id, p.name, p.price, m.quantity)]
    ensures r != m && FindItemIndex(m.items, m.selected).Some? ==>
      var k := FindItemIndex(m.items, m.selected).value;
      r.items == m.items[k := m.items[k].(quantity := m.items[k].quantity + m.quantity)]
  {
    match SelectedProduct(m, products)
    case None => m
    case Some(p) =>
      if p.quantity < m.quantity then m
      else match FindItemIndex(m.items, m.selected)
        case Some(k) =>
          var newQuantity := m.items[k].quantity + m.quantity;
          if newQuantity > p.quantity then m
          else SaleModal(m.items[k := m.items[k].(quantity := newQuantity)], "", 1)
        case None =>
          SaleModal(m.items + [SaleItem(p.id, p.name, p.price, m.quantity)], "", 1)
  }

  function KeepOtherProducts(productId: string): SaleItem -> bool
  {
    (item: SaleItem) => item.productId != productId
  }

  /** `handleRemoveItem`: the line for that product is dropped. */
  function RemoveItem(m: SaleModal, productId: string): (r: SaleModal)
    ensures r.selected == m.selected && r.quantity == m.quantity
    ensures forall i :: 0 <= i < |r.items| ==> r.items[i].productId != productId && r.items[i] in m.items
    ensures forall i :: 0 <= i < |m.items| && m.items[i].productId != productId ==> m.items[i] in r.items
  {
    m.(items := Filter(m.items, KeepOtherProducts(productId)))
  }

  /** Removal keeps the surviving lines in their order: it distributes over
      concatenation. */
  lemma RemoveItemKeepsOrder(m: SaleModal, a: seq<SaleItem>, b: seq<SaleItem>, productId: string)
    ensures RemoveItem(m.(items := a + b), productId).items
      == RemoveItem(m.(items := a), productId).items + RemoveItem(m.(items := b), productId).items
  {
    FilterAppend(a, b, KeepOtherProducts(productId));
  }

  /** The quantity input's `onChange`: `parseInt` of the text is taken only
      when it is a number greater than zero. */
  function QuantityInput(m: SaleModal, text: string): (r: SaleModal)
    ensures r.items == m.items && r.selected == m.selected
    ensures r.quantity == m.quantity || (ParseInt(text) == Some(r.quantity) && r.quantity > 0)
    ensures (ParseInt(text).Some? && ParseInt(text).value > 0) ==> ParseInt(text) == Some(r.quantity)
  {
    match ParseInt(text)
    case Some(v) => if v > 0 then m.(quantity := v) else m
    case None => m
  }

  /** `handleSubmit`: nothing happens for an empty list; otherwise the sale
      request carries the items with their total and the list is emptied. */
  function Submit(m: SaleModal, now: int): (r: (SaleModal, Option<SaleRequest>))
    ensures |m.items| == 0 ==> r == (m, None)
    ensures |m.items| > 0 ==> r.0 == m.(items := []) && r.1.Some?
    ensures r.1.Some? ==> r.1.value.items == m.items && r.1.value.date == now
    ensures r.1.Some? ==> r.1.value.total == SumOf(m.items, LineAmount)
  {
    if |m.items| == 0 then (m, None)
    else (m.(items := []), Some(SaleRequest(m.items, ItemsTotal(m.items), now)))
  }

  /** `salesStats`: the sum of the sale totals, the number of sales, and their
      mean (0 when there are none). */
  function Stats(sales: seq<Sale>): (r: SalesStats)
    ensures r.totalSales == SumOf(sales, SaleTotal)
    ensures r.totalTransactions == |sales|
    ensures |sales| == 0 ==> r.averageTransactionValue == 0.0
    ensures |sales| > 0 ==> r.averageTransactionValue * (|sales| as real) == r.totalSales as real
  {
    var total := SumOf(sales, SaleTotal);
    SalesStats(total, |sales|, if |sales| > 0 then (total as real) / (|sales| as real) else 0.0)
  }

  /** Every modal step keeps the line items unique by product and every
      quantity positive. */
  lemma AddItemKeepsInvariant(m: SaleModal, products: seq<Product>)
    requires ModalInvariant(m)
    ensures ModalInvariant(AddItem(m, products))
  {
    var r := AddItem(m, products);
    if r != m {
      match FindItemIndex(m.items, m.selected)
      case Some(k) =>
        assert forall i :: 0 <= i < |r.items| ==> r.items[i].productId == m.items[i].productId;
      case None =>
        forall i, j | 0 <= i < j < |r.items| ensures r.items[i].productId != r.items[j].productId {
          assert r.items[i] == m.items[i];
          if j < |m.items| { assert r.items[j] == m.items[j]; }
        }
    }
  }

  lemma RemoveItemKeepsInvariant(m: SaleModal, productId: string)
    requires ModalInvariant(m)
    ensures ModalInvariant(RemoveItem(m, productId))
  {
    FilterKeepsUniqueBy(m.items, KeepOtherProducts(productId), ProductIdOf);
  }

  lemma QuantityInputKeepsInvariant(m: SaleModal, text: string)
    requires ModalInvariant(m)
    ensures ModalInvariant(QuantityInput(m, text))
  {
  }

  /** After a successful add, the selected product's line holds at least the
      requested quantity and at most the product's stock at that moment. */
  lemma AddItemWithinStock(m: SaleModal, products: seq<Product>)
    requires ModalInvariant(m)
    requires AddAllowed(m, products)
    ensures FindItemIndex(AddItem(m, products).items, m.selected).Some?
    ensures
      var r := AddItem(m, products);
      var k := FindItemIndex(r.items, m.selected).value;
      m.quantity <= r.items[k].quantity <= SelectedProduct(m, products).value.quantity
  {
    var r := AddItem(m, products);
    var p := SelectedProduct(m, products).value;
    match FindItemIndex(m.items, m.selected)
    case Some(k) =>
      ItemIndexUnique(r.items, m.selected, k);
    case None =>
      var k := |m.items|;
      assert r.items[k].productId == m.selected;
      AddItemKeepsInvariant(m, products);
      ItemIndexUnique(r.items, m.selected, k);
  }

  /** In a list unique by product, the line carrying `id` is the one found. */
  lemma ItemIndexUnique(items: seq<SaleItem>, id: string, k: nat)
    requires k < |items| && items[k].productId == id
    requires UniqueProducts(items) || (forall j :: 0 <= j < k ==> items[j].productId != id)
    ensures FindItemIndex(items, id) == Some(k)
  {
  }

  /** A successful add raises the running total by the line's unit price
      times the requested quantity, and the number of units by that quantity;
      a merge uses the price copied when the line was first added. */
  lemma AddItemTotals(m: SaleModal, products: seq<Product>)
    requires ModalInvariant(m)
    requires AddAllowed(m, products)
    ensures FindItemIndex(AddItem(m, products).items, m.selected).Some?
    ensures
      var r := AddItem(m, products);
      var k := FindItemIndex(r.items, m.selected).value;
      && ItemsTotal(r.items) == ItemsTotal(m.items) + r.items[k].price * m.quantity
      && SumOf(r.items, ItemQuantity) == SumOf(m.items, ItemQuantity) + m.quantity
  {
    var r := AddItem(m, products);
    AddItemWithinStock(m, products);
    match FindItemIndex(m.items, m.selected)
    case Some(k) =>
      ItemIndexUnique(r.items, m.selected, k);
      MergeTotals(m.items, k, m.quantity);
    case None =>
      var p := SelectedProduct(m, products).value;
      var line := SaleItem(p.id, p.name, p.price, m.quantity);
      SumOfAppend(m.items, [line], LineAmount);
      SumOfAppend(m.items, [line], ItemQuantity);
  }

  /** Raising one line's quantity by `q` raises the total by its price times
      `q` and the unit count by `q`. */
  lemma MergeTotals(items: seq<SaleItem>, k: nat, q: int)
    requires k < |items|
    ensures
      var r := items[k := items[k].(quantity := items[k].quantity + q)];
      && ItemsTotal(r) == ItemsTotal(items) + items[k].price * q
      && SumOf(r, ItemQuantity) == SumOf(items, ItemQuantity) + q
  {
    var r := items[k := items[k].(quantity := items[k].quantity + q)];
    SumOfPointUpdate(items, r, k, LineAmount);
    SumOfPointUpdate(items, r, k, ItemQuantity);
    assert LineAmount(r[k]) == items[k].price * items[k].quantity + items[k].price * q;
  }

  /** A submitted sale whose lines all have non-negative prices and positive
      quantities has a non-negative total. */
  lemma SubmitTotalNonNegative(m: SaleModal, now: int)
    requires forall i :: 0 <= i < |m.items| ==> m.items[i].price >= 0 && m.items[i].quantity >= 1
    ensures Submit(m, now).1.Some? ==> Submit(m, now).1.value.total >= 0
  {
    assert forall i :: 0 <= i < |m.items| ==> LineAmount(m.items[i]) >= 0;
    SumOfNonNegative(m.items, LineAmount);
  }
}

=== FILE: sorting.dfy ===
/** `Array.prototype.sort` with the comparator `(a, b) => w(b) - w(a)`: a
    stable sort into non-increasing order of the integer weight `w`, modelled
    as insertion sort. */
module Sorting {
  import opened Folds

  /** Non-increasing by weight. */
  predicate SortedDesc<T>(s: seq<T>, w: T -> int)
  {
    forall i, j :: 0 <= i < j < |s| ==> w(s[i]) >= w(s[j])
  }

  /** Puts `x` in front of the first element of `s` that weighs no more than
      it. The sort below inserts the earlier elements last, so an element
      lands ahead of the later elements of equal weight: that is stability. */
  function InsertDesc<T>(x: T, s: seq<T>, w: T -> int): (r: seq<T>)
    ensures |r| == |s| + 1
    ensures multiset(r) == multiset(s) + multiset{x}
  {
    if |s| == 0 then [x]
    else if w(s[0]) <= w(x) then [x] + s
    else
      assert s == [s[0]] + s[1..];
      [s[0]] + InsertDesc(x, s[1..], w)
  }

  /** Inserting into a sorted sequence keeps it sorted. */
  lemma {:induction false} InsertDescSorted<T>(x: T, s: seq<T>, w: T -> int)
    requires SortedDesc(s, w)
    ensures SortedDesc(InsertDesc(x, s, w), w)
  {
    if |s| > 0 && w(s[0]) > w(x) {
      var tail := s[1..];
      assert SortedDesc(tail, w) by {
        forall i, j | 0 <= i < j < |tail| ensures w(tail[i]) >= w(tail[j]) {
          assert tail[i] == s[i + 1] && tail[j] == s[j + 1];
        }
      }
      InsertDescSorted(x, tail, w);
      var rest := InsertDesc(x, tail, w);
      var r := [s[0]] + rest;
      forall j | 0 <= j < |rest| ensures w(s[0]) >= w(rest[j]) {
        assert rest[j] in multiset(rest);
        if rest[j] != x {
          assert rest[j] in multiset(tail);
          var m :| 0 <= m < |tail| && tail[m] == rest[j];
          assert tail[m] == s[m + 1];
        }
      }
      forall i, j | 0 <= i < j < |r| ensures w(r[i]) >= w(r[j]) {
        assert r[j] == rest[j - 1];
        if i > 0 { assert r[i] == rest[i - 1]; }
      }
    }
  }

  /** The sorted permutation of `s`. Elements of equal weight keep their
      relative order. */
  function SortDesc<T>(s: seq<T>, w: T -> int): (r: seq<T>)
    ensures |r| == |s|
    ensures multiset(r) == multiset(s)
    ensures SortedDesc(r, w)
  {
    if |s| == 0 then []
    else
      assert s == [s[0]] + s[1..];
      var sorted := SortDesc(s[1..], w);
      InsertDescSorted(s[0], sorted, w);
      InsertDesc(s[0], sorted, w)
  }

  /** What ends up in front after an insertion. */
  lemma InsertDescHead<T>(x: T, s: seq<T>, w: T -> int)
    ensures InsertDesc(x, s, w)[0] == if |s| == 0 || w(s[0]) <= w(x) then x else s[0]
  {
  }

  /** Inserting adds the element's term to any sum. */
  lemma {:induction false} InsertDescSum<T>(x: T, s: seq<T>, w: T -> int, f: T -> int)
    ensures SumOf(InsertDesc(x, s, w), f) == SumOf(s, f) + f(x)
  {
    if |s| > 0 && w(s[0]) > w(x) {
      var rest := InsertDesc(x, s[1..], w);
      InsertDescSum(x, s[1..], w, f);
      assert ([s[0]] + rest)[1..] == rest;
    }
  }

  /** Sorting preserves every sum. */
  lemma {:induction false} SortDescSum<T>(s: seq<T>, w: T -> int, f: T -> int)
    ensures SumOf(SortDesc(s, w), f) == SumOf(s, f)
  {
    if |s| > 0 {
      SortDescSum(s[1..], w, f);
      InsertDescSum(s[0], SortDesc(s[1..], w), w, f);
    }
  }

  /** `s[k]` has the greatest weight in `s` and no earlier element has as much. */
  predicate IsFirstMax<T>(s: seq<T>, w: T -> int, k: nat)
  {
    && k < |s|
    && (forall j :: 0 <= j < |s| ==> w(s[j]) <= w(s[k]))
    && (forall j :: 0 <= j < k ==> w(s[j]) < w(s[k]))
  }

  /** The first maximum of a sequence is its head or the first maximum of its
      tail, whichever weighs strictly more, the head winning ties. */
  lemma FirstMaxCons<T>(s: seq<T>, w: T -> int, k': nat) returns (k: nat)
    requires |s| > 1 && IsFirstMax(s[1..], w, k')
    ensures k == if w(s[k' + 1]) <= w(s[0]) then 0 else k' + 1
    ensures IsFirstMax(s, w, k)
  {
    var tail := s[1..];
    assert tail[k'] == s[k' + 1];
    if w(s[k' + 1]) <= w(s[0]) {
      k := 0;
      forall j | 1 <= j < |s| ensures w(s[j]) <= w(s[0]) {
        assert s[j] == tail[j - 1];
      }
    } else {
      k := k' + 1;
      forall j | 1 <= j < |s| ensures w(s[j]) <= w(s[k]) {
        assert s[j] == tail[j - 1];
      }
      forall j | 1 <= j < k ensures w(s[j]) < w(s[k]) {
        assert s[j] == tail[j - 1];
      }
    }
  }

  /** The first element of the sorted sequence is the first element of the
      input that has the greatest weight: ties go to the earliest. */
  lemma {:induction false} SortDescHead<T>(s: seq<T>, w: T -> int) returns (k: nat)
    requires |s| > 0
    ensures IsFirstMax(s, w, k)
    ensures SortDesc(s, w)[0] == s[k]
  {
    if |s| == 1 {
      k := 0;
    } else {
      var tail := s[1..];
      var k' := SortDescHead(tail, w);
      var t := SortDesc(tail, w);
      InsertDescHead(s[0], t, w);
      k := FirstMaxCons(s, w, k');
    }
  }

  /** Every element of an insertion is the inserted one or was already there. */
  lemma InsertDescMembers<T>(x: T, s: seq<T>, w: T -> int)
    ensures forall i :: 0 <= i < |InsertDesc(x, s, w)| ==> InsertDesc(x, s, w)[i] == x || InsertDesc(x, s, w)[i] in s
  {
    var r := InsertDesc(x, s, w);
    forall i | 0 <= i < |r| ensures r[i] == x || r[i] in s {
      assert r[i] in multiset(r);
    }
  }

  /** Inserting an element whose key is new keeps keys unique. */
  lemma {:induction false} InsertDescKeepsUniqueBy<T, K>(x: T, s: seq<T>, w: T -> int, key: T -> K)
    requires UniqueBy(s, key)
    requires forall i :: 0 <= i < |s| ==> key(s[i]) != key(x)
    ensures UniqueBy(InsertDesc(x, s, w), key)
  {
    var r := InsertDesc(x, s, w);
    if |s| > 0 && w(s[0]) > w(x) {
      var tail := s[1..];
      UniqueByTail(s, key);
      InsertDescKeepsUniqueBy(x, tail, w, key);
      var rest := InsertDesc(x, tail, w);
      InsertDescMembers(x, tail, w);
      forall j | 0 <= j < |rest| ensures key(rest[j]) != key(s[0]) {
        if rest[j] != x {
          var m :| 0 <= m < |tail| && tail[m] == rest[j];
        }
      }
      forall i, j | 0 <= i < j < |r| ensures key(r[i]) != key(r[j]) {
        assert r[j] == rest[j - 1];
        if i > 0 { assert r[i] == rest[i - 1]; }
      }
    } else if |s| > 0 {
      forall i, j | 0 <= i < j < |r| ensures key(r[i]) != key(r[j]) {
        assert r[j] == s[j - 1];
        if i > 0 { assert r[i] == s[i - 1]; }
      }
    }
  }

  /** Sorting keeps keys unique. */
  lemma {:induction false} SortDescKeepsUniqueBy<T, K>(s: seq<T>, w: T -> int, key: T -> K)
    requires UniqueBy(s, key)
    ensures UniqueBy(SortDesc(s, w), key)
  {
    if |s| > 0 {
      var tail := s[1..];
      UniqueByTail(s, key);
      SortDescKeepsUniqueBy(tail, w, key);
      var t := SortDesc(tail, w);
      forall i | 0 <= i < |t| ensures key(t[i]) != key(s[0]) {
        assert t[i] in multiset(tail);
        var m :| 0 <= m < |tail| && tail[m] == t[i];
      }
      InsertDescKeepsUniqueBy(s[0], t, w, key);
    }
  }
}

=== FILE: store_context.dfy ===
/** The client's store: the cart reducer, the stock-guarded `addToCart`
    callback, and the two cart aggregates `cartTotal` and `cartItemsCount`
    (client/src/context/StoreContext.jsx). */
module StoreContext {
  import opened Options
  import opened Folds
  import opened Records

  /** The signed-in user the store keeps; it is only passed through. */
  datatype Session = Session(id: string, role: string)

  datatype StoreState = StoreState(cart: seq<Product>, user: Option<Session>, error: Option<string>)

  /** The actions the reducer is dispatched with; `Unrecognized` is any other
      action type, which falls to the `default` case. */
  datatype StoreAction =
    | SetUser(user: Option<Session>)
    | AddToCart(product: Product)
    | RemoveFromCart(productId: string)
    | UpdateCartItem(productId: string, quantity: int)
    | ClearCart
    | SetError(message: string)
    | Unrecognized(tag: string)

  const InitialState: StoreState := StoreState([], None, None)

  const OutOfStockMessage: string := "Product is out of stock"

  predicate InCart(cart: seq<Product>, id: string)
  {
    exists i :: 0 <= i < |cart| && cart[i].id == id
  }

  function IdOf(p: Product): string
  {
    p.id
  }

  /** No two cart entries share an `_id`. */
  predicate UniqueIds(cart: seq<Product>)
  {
    UniqueBy(cart, IdOf)
  }

  /** The cart after ADD_TO_CART: an entry with the payload's `_id` has its
      quantity raised by one, every field else untouched; a new `_id` is
      appended as a copy of the payload whose quantity is 1. */
  function CartAdd(cart: seq<Product>, product: Product): (r: seq<Product>)
    ensures InCart(cart, product.id) ==> |r| == |cart|
    ensures InCart(cart, product.id) ==>
      forall i :: 0 <= i < |cart| ==>
        && r[i].(quantity := cart[i].quantity) == cart[i]
        && r[i].quantity == cart[i].quantity + (if cart[i].id == product.id then 1 else 0)
    ensures !InCart(cart, product.id) ==>
      |r| == |cart| + 1 && r[..|cart|] == cart && r[|cart|] == product.(quantity := 1)
  {
    if InCart(cart, product.id) then
      seq(|cart|, i requires 0 <= i < |cart| =>
        if cart[i].id == product.id then cart[i].(quantity := cart[i].quantity + 1) else cart[i])
    else
      cart + [product.(quantity := 1)]
  }

  /** The cart after REMOVE_FROM_CART: the entries with that `_id` are gone and
      the others remain; with no such entry the cart is unchanged. */
  function CartRemove(cart: seq<Product>, id: string): (r: seq<Product>)
    ensures !InCart(r, id)
    ensures forall i :: 0 <= i < |cart| && cart[i].id != id ==> cart[i] in r
    ensures forall i :: 0 <= i < |r| ==> r[i] in cart
    ensures !InCart(cart, id) ==> r == cart
  {
    var r := Filter(cart, KeepOtherIds(id));
    if !InCart(cart, id) then
      FilterKeepsAll(cart, KeepOtherIds(id));
      r
    else
      r
  }

  /** The cart after UPDATE_CART_ITEM: the entries with that `_id` take the
      payload quantity as given (no bound is checked); every other entry and
      every other field is unchanged. */
  function CartUpdate(cart: seq<Product>, id: string, quantity: int): (r: seq<Product>)
    ensures |r| == |cart|
    ensures forall i :: 0 <= i < |cart| ==>
      && r[i].(quantity := cart[i].quantity) == cart[i]
      && r[i].quantity == (if cart[i].id == id then quantity else cart[i].quantity)
  {
    seq(|cart|, i requires 0 <= i < |cart| =>
      if cart[i].id == id then cart[i].(quantity := quantity) else cart[i])
  }

  /** `storeReducer`. Each action changes only its own part of the state. */
  function Reduce(state: StoreState, action: StoreAction): (r: StoreState)
    ensures !action.SetUser? ==> r.user == state.user
    ensures !action.SetError? ==> r.error == state.error
    ensures action.SetUser? ==> r.user == action.user && r.cart == state.cart
    ensures action.SetError? ==> r.error == Some(action.message) && r.cart == state.cart
    ensures action.AddToCart? ==> r.cart == CartAdd(state.cart, action.product)
    ensures action.RemoveFromCart? ==> r.cart == CartRemove(state.cart, action.productId)
    ensures action.UpdateCartItem? ==> r.cart == CartUpdate(state.cart, action.productId, action.quantity)
    ensures action.ClearCart? ==> r.cart == []
    ensures action.Unrecognized? ==> r == state
  {
    match action
    case SetUser(u) => state.(user := u)
    case AddToCart(p) => state.(cart := CartAdd(state.cart, p))
    case RemoveFromCart(id) => state.(cart := CartRemove(state.cart, id))
    case UpdateCartItem(id, q) => state.(cart := CartUpdate(state.cart, id, q))
    case ClearCart => state.(cart := [])
    case SetError(m) => state.(error := Some(m))
    case Unrecognized(_) => state
  }

  /** The `addToCart` callback: a product with stock on hand is added to the
      cart; otherwise the cart is left alone and the error is set. */
  function AddToCartGuarded(state: StoreState, product: Product): (r: StoreState)
    ensures product.quantity > 0 ==> r.cart == CartAdd(state.cart, product) && r.error == state.error
    ensures product.quantity <= 0 ==> r.cart == state.cart && r.error == Some(OutOfStockMessage)
    ensures r.user == state.user
  {
    if product.quantity > 0 then Reduce(state, AddToCart(product))
    else Reduce(state, SetError(OutOfStockMessage))
  }

  function CartLineValue(p: Product): int
  {
    p.price * p.quantity
  }

  function CartLineCount(p: Product): int
  {
    p.quantity
  }

  /** `cartTotal`: the sum of price times quantity over the cart. */
  function CartTotal(cart: seq<Product>): int
  {
    SumOf(cart, CartLineValue)
  }

  /** `cartItemsCount`: the sum of the quantities in the cart. */
  function CartItemsCount(cart: seq<Product>): int
  {
    SumOf(cart, CartLineCount)
  }

  /** With unique ids, the position of the entry that carries `id`. */
  lemma UniqueIndex(cart: seq<Product>, id: string) returns (k: nat)
    requires UniqueIds(cart) && InCart(cart, id)
    ensures k < |cart| && cart[k].id == id
    ensures forall i :: 0 <= i < |cart| && i != k ==> cart[i].id != id
  {
    k :| 0 <= k < |cart| && cart[k].id == id;
  }

  /** ADD_TO_CART keeps the cart's ids unique. */
  lemma CartAddKeepsUnique(cart: seq<Product>, product: Product)
    requires UniqueIds(cart)
    ensures UniqueIds(CartAdd(cart, product))
  {
    var r := CartAdd(cart, product);
    if !InCart(cart, product.id) {
      forall i, j | 0 <= i < j < |r|
        ensures r[i].id != r[j].id
      {
        if j == |cart| {
          assert r[i] == cart[i];
        } else {
          assert r[i] == cart[i] && r[j] == cart[j];
        }
      }
    }
  }

  /** REMOVE_FROM_CART keeps the cart's ids unique. */
  lemma {:induction false} CartRemoveKeepsUnique(cart: seq<Product>, id: string)
    requires UniqueIds(cart)
    ensures UniqueIds(CartRemove(cart, id))
  {
    FilterKeepsUniqueBy(cart, KeepOtherIds(id), IdOf);
  }

  /** Every cart action keeps the ids in the cart unique. */
  lemma ReduceKeepsUnique(state: StoreState, action: StoreAction)
    requires UniqueIds(state.cart)
    ensures UniqueIds(Reduce(state, action).cart)
  {
    match action
    case AddToCart(p) => CartAddKeepsUnique(state.cart, p);
    case RemoveFromCart(id) => CartRemoveKeepsUnique(state.cart, id);
    case UpdateCartItem(id, q) => {
      var r := CartUpdate(state.cart, id, q);
      assert forall i :: 0 <= i < |r| ==> r[i].id == state.cart[i].id;
    }
    case _ =>
  }

  /** With unique ids, ADD_TO_CART for an id already in the cart changes
      exactly one entry: the one at the returned position, whose quantity
      grows by one. */
  lemma CartAddChangesOne(cart: seq<Product>, product: Product) returns (k: nat)
    requires UniqueIds(cart) && InCart(cart, product.id)
    ensures k < |cart| && |CartAdd(cart, product)| == |cart|
    ensures cart[k].id == product.id
    ensures forall i :: 0 <= i < |cart| && i != k ==> CartAdd(cart, product)[i] == cart[i]
    ensures CartAdd(cart, product)[k] == cart[k].(quantity := cart[k].quantity + 1)
  {
    k := UniqueIndex(cart, product.id);
  }

  /** With unique ids, a successful ADD_TO_CART raises `cartItemsCount` by
      exactly one. */
  lemma CartAddCount(cart: seq<Product>, product: Product)
    requires UniqueIds(cart)
    ensures CartItemsCount(CartAdd(cart, product)) == CartItemsCount(cart) + 1
  {
    var r := CartAdd(cart, product);
    if InCart(cart, product.id) {
      var k := CartAddChangesOne(cart, product);
      SumOfPointUpdate(cart, r, k, CartLineCount);
    } else {
      assert r == cart + [product.(quantity := 1)];
      SumOfAppend(cart, [product.(quantity := 1)], CartLineCount);
    }
  }

  /** With unique ids, a successful ADD_TO_CART raises `cartTotal` by the unit
      price of the entry concerned: the price already in the cart, or the
      payload's price for a new entry. */
  lemma CartAddTotal(cart: seq<Product>, product: Product)
    requires UniqueIds(cart)
    ensures CartTotal(CartAdd(cart, product)) == CartTotal(cart) + CartPrice(cart, product)
  {
    var r := CartAdd(cart, product);
    if InCart(cart, product.id) {
      var k := CartAddChangesOne(cart, product);
      SumOfPointUpdate(cart, r, k, CartLineValue);
      assert CartLineValue(r[k]) == cart[k].price * cart[k].quantity + cart[k].price;
      CartPriceAt(cart, product, k);
    } else {
      assert r == cart + [product.(quantity := 1)];
      SumOfAppend(cart, [product.(quantity := 1)], CartLineValue);
      CartPriceAbsent(cart, product);
    }
  }

  /** The unit price ADD_TO_CART adds to the total: that of the first cart
      entry with the payload's `_id`, else the payload's own. */
  function CartPrice(cart: seq<Product>, product: Product): int
  {
    if |cart| == 0 then product.price
    else if cart[0].id == product.id then cart[0].price
    else CartPrice(cart[1..], product)
  }

  lemma {:induction false} CartPriceAt(cart: seq<Product>, product: Product, k: nat)
    requires k < |cart| && cart[k].id == product.id
    requires forall i :: 0 <= i < k ==> cart[i].id != product.id
    ensures CartPrice(cart, product) == cart[k].price
  {
    if k > 0 {
      CartPriceAt(cart[1..], product, k - 1);
    }
  }

  lemma {:induction false} CartPriceAbsent(cart: seq<Product>, product: Product)
    requires !InCart(cart, product.id)
    ensures CartPrice(cart, product) == product.price
  {
    if |cart| > 0 {
      assert forall i :: 0 <= i < |cart[1..]| ==> cart[1..][i] == cart[i + 1];
      CartPriceAbsent(cart[1..], product);
    }
  }

  /** REMOVE_FROM_CART distributes over concatenation: the entries kept appear
      in their original order. */
  lemma CartRemoveKeepsOrder(a: seq<Product>, b: seq<Product>, id: string)
    ensures CartRemove(a + b, id) == CartRemove(a, id) + CartRemove(b, id)
  {
    FilterAppend(a, b, KeepOtherIds(id));
  }

  /** With unique ids, REMOVE_FROM_CART lowers `cartItemsCount` by the removed
      entry's quantity (by nothing when the id is absent). */
  lemma {:induction false} CartRemoveCount(cart: seq<Product>, id: string)
    requires UniqueIds(cart)
    ensures CartItemsCount(CartRemove(cart, id)) == CartItemsCount(cart) - CartQuantity(cart, id)
  {
    if |cart| > 0 {
      var tail := cart[1..];
      UniqueByTail(cart, IdOf);
      CartRemoveCount(tail, id);
      var keep := KeepOtherIds(id);
      var head := if keep(cart[0]) then [cart[0]] else [];
      assert Filter(cart, keep) == head + Filter(tail, keep);
      SumOfAppend(head, Filter(tail, keep), CartLineCount);
      if cart[0].id == id {
        assert !InCart(tail, id) by {
          forall i | 0 <= i < |tail| ensures tail[i].id != id {
            assert IdOf(tail[i]) != IdOf(cart[0]);
          }
        }
        CartQuantityAbsent(tail, id);
      }
    }
  }

  lemma {:induction false} CartQuantityAbsent(cart: seq<Product>, id: string)
    requires !InCart(cart, id)
    ensures CartQuantity(cart, id) == 0
  {
    if |cart| > 0 {
      assert forall i :: 0 <= i < |cart[1..]| ==> cart[1..][i] == cart[i + 1];
      CartQuantityAbsent(cart[1..], id);
    }
  }

  /** Quantity of the first entry with `id`, or 0 when there is none. */
  function CartQuantity(cart: seq<Product>, id: string): int
  {
    if |cart| == 0 then 0
    else if cart[0].id == id then cart[0].quantity
    else CartQuantity(cart[1..], id)
  }

  lemma {:induction false} CartQuantityAt(cart: seq<Product>, id: string, k: nat)
    requires k < |cart| && cart[k].id == id
    requires forall i :: 0 <= i < k ==> cart[i].id != id
    ensures CartQuantity(cart, id) == cart[k].quantity
  {
    if k > 0 {
      CartQuantityAt(cart[1..], id, k - 1);
    }
  }
}

=== FILE: user_controller.dfy ===
/** The account handlers of server/src/controllers/userController.js over the
    user collection of server/src/models/User.js. The collection is a
    sequence in insertion order, so that `findOne` is the first match. The
    password hash and bcrypt's comparison are parameters; tokens are not
    modelled. */
module UserController {
  import opened Options
  import opened Folds
  import opened JsText
  import opened UserValidation

  /** The roles the schema's `enum` admits. */
  const SchemaRoles: set<string> := {"staff", "manager", "admin"}

  /** A stored user. `phone` is `None` for a stored `null`. */
  datatype UserDoc = UserDoc(
    id: string, firstName: string, lastName: string, email: string,
    passwordHash: string, role: string, phone: Option<string>)

  /** The user fields a response carries: never the password. */
  datatype UserView = UserView(id: string, firstName: string, lastName: string, email: string, role: string)

  datatype ReplyBody =
    | Registered(user: UserView, phone: Option<string>)
    | Account(user: UserView)
    | Message(message: string)

  datatype Response = Response(status: nat, body: ReplyBody)

  const EmailInUse := Response(400, Message("User with this email already exists"))
  const RegisterError := Response(500, Message("Error registering user"))
  const InvalidCredentials := Response(401, Message("Invalid credentials"))
  const LoginError := Response(500, Message("Error logging in"))
  const UserNotFound := Response(404, Message("User not found"))

  /** The 400 for a duplicate key of the unique index on `field`. */
  function DuplicateKey(field: string): Response
  {
    Response(400, Message(field + " already in use"))
  }

  function View(u: UserDoc): (r: UserView)
    ensures r.id == u.id && r.email == u.email && r.role == u.role
    ensures r.firstName == u.firstName && r.lastName == u.lastName
  {
    UserView(u.id, u.firstName, u.lastName, u.email, u.role)
  }

  function EmailOf(u: UserDoc): string
  {
    u.email
  }

  function PhoneOf(u: UserDoc): Option<string>
  {
    u.phone
  }

  /** The index of the first user satisfying `p`. */
  function FirstWhere(users: seq<UserDoc>, p: UserDoc -> bool): (r: Option<nat>)
    ensures r.None? <==> forall i :: 0 <= i < |users| ==> !p(users[i])
    ensures r.Some? ==> r.value < |users| && p(users[r.value])
    ensures r.Some? ==> forall i :: 0 <= i < r.value ==> !p(users[i])
  {
    if |users| == 0 then None
    else if p(users[0]) then Some(0)
    else
      var rest := FirstWhere(users[1..], p);
      if rest.None? then None else Some(rest.value + 1)
  }

  function HasEmail(email: string): UserDoc -> bool
  {
    (u: UserDoc) => u.email == email
  }

  function HasId(id: string): UserDoc -> bool
  {
    (u: UserDoc) => u.id == id
  }

  /** `User.findOne({ email })`. A body without a string email is taken to
      match nobody, as every stored user has a string email. */
  function FindByEmail(users: seq<UserDoc>, email: Json): (r: Option<nat>)
    ensures r.Some? ==> email.Str? && r.value < |users| && users[r.value].email == email.s
    ensures r.None? <==> !email.Str? || forall i :: 0 <= i < |users| ==> users[i].email != email.s
  {
    if email.Str? then FirstWhere(users, HasEmail(email.s)) else None
  }

  /** What `phone = null` followed by `phone ? phone.trim() : null` makes of
      the body's phone: no value, a trimmed string, or a `TypeError` from
      calling `trim` on a truthy non-string. */
  datatype PhoneCast = NullPhone | GivenPhone(number: string) | NotTrimmable

  function CastPhone(v: Json): (r: PhoneCast)
    ensures r == NullPhone <==> v.Missing? || v.Null? || v == Str("")
    ensures r.GivenPhone? <==> v.Str? && v.s != ""
    ensures r.GivenPhone? ==> r.number == Trim(v.s)
  {
    match v
    case Missing => NullPhone
    case Null => NullPhone
    case Other => NotTrimmable
    case Str(s) => if s == "" then NullPhone else GivenPhone(Trim(s))
  }

  /** `role || 'staff'`: a missing, `null` or empty role becomes "staff". */
  function CastRole(v: Json): (r: Option<string>)
    ensures v.Missing? || v.Null? || v == Str("") ==> r == Some("staff")
    ensures v.Str? && v.s != "" ==> r == Some(v.s)
    ensures v.Other? ==> r.None?
  {
    match v
    case Missing => Some("staff")
    case Null => Some("staff")
    case Other => None
    case Str(s) => if s == "" then Some("staff") else Some(s)
  }

  /** A `required: true, trim: true` string path: the trimmed string, unless
      it is absent, not a string, or blank. */
  function RequiredTrimmed(v: Json): (r: Option<string>)
    ensures r.Some? <==> v.Str? && !AllWhiteSpace(v.s)
    ensures r.Some? ==> r.value == Trim(v.s) && r.value != ""
  {
    if v.Str? && Trim(v.s) != "" then Some(Trim(v.s)) else None
  }

  /** A `required: true` string path without trimming. */
  function Required(v: Json): (r: Option<string>)
    ensures r.Some? <==> v.Str? && v.s != ""
    ensures r.Some? ==> r.value == v.s
  {
    if v.Str? && v.s != "" then Some(v.s) else None
  }

  /** The document `new User({...})` builds from the body and that passes
      the schema's validation, or `None` when construction throws or
      validation fails. The stored password is the hash of the one sent. */
  function NewUser(body: Body, newId: string, hash: string -> string): (r: Option<UserDoc>)
    ensures r.Some? <==>
      && RequiredTrimmed(Field(body, "firstName")).Some?
      && RequiredTrimmed(Field(body, "lastName")).Some?
      && Required(Field(body, "email")).Some?
      && Required(Field(body, "password")).Some?
      && !CastPhone(Field(body, "phone")).NotTrimmable?
      && CastRole(Field(body, "role")).Some? && CastRole(Field(body, "role")).value in SchemaRoles
    ensures r.Some? ==>
      && r.value.id == newId
      && r.value.firstName == Trim(Field(body, "firstName").s)
      && r.value.lastName == Trim(Field(body, "lastName").s)
      && r.value.email == Field(body, "email").s
      && r.value.passwordHash == hash(Field(body, "password").s)
      && r.value.role in SchemaRoles
      && (r.value.phone.Some? <==> CastPhone(Field(body, "phone")).GivenPhone?)
      && (r.value.phone.Some? ==> r.value.phone.value == Trim(Field(body, "phone").s))
  {
    var phone := CastPhone(Field(body, "phone"));
    var firstName := RequiredTrimmed(Field(body, "firstName"));
    var lastName := RequiredTrimmed(Field(body, "lastName"));
    var email := Required(Field(body, "email"));
    var password := Required(Field(body, "password"));
    var role := CastRole(Field(body, "role"));
    if phone.NotTrimmable? || firstName.None? || lastName.None? || email.None? || password.None?
      || role.None? || role.value !in SchemaRoles
    then None
    else
      var stored := if phone.GivenPhone? then Some(phone.number) else None;
      Some(UserDoc(newId, firstName.value, lastName.value, email.value, hash(password.value), role.value, stored))
  }

  /** Whether two stored phones clash in the unique phone index. Stored
      `null`s clash with each other exactly when `nullsCollide`: a sparse
      index skips documents without the field, but the handler stores an
      explicit `null`, which the index does hold. */
  predicate PhonesClash(a: Option<string>, b: Option<string>, nullsCollide: bool)
  {
    if a.Some? && b.Some? then a.value == b.value else nullsCollide && a.None? && b.None?
  }

  function ClashesWith(doc: UserDoc, nullsCollide: bool): UserDoc -> bool
  {
    (u: UserDoc) => PhonesClash(u.phone, doc.phone, nullsCollide)
  }

  /** The unique index an insert violates first, `_id` before `phone`
      (the email index cannot fire: the email was looked up beforehand). */
  function Conflict(users: seq<UserDoc>, doc: UserDoc, nullsCollide: bool): (r: Option<string>)
    ensures r == Some("_id") <==> exists i :: 0 <= i < |users| && users[i].id == doc.id
    ensures r.None? <==>
      && (forall i :: 0 <= i < |users| ==> users[i].id != doc.id)
      && (forall i :: 0 <= i < |users| ==> !PhonesClash(users[i].phone, doc.phone, nullsCollide))
    ensures r.Some? ==> r == Some("_id") || r == Some("phone")
  {
    if FirstWhere(users, HasId(doc.id)).Some? then Some("_id")
    else if FirstWhere(users, ClashesWith(doc, nullsCollide)).Some? then Some("phone")
    else None
  }

  /** `register`, with the phone index's treatment of `null` as a switch.
      The email lookup comes first; then the document is built and
      validated; then inserted, where a unique index may refuse it. On
      success the user is appended and returned with its phone but without
      its password. */
  function RegisterWith(users: seq<UserDoc>, body: Body, newId: string, hash: string -> string, nullsCollide: bool): (r: (seq<UserDoc>, Response))
    ensures FindByEmail(users, Field(body, "email")).Some? ==> r == (users, EmailInUse)
    ensures FindByEmail(users, Field(body, "email")).None? && NewUser(body, newId, hash).None? ==> r == (users, RegisterError)
    ensures r.1.status == 201 <==>
      && FindByEmail(users, Field(body, "email")).None?
      && NewUser(body, newId, hash).Some?
      && Conflict(users, NewUser(body, newId, hash).value, nullsCollide).None?
    ensures r.1.status == 201 ==>
      var doc := NewUser(body, newId, hash).value;
      r == (users + [doc], Response(201, Registered(View(doc), doc.phone)))
    ensures r.1.status != 201 ==> r.0 == users && r.1.status in {400, 500}
  {
    if FindByEmail(users, Field(body, "email")).Some? then (users, EmailInUse)
    else match NewUser(body, newId, hash)
      case None => (users, RegisterError)
      case Some(doc) =>
        match Conflict(users, doc, nullsCollide)
        case Some(field) => (users, DuplicateKey(field))
        case None => (users + [doc], Response(201, Registered(View(doc), doc.phone)))
  }

  /** `register` as written: every phoneless user stores `null`, and the
      unique phone index holds those `null`s. */
  function RegisterAsWritten(users: seq<UserDoc>, body: Body, newId: string, hash: string -> string): (r: (seq<UserDoc>, Response))
    ensures r.1.status == 201 ==> |r.0| == |users| + 1
    ensures r.1.status == 201 ==> forall i :: 0 <= i < |users| ==> PhoneOf(users[i]) != PhoneOf(r.0[|users|])
  {
    RegisterWith(users, body, newId, hash, true)
  }

  /** `register` as evidently intended: phone numbers are unique among the
      users that have one, and any number of users may have none. */
  function Register(users: seq<UserDoc>, body: Body, newId: string, hash: string -> string): (r: (seq<UserDoc>, Response))
    ensures r.1.status == 201 ==> |r.0| == |users| + 1
    ensures r.1.status == 201 && r.0[|users|].phone.Some? ==>
      forall i :: 0 <= i < |users| ==> users[i].phone != r.0[|users|].phone
    ensures
      && CastPhone(Field(body, "phone")) == NullPhone && NewUser(body, newId, hash).Some?
      && FindByEmail(users, Field(body, "email")).None?
      && (forall i :: 0 <= i < |users| ==> users[i].id != newId)
      ==> r.1.status == 201
  {
    RegisterWith(users, body, newId, hash, false)
  }

  /** No two users share an email. */
  predicate UniqueEmails(users: seq<UserDoc>)
  {
    UniqueBy(users, EmailOf)
  }

  /** No two users share a phone number; users without one are unconstrained. */
  predicate UniquePhones(users: seq<UserDoc>)
  {
    forall i, j :: 0 <= i < j < |users| && users[i].phone.Some? ==> users[i].phone != users[j].phone
  }

  /** Registration, either way, keeps emails unique: a taken email is
      refused before anything is inserted. */
  lemma RegisterKeepsUniqueEmails(users: seq<UserDoc>, body: Body, newId: string, hash: string -> string, nullsCollide: bool)
    requires UniqueEmails(users)
    ensures UniqueEmails(RegisterWith(users, body, newId, hash, nullsCollide).0)
  {
    var r := RegisterWith(users, body, newId, hash, nullsCollide);
    if r.1.status == 201 {
      var s := r.0;
      forall i, j | 0 <= i < j < |s| ensures EmailOf(s[i]) != EmailOf(s[j]) {
        if j == |users| {
          assert s[i] == users[i];
        }
      }
    }
  }

  /** The corrected registration keeps phone numbers unique. */
  lemma RegisterKeepsUniquePhones(users: seq<UserDoc>, body: Body, newId: string, hash: string -> string)
    requires UniquePhones(users)
    ensures UniquePhones(Register(users, body, newId, hash).0)
  {
    var r := Register(users, body, newId, hash);
    if r.1.status == 201 {
      var s := r.0;
      forall i, j | 0 <= i < j < |s| && s[i].phone.Some? ensures s[i].phone != s[j].phone {
        if j == |users| {
          assert s[i] == users[i];
        }
      }
    }
  }

  /** As written, the phone index admits at most one phoneless user. */
  lemma RegisterAsWrittenAtMostOnePhoneless(users: seq<UserDoc>, body: Body, newId: string, hash: string -> string)
    requires UniqueBy(users, PhoneOf)
    ensures UniqueBy(RegisterAsWritten(users, body, newId, hash).0, PhoneOf)
  {
    var r := RegisterAsWritten(users, body, newId, hash);
    if r.1.status == 201 {
      var s := r.0;
      forall i, j | 0 <= i < j < |s| ensures PhoneOf(s[i]) != PhoneOf(s[j]) {
        if j == |users| {
          assert s[i] == users[i];
          assert !PhonesClash(users[i].phone, s[j].phone, true);
        }
      }
    }
  }

  /** A registration body with the four required fields and no phone or role. */
  function PhonelessBody(firstName: string, lastName: string, email: string, password: string): Body
  {
    map["firstName" := Str(firstName), "lastName" := Str(lastName), "email" := Str(email), "password" := Str(password)]
  }

  lemma PhonelessBodyAccepted(firstName: string, lastName: string, email: string, password: string)
    requires !AllWhiteSpace(firstName) && !AllWhiteSpace(lastName) && email != "" && password != ""
    ensures
      var body := PhonelessBody(firstName, lastName, email, password);
      Field(body, "email") == Str(email) && ValidWithoutPhone(body)
  {
    var body := PhonelessBody(firstName, lastName, email, password);
    assert Field(body, "firstName") == Str(firstName) && Field(body, "lastName") == Str(lastName);
    assert Field(body, "email") == Str(email) && Field(body, "password") == Str(password);
    assert Field(body, "phone") == Missing && Field(body, "role") == Missing;
  }

  /** An email no stored user has is not found. */
  lemma FreshEmailNotFound(users: seq<UserDoc>, body: Body, newId: string, hash: string -> string)
    requires NewUser(body, newId, hash).Some?
    requires forall i :: 0 <= i < |users| ==> users[i].email != Field(body, "email").s
    ensures FindByEmail(users, Field(body, "email")).None?
  {
  }

  /** A body the schema accepts that leaves the phone out: non-blank names,
      an email and a password, a role the schema admits, and a phone that is
      absent, `null` or empty. */
  predicate ValidWithoutPhone(body: Body)
  {
    && Field(body, "firstName").Str? && !AllWhiteSpace(Field(body, "firstName").s)
    && Field(body, "lastName").Str? && !AllWhiteSpace(Field(body, "lastName").s)
    && Field(body, "email").Str? && Field(body, "email").s != ""
    && Field(body, "password").Str? && Field(body, "password").s != ""
    && CastPhone(Field(body, "phone")) == NullPhone
    && CastRole(Field(body, "role")).Some? && CastRole(Field(body, "role")).value in SchemaRoles
  }

  /** Such a body builds a document, and the document has no phone. */
  lemma ValidWithoutPhoneAccepted(body: Body, newId: string, hash: string -> string)
    requires ValidWithoutPhone(body)
    ensures NewUser(body, newId, hash).Some? && NewUser(body, newId, hash).value.phone.None?
  {
  }

  /** A registration that passes the email lookup, validation and every
      unique index is stored at the end of the collection. */
  lemma RegisterStores(users: seq<UserDoc>, body: Body, newId: string, hash: string -> string, nullsCollide: bool, doc: UserDoc)
    requires FindByEmail(users, Field(body, "email")).None?
    requires NewUser(body, newId, hash) == Some(doc)
    requires Conflict(users, doc, nullsCollide).None?
    ensures RegisterWith(users, body, newId, hash, nullsCollide) == (users + [doc], Response(201, Registered(View(doc), doc.phone)))
  {
  }

  /** A registration that passes the email lookup and validation but clashes
      on the phone index is refused with "phone already in use". */
  lemma RegisterRefusesPhone(users: seq<UserDoc>, body: Body, newId: string, hash: string -> string, nullsCollide: bool, doc: UserDoc)
    requires FindByEmail(users, Field(body, "email")).None?
    requires NewUser(body, newId, hash) == Some(doc)
    requires Conflict(users, doc, nullsCollide) == Some("phone")
    ensures RegisterWith(users, body, newId, hash, nullsCollide) == (users, DuplicateKey("phone"))
  {
  }

  /** With `null`s exempt from the phone index, a phoneless document with a
      fresh id violates no unique index. */
  lemma PhonelessConflictFree(users: seq<UserDoc>, doc: UserDoc)
    requires doc.phone.None? && forall i :: 0 <= i < |users| ==> users[i].id != doc.id
    ensures Conflict(users, doc, false).None?
  {
    assert forall i :: 0 <= i < |users| ==> !PhonesClash(users[i].phone, doc.phone, false);
  }

  /** As written, once one user has no phone, every further valid phoneless
      registration is refused with "phone already in use", even with a
      fresh email and id. */
  lemma PhonelessRegistrationRefused(users: seq<UserDoc>, body: Body, newId: string, hash: string -> string)
    requires ValidWithoutPhone(body)
    requires forall i :: 0 <= i < |users| ==> users[i].id != newId && users[i].email != Field(body, "email").s
    requires exists i :: 0 <= i < |users| && users[i].phone.None?
    ensures RegisterAsWritten(users, body, newId, hash) == (users, DuplicateKey("phone"))
  {
    ValidWithoutPhoneAccepted(body, newId, hash);
    var doc := NewUser(body, newId, hash).value;
    FreshEmailNotFound(users, body, newId, hash);
    var k :| 0 <= k < |users| && users[k].phone.None?;
    assert PhonesClash(users[k].phone, doc.phone, true);
    assert Conflict(users, doc, true) == Some("phone");
    RegisterRefusesPhone(users, body, newId, hash, true, doc);
  }

  /** The corrected handler accepts a valid phoneless registration whenever
      its email and id are fresh, however many phoneless users exist. */
  lemma PhonelessRegistrationAccepted(users: seq<UserDoc>, body: Body, newId: string, hash: string -> string)
    requires ValidWithoutPhone(body)
    requires forall i :: 0 <= i < |users| ==> users[i].id != newId && users[i].email != Field(body, "email").s
    ensures Register(users, body, newId, hash).1.status == 201
  {
    ValidWithoutPhoneAccepted(body, newId, hash);
    var doc := NewUser(body, newId, hash).value;
    FreshEmailNotFound(users, body, newId, hash);
    PhonelessConflictFree(users, doc);
    RegisterStores(users, body, newId, hash, false, doc);
  }

  /** Into an empty collection, a valid registration is stored either way. */
  lemma FirstRegistration(body: Body, newId: string, hash: string -> string, nullsCollide: bool)
    requires NewUser(body, newId, hash).Some?
    ensures RegisterWith([], body, newId, hash, nullsCollide).1.status == 201
    ensures RegisterWith([], body, newId, hash, nullsCollide).0 == [NewUser(body, newId, hash).value]
  {
    var doc := NewUser(body, newId, hash).value;
    assert FindByEmail([], Field(body, "email")).None?;
    assert Conflict([], doc, nullsCollide).None?;
    RegisterStores([], body, newId, hash, nullsCollide, doc);
  }

  /** A collection holding only `doc` has neither the id nor the email of a
      second registration that differs from it in both. */
  lemma SecondIsFresh(doc: UserDoc, second: Body, secondId: string)
    requires doc.id != secondId && Field(second, "email").Str? && Field(second, "email") != Str(doc.email)
    ensures forall i :: 0 <= i < |[doc]| ==> [doc][i].id != secondId && [doc][i].email != Field(second, "email").s
  {
    assert [doc][0] == doc;
  }

  /** The handler as written refuses the second of two valid phoneless
      registrations with "phone already in use", although email and id
      differ: both store a `null` phone, and the index counts them as the
      same value. `PhonelessBody` gives such registrations. */
  lemma SecondPhonelessUserRefused(first: Body, second: Body, firstId: string, secondId: string, hash: string -> string)
    requires ValidWithoutPhone(first) && ValidWithoutPhone(second)
    requires firstId != secondId && Field(first, "email") != Field(second, "email")
    ensures RegisterAsWritten([], first, firstId, hash).1.status == 201
    ensures
      var afterFirst := RegisterAsWritten([], first, firstId, hash).0;
      RegisterAsWritten(afterFirst, second, secondId, hash) == (afterFirst, DuplicateKey("phone"))
  {
    ValidWithoutPhoneAccepted(first, firstId, hash);
    ValidWithoutPhoneAccepted(second, secondId, hash);
    FirstRegistration(first, firstId, hash, true);
    var doc := NewUser(first, firstId, hash).value;
    assert Field(first, "email") == Str(doc.email);
    SecondIsFresh(doc, second, secondId);
    assert [doc][0].phone.None?;
    PhonelessRegistrationRefused([doc], second, secondId, hash);
  }

  /** The same two registrations both succeed under the corrected handler. */
  lemma SecondPhonelessUserAccepted(first: Body, second: Body, firstId: string, secondId: string, hash: string -> string)
    requires ValidWithoutPhone(first) && ValidWithoutPhone(second)
    requires firstId != secondId && Field(first, "email") != Field(second, "email")
    ensures Register([], first, firstId, hash).1.status == 201
    ensures Register(Register([], first, firstId, hash).0, second, secondId, hash).1.status == 201
  {
    ValidWithoutPhoneAccepted(first, firstId, hash);
    ValidWithoutPhoneAccepted(second, secondId, hash);
    FirstRegistration(first, firstId, hash, false);
    var doc := NewUser(first, firstId, hash).value;
    assert Field(first, "email") == Str(doc.email);
    SecondIsFresh(doc, second, secondId);
    PhonelessRegistrationAccepted([doc], second, secondId, hash);
  }

  /** `login`. `matches(candidate, hash)` is bcrypt's comparison, which
      throws on a non-string candidate. An unknown email and a wrong
      password give the same reply. */
  function Login(users: seq<UserDoc>, body: Body, matches: (string, string) -> bool): (r: Response)
    ensures FindByEmail(users, Field(body, "email")).None? ==> r == InvalidCredentials
    ensures
      var found := FindByEmail(users, Field(body, "email"));
      var password := Field(body, "password");
      found.Some? ==>
        && (!password.Str? ==> r == LoginError)
        && (password.Str? && !matches(password.s, users[found.value].passwordHash) ==> r == InvalidCredentials)
        && (password.Str? && matches(password.s, users[found.value].passwordHash) ==> r == Response(200, Account(View(users[found.value]))))
  {
    var found := FindByEmail(users, Field(body, "email"));
    var password := Field(body, "password");
    if found.None? then InvalidCredentials
    else if !password.Str? then LoginError
    else if !matches(password.s, users[found.value].passwordHash) then InvalidCredentials
    else Response(200, Account(View(users[found.value])))
  }

  /** A 200 from `login` names a stored user with the email sent whose hash
      the password matches; any other reply is a 401 or a 500. */
  lemma LoginSucceedsOnlyOnMatch(users: seq<UserDoc>, body: Body, matches: (string, string) -> bool)
    ensures
      var r := Login(users, body, matches);
      r.status == 200 <==>
        exists i :: 0 <= i < |users| && FindByEmail(users, Field(body, "email")) == Some(i)
          && Field(body, "password").Str? && matches(Field(body, "password").s, users[i].passwordHash)
          && r.body == Account(View(users[i]))
    ensures Login(users, body, matches).status in {200, 401, 500}
  {
    var found := FindByEmail(users, Field(body, "email"));
    if found.Some? {
      var r := Login(users, body, matches);
      if r.status == 200 {
        assert FindByEmail(users, Field(body, "email")) == Some(found.value);
      }
    }
  }

  /** The login request body `{ email, password }`. */
  function LoginBody(email: Json, password: Json): (b: Body)
    ensures Field(b, "email") == email && Field(b, "password") == password
    ensures b.Keys == {"email", "password"}
  {
    map["email" := email, "password" := password]
  }

  /** A user appended with an email no earlier user has is the one an
      email lookup finds. */
  lemma FindByEmailAppended(users: seq<UserDoc>, doc: UserDoc)
    requires forall i :: 0 <= i < |users| ==> users[i].email != doc.email
    ensures FindByEmail(users + [doc], Str(doc.email)) == Some(|users|)
  {
    var after := users + [doc];
    assert forall i :: 0 <= i < |users| ==> after[i] == users[i];
    assert after[|users|] == doc;
  }

  /** A freshly registered user can log in with the password they chose,
      provided the comparison accepts a password against its own hash. */
  lemma RegisterThenLogin(users: seq<UserDoc>, body: Body, newId: string, hash: string -> string,
                          matches: (string, string) -> bool, nullsCollide: bool)
    requires forall p :: matches(p, hash(p))
    requires RegisterWith(users, body, newId, hash, nullsCollide).1.status == 201
    ensures
      var after := RegisterWith(users, body, newId, hash, nullsCollide).0;
      Login(after, LoginBody(Field(body, "email"), Field(body, "password")), matches)
        == Response(200, Account(View(NewUser(body, newId, hash).value)))
  {
    var after := RegisterWith(users, body, newId, hash, nullsCollide).0;
    var doc := NewUser(body, newId, hash).value;
    var login := LoginBody(Field(body, "email"), Field(body, "password"));
    assert after == users + [doc];
    assert Field(body, "email") == Str(doc.email);
    FindByEmailAppended(users, doc);
    assert after[|users|] == doc;
    assert matches(Field(body, "password").s, doc.passwordHash);
  }

  /** `getProfile`: the caller's account without password or phone, or 404. */
  function GetProfile(users: seq<UserDoc>, callerId: string): (r: Response)
    ensures r == UserNotFound <==> forall i :: 0 <= i < |users| ==> users[i].id != callerId
    ensures r != UserNotFound ==>
      exists i :: 0 <= i < |users| && users[i].id == callerId && r == Response(200, Account(View(users[i])))
  {
    match FirstWhere(users, HasId(callerId))
    case None => UserNotFound
    case Some(i) => Response(200, Account(View(users[i])))
  }

  /** The names `updateProfile` reads; `None` for a name not sent. */
  datatype NameUpdate = NameUpdate(firstName: Option<string>, lastName: Option<string>)

  /** The update applied to one account: each name sent replaces the stored
      one, trimmed by the schema; nothing else changes. */
  function ApplyNames(u: UserDoc, update: NameUpdate): (r: UserDoc)
    ensures r.firstName == (if update.firstName.Some? then Trim(update.firstName.value) else u.firstName)
    ensures r.lastName == (if update.lastName.Some? then Trim(update.lastName.value) else u.lastName)
    ensures r.(firstName := u.firstName, lastName := u.lastName) == u
  {
    u.(firstName := if update.firstName.Some? then Trim(update.firstName.value) else u.firstName,
       lastName := if update.lastName.Some? then Trim(update.lastName.value) else u.lastName)
  }

  /** `updateProfile`: 404 when the caller's account is gone; otherwise the
      first account with that id gets the new names and is returned. */
  function UpdateProfile(users: seq<UserDoc>, callerId: string, update: NameUpdate): (r: (seq<UserDoc>, Response))
    ensures FirstWhere(users, HasId(callerId)).None? ==> r == (users, UserNotFound)
    ensures FirstWhere(users, HasId(callerId)).Some? ==>
      var i := FirstWhere(users, HasId(callerId)).value;
      r == (users[i := ApplyNames(users[i], update)], Response(200, Account(View(ApplyNames(users[i], update)))))
    ensures |r.0| == |users|
    ensures forall j :: 0 <= j < |users| ==>
      (&& r.0[j].id == users[j].id && r.0[j].email == users[j].email
       && r.0[j].passwordHash == users[j].passwordHash && r.0[j].role == users[j].role && r.0[j].phone == users[j].phone)
  {
    match FirstWhere(users, HasId(callerId))
    case None => (users, UserNotFound)
    case Some(i) =>
      var u := ApplyNames(users[i], update);
      (users[i := u], Response(200, Account(View(u))))
  }

  /** Applying the same names twice is applying them once. */
  lemma ApplyNamesIdempotent(u: UserDoc, update: NameUpdate)
    ensures ApplyNames(ApplyNames(u, update), update) == ApplyNames(u, update)
  {
    if update.firstName.Some? {
      TrimIdempotent(update.firstName.value);
    }
    if update.lastName.Some? {
      TrimIdempotent(update.lastName.value);
    }
  }

  /** Replacing the first match by another match keeps it the first match. */
  lemma FirstWhereAfterReplace(users: seq<UserDoc>, p: UserDoc -> bool, i: nat, v: UserDoc)
    requires FirstWhere(users, p) == Some(i) && p(v)
    ensures FirstWhere(users[i := v], p) == Some(i)
  {
    var after := users[i := v];
    assert forall j :: 0 <= j < i ==> after[j] == users[j];
    assert after[i] == v;
  }

  /** After an update the profile shows the new names; repeating the update
      changes nothing, since trimming twice is trimming once. */
  lemma UpdateThenGetProfile(users: seq<UserDoc>, callerId: string, update: NameUpdate)
    requires exists i :: 0 <= i < |users| && users[i].id == callerId
    ensures
      var (after, reply) := UpdateProfile(users, callerId, update);
      && GetProfile(after, callerId) == reply
      && UpdateProfile(after, callerId, update).0 == after
  {
    var i := FirstWhere(users, HasId(callerId)).value;
    var u := ApplyNames(users[i], update);
    var after := users[i := u];
    FirstWhereAfterReplace(users, HasId(callerId), i, u);
    ApplyNamesIdempotent(users[i], update);
    assert after[i] == u;
    assert after[i := ApplyNames(after[i], update)] == after;
  }
}

=== FILE: user_profile.dfy ===
/** The profile page's two forms (client/src/pages/UserProfile.jsx): field
    edits with error clearing, the profile and password validators, and the
    password form's reset after a successful submission. */
module UserProfile {
  import opened Options
  import opened JsText

  /** The inputs of the profile form, by their `name` attribute. The role is
      shown but has no input. */
  datatype ProfileField = FirstName | LastName | Email | Phone | Address | DateOfBirth

  /** The inputs of the password form. */
  datatype PasswordField = CurrentPassword | NewPassword | ConfirmNewPassword

  /** The keys of the one `errors` object both forms share. */
  datatype ErrorKey = ProfileKey(pf: ProfileField) | PasswordKey(wf: PasswordField)

  type Errors = map<ErrorKey, string>

  datatype ProfileData = ProfileData(
    firstName: string, lastName: string, email: string, phone: string,
    role: string, address: string, dateOfBirth: string)

  datatype PasswordData = PasswordData(currentPassword: string, newPassword: string, confirmNewPassword: string)

  /** The page's state. */
  datatype Page = Page(profile: ProfileData, passwords: PasswordData, errors: Errors)

  const EmptyPasswords: PasswordData := PasswordData("", "", "")

  function GetProfile(p: ProfileData, f: ProfileField): string
  {
    match f
    case FirstName => p.firstName
    case LastName => p.lastName
    case Email => p.email
    case Phone => p.phone
    case Address => p.address
    case DateOfBirth => p.dateOfBirth
  }

  /** `{ ...prev, [name]: value }` on the profile data. */
  function SetProfile(p: ProfileData, f: ProfileField, v: string): (r: ProfileData)
    ensures GetProfile(r, f) == v
    ensures forall g :: g != f ==> GetProfile(r, g) == GetProfile(p, g)
    ensures r.role == p.role
  {
    match f
    case FirstName => p.(firstName := v)
    case LastName => p.(lastName := v)
    case Email => p.(email := v)
    case Phone => p.(phone := v)
    case Address => p.(address := v)
    case DateOfBirth => p.(dateOfBirth := v)
  }

  function GetPassword(p: PasswordData, f: PasswordField): string
  {
    match f
    case CurrentPassword => p.currentPassword
    case NewPassword => p.newPassword
    case ConfirmNewPassword => p.confirmNewPassword
  }

  /** `{ ...prev, [name]: value }` on the password data. */
  function SetPassword(p: PasswordData, f: PasswordField, v: string): (r: PasswordData)
    ensures GetPassword(r, f) == v
    ensures forall g :: g != f ==> GetPassword(r, g) == GetPassword(p, g)
  {
    match f
    case CurrentPassword => p.(currentPassword := v)
    case NewPassword => p.(newPassword := v)
    case ConfirmNewPassword => p.(confirmNewPassword := v)
  }

  /** `errors[name]` is truthy: present and not the empty string. */
  predicate HasError(errors: Errors, k: ErrorKey)
  {
    k in errors && errors[k] != ""
  }

  /** `if (errors[name]) setErrors({ ...prev, [name]: '' })`. */
  function ClearError(errors: Errors, k: ErrorKey): (r: Errors)
    ensures !HasError(r, k)
    ensures forall k' :: k' != k ==> (k' in r <==> k' in errors) && (k' in errors ==> r[k'] == errors[k'])
    ensures k in r <==> k in errors
  {
    if HasError(errors, k) then errors[k := ""] else errors
  }

  /** `handleProfileChange`: sets one profile field and clears that field's
      error; the password data and every other error stay as they were. */
  function ProfileChange(page: Page, f: ProfileField, value: string): (r: Page)
    ensures GetProfile(r.profile, f) == value
    ensures forall g :: g != f ==> GetProfile(r.profile, g) == GetProfile(page.profile, g)
    ensures r.profile.role == page.profile.role
    ensures r.passwords == page.passwords
    ensures r.errors == ClearError(page.errors, ProfileKey(f))
  {
    Page(SetProfile(page.profile, f, value), page.passwords, ClearError(page.errors, ProfileKey(f)))
  }

  /** `handlePasswordChange`: the same for the password form. */
  function PasswordChange(page: Page, f: PasswordField, value: string): (r: Page)
    ensures GetPassword(r.passwords, f) == value
    ensures forall g :: g != f ==> GetPassword(r.passwords, g) == GetPassword(page.passwords, g)
    ensures r.profile == page.profile
    ensures r.errors == ClearError(page.errors, PasswordKey(f))
  {
    Page(page.profile, SetPassword(page.passwords, f, value), ClearError(page.errors, PasswordKey(f)))
  }

  /** Editing a field and then editing it again leaves only the last value,
      and the other fields' errors are never touched. */
  lemma ProfileChangeTwice(page: Page, f: ProfileField, v1: string, v2: string)
    ensures ProfileChange(ProfileChange(page, f, v1), f, v2) == ProfileChange(page, f, v2)
  {
    var once := ProfileChange(page, f, v2);
    var twice := ProfileChange(ProfileChange(page, f, v1), f, v2);
    assert twice.profile == once.profile by {
      assert forall g :: GetProfile(twice.profile, g) == GetProfile(once.profile, g);
    }
  }

  // ------------------------------------------------------------ e-mail rule

  /** A character `[^\s@]` matches. */
  predicate Plain(c: char)
  {
    !IsWhiteSpace(c) && c != '@'
  }

  predicate AllPlain(s: string)
  {
    forall k :: 0 <= k < |s| ==> Plain(s[k])
  }

  /** The regular expression `^[^\s@]+@[^\s@]+\.[^\s@]+$` read as its three
      groups: a non-empty plain part, `@`, a non-empty plain part, `.`, and a
      non-empty plain part. */
  ghost predicate EmailPattern(s: string)
  {
    exists i, j :: 0 < i && i + 1 < j && j + 1 < |s| && s[i] == '@' && s[j] == '.' &&
      AllPlain(s[..i]) && AllPlain(s[i + 1..j]) && AllPlain(s[j + 1..])
  }

  /** The first position of `c` in `s`. */
  function IndexOf(s: string, c: char): (r: Option<nat>)
    ensures r.Some? ==> r.value < |s| && s[r.value] == c && forall k :: 0 <= k < r.value ==> s[k] != c
    ensures r.None? ==> forall k :: 0 <= k < |s| ==> s[k] != c
  {
    if |s| == 0 then None
    else if s[0] == c then Some(0)
    else match IndexOf(s[1..], c)
      case None => None
      case Some(k) => Some(k + 1)
  }

  /** A plain domain with a dot that is neither its first nor its last
      character. */
  predicate DomainOk(d: string)
  {
    AllPlain(d) && exists j :: 1 <= j < |d| - 1 && d[j] == '.'
  }

  /** `emailRegex.test(s)`: one `@`, preceded by a non-empty plain part and
      followed by a plain domain with an inner dot. */
  predicate EmailMatches(s: string)
  {
    match IndexOf(s, '@')
    case None => false
    case Some(i) => i > 0 && AllPlain(s[..i]) && DomainOk(s[i + 1..])
  }

  /** The matcher accepts exactly what the regular expression describes. */
  lemma EmailMatchesPattern(s: string)
    ensures EmailMatches(s) <==> EmailPattern(s)
  {
    if EmailMatches(s) {
      EmailMatchesSound(s);
    }
    if EmailPattern(s) {
      var i, j :| 0 < i && i + 1 < j && j + 1 < |s| && s[i] == '@' && s[j] == '.' &&
        AllPlain(s[..i]) && AllPlain(s[i + 1..j]) && AllPlain(s[j + 1..]);
      EmailMatchesComplete(s, i, j);
    }
  }

  lemma EmailMatchesSound(s: string)
    requires EmailMatches(s)
    ensures EmailPattern(s)
  {
    var i := IndexOf(s, '@').value;
    var d := s[i + 1..];
    var j' :| 1 <= j' < |d| - 1 && d[j'] == '.';
    var j := i + 1 + j';
    assert s[j] == '.';
    assert s[i + 1..j] == d[..j'];
    assert s[j + 1..] == d[j' + 1..];
  }

  lemma EmailMatchesComplete(s: string, i: nat, j: nat)
    requires 0 < i && i + 1 < j && j + 1 < |s| && s[i] == '@' && s[j] == '.'
    requires AllPlain(s[..i]) && AllPlain(s[i + 1..j]) && AllPlain(s[j + 1..])
    ensures EmailMatches(s)
  {
    forall k | 0 <= k < i ensures s[k] != '@' {
      assert s[k] == s[..i][k];
    }
    assert IndexOf(s, '@') == Some(i);
    var d := s[i + 1..];
    forall k | 0 <= k < |d| ensures Plain(d[k]) {
      if k < j - i - 1 {
        assert d[k] == s[i + 1..j][k];
      } else if k > j - i - 1 {
        assert d[k] == s[j + 1..][k - (j - i)];
      }
    }
    assert d[j - i - 1] == '.';
  }

  // ------------------------------------------------------------ validators

  const FirstNameRequired := "First Name is required"
  const LastNameRequired := "Last Name is required"
  const EmailRequired := "Email is required"
  const EmailInvalid := "Invalid email format"
  const PhoneInvalid := "Phone number must be 10 digits"
  const CurrentRequired := "Current password is required"
  const NewRequired := "New password is required"
  const NewTooShort := "Password must be at least 6 characters"
  const Mismatch := "Passwords do not match"

  /** Records `message` under `k` when `cond` holds. */
  function Put(e: Errors, cond: bool, k: ErrorKey, message: string): (r: Errors)
    ensures k in r <==> cond || k in e
    ensures forall k' :: k' != k ==> (k' in r <==> k' in e) && (k' in e ==> r[k'] == e[k'])
    ensures cond ==> r[k] == message
    ensures !cond && k in e ==> r[k] == e[k]
  {
    if cond then e[k := message] else e
  }

  /** The error map for the outcomes of the four profile checks. */
  function ProfileErrorsFor(firstBlank: bool, lastBlank: bool, emailBlank: bool, emailBad: bool, phoneBad: bool): (r: Errors)
    ensures ProfileKey(FirstName) in r <==> firstBlank
    ensures ProfileKey(LastName) in r <==> lastBlank
    ensures ProfileKey(Email) in r <==> emailBlank || emailBad
    ensures ProfileKey(Phone) in r <==> phoneBad
    ensures ProfileKey(Email) in r ==> r[ProfileKey(Email)] == if emailBlank then EmailRequired else EmailInvalid
    ensures forall k :: k in r ==> r[k] != ""
    ensures forall k :: k in r ==> k.ProfileKey? && k.pf in {FirstName, LastName, Email, Phone}
  {
    var e1 := Put(map[], firstBlank, ProfileKey(FirstName), FirstNameRequired);
    var e2 := Put(e1, lastBlank, ProfileKey(LastName), LastNameRequired);
    var e3 := Put(e2, emailBlank || emailBad, ProfileKey(Email), if emailBlank then EmailRequired else EmailInvalid);
    Put(e3, phoneBad, ProfileKey(Phone), PhoneInvalid)
  }

  /** `validateProfileForm`'s `newErrors`: first and last name must be
      non-blank after trimming; the e-mail must be non-blank after trimming
      and then, untrimmed, match the pattern; a non-empty phone must be ten
      ASCII digits. No other key is ever set. */
  function ProfileErrors(p: ProfileData): (r: Errors)
    ensures ProfileKey(FirstName) in r <==> Trim(p.firstName) == ""
    ensures ProfileKey(LastName) in r <==> Trim(p.lastName) == ""
    ensures ProfileKey(Email) in r <==> Trim(p.email) == "" || !EmailMatches(p.email)
    ensures ProfileKey(Phone) in r <==> p.phone != "" && !TenDigits(p.phone)
    ensures ProfileKey(Email) in r ==> r[ProfileKey(Email)] == if Trim(p.email) == "" then EmailRequired else EmailInvalid
    ensures forall k :: k in r ==> r[k] != ""
    ensures forall k :: k in r ==> k.ProfileKey? && k.pf in {FirstName, LastName, Email, Phone}
  {
    ProfileErrorsFor(
      Trim(p.firstName) == "", Trim(p.lastName) == "",
      Trim(p.email) == "", !EmailMatches(p.email),
      p.phone != "" && !TenDigits(p.phone))
  }

  /** `validateProfileForm`: the shared errors become exactly the new
      profile errors (any password errors are dropped), and the result is
      whether there are none. */
  function ValidateProfile(page: Page): (r: (Page, bool))
    ensures r.0 == page.(errors := ProfileErrors(page.profile))
    ensures r.1 <==> |ProfileErrors(page.profile)| == 0
  {
    var errors := ProfileErrors(page.profile);
    (page.(errors := errors), |errors| == 0)
  }

  /** The profile form is accepted exactly when both names are non-blank, the
      e-mail has the `local@domain.tld` shape, and the phone is empty or ten
      digits. */
  lemma ValidateProfileAccepts(page: Page)
    ensures ValidateProfile(page).1 <==>
      && Trim(page.profile.firstName) != ""
      && Trim(page.profile.lastName) != ""
      && EmailPattern(page.profile.email)
      && (page.profile.phone == "" || TenDigits(page.profile.phone))
  {
    var p := page.profile;
    var r := ProfileErrors(p);
    EmailMatchesPattern(p.email);
    if EmailMatches(p.email) {
      EmailNotBlank(p.email);
    }
    if |r| != 0 {
      var k :| k in r;
    }
  }

  /** A string the e-mail pattern matches has non-white-space characters, so
      it does not trim to empty. */
  lemma EmailNotBlank(s: string)
    requires EmailMatches(s)
    ensures Trim(s) != ""
  {
    assert !IsWhiteSpace(s[0]);
  }

  /** `validatePasswordForm`'s `newErrors`: the current password must be
      non-empty, the new one at least six characters long, and the
      confirmation equal to it. */
  function PasswordErrors(p: PasswordData): (r: Errors)
    ensures PasswordKey(CurrentPassword) in r <==> p.currentPassword == ""
    ensures PasswordKey(NewPassword) in r <==> |p.newPassword| < 6
    ensures PasswordKey(NewPassword) in r ==> r[PasswordKey(NewPassword)] == if p.newPassword == "" then NewRequired else NewTooShort
    ensures PasswordKey(ConfirmNewPassword) in r <==> p.newPassword != p.confirmNewPassword
    ensures forall k :: k in r ==> r[k] != ""
    ensures forall k :: k in r ==> k.PasswordKey?
  {
    var e1 := Put(map[], p.currentPassword == "", PasswordKey(CurrentPassword), CurrentRequired);
    var e2 := Put(e1, |p.newPassword| < 6, PasswordKey(NewPassword), if p.newPassword == "" then NewRequired else NewTooShort);
    Put(e2, p.newPassword != p.confirmNewPassword, PasswordKey(ConfirmNewPassword), Mismatch)
  }

  /** `handlePasswordUpdate`: the errors become the password errors; when
      there are none the three password fields are emptied. The profile is
      never touched. */
  function PasswordSubmit(page: Page): (r: Page)
    ensures r.errors == PasswordErrors(page.passwords)
    ensures r.profile == page.profile
    ensures |r.errors| == 0 ==> r.passwords == EmptyPasswords
    ensures |r.errors| != 0 ==> r.passwords == page.passwords
  {
    var errors := PasswordErrors(page.passwords);
    if |errors| == 0 then Page(page.profile, EmptyPasswords, errors)
    else page.(errors := errors)
  }

  /** A password change goes through exactly when the current password is
      given, the new one has at least six characters, and the confirmation
      repeats it. */
  lemma PasswordSubmitAccepts(page: Page)
    ensures PasswordSubmit(page).passwords == EmptyPasswords && |PasswordSubmit(page).errors| == 0 <==>
      && page.passwords.currentPassword != ""
      && |page.passwords.newPassword| >= 6
      && page.passwords.newPassword == page.passwords.confirmNewPassword
  {
    var r := PasswordErrors(page.passwords);
    if |r| != 0 {
      var k :| k in r;
    }
  }
}

=== FILE: user_validation.dfy ===
/** The Joi schemas of server/src/validations/userValidation.js as rules over
    a parsed JSON body. Joi's semantics that matter here: a string schema
    rejects non-strings and the empty string before any other rule; rules run
    in the order written; a `valid(...)` list admits exactly its values;
    validation stops at the first failing key, keys being checked in schema
    order and unknown keys after all of them; defaults fill missing keys.
    Joi's `email()` and `date()` checks are left abstract as parameters. */
module UserValidation {
  import opened Options
  import opened JsText

  /** A property of the request body: absent, `null`, a string, or any
      other JSON value (number, boolean, array, object). */
  datatype Json = Missing | Null | Str(s: string) | Other

  type Body = map<string, Json>

  /** Why a key was rejected. */
  datatype Code = Required | NotString | Empty | TooShort | TooLong | BadEmail | BadPattern | NotValid | BadDate

  datatype Rejection =
    | Rejected(key: string, code: Code)
    | UnknownKeys(keys: set<string>)

  /** The string rules a key may carry: presence, `min`, `max`, and a shape. */
  datatype Shape = Text | EmailText | TenDigitText
  datatype StringRule = StringRule(required: bool, min: nat, max: Option<nat>, shape: Shape)

  function Field(body: Body, key: string): Json
  {
    if key in body then body[key] else Missing
  }

  /** The text of a string value, `""` otherwise. */
  function TextOf(v: Json): string
  {
    if v.Str? then v.s else ""
  }

  function OptionalText(v: Json): Option<string>
  {
    if v.Str? then Some(v.s) else None
  }

  /** A `Joi.string()` key with its rules, in Joi's checking order. */
  function CheckString(v: Json, rule: StringRule, isEmail: string -> bool): Option<Code>
  {
    match v
    case Missing => if rule.required then Some(Required) else None
    case Null => Some(NotString)
    case Other => Some(NotString)
    case Str(s) =>
      if s == "" then Some(Empty)
      else if |s| < rule.min then Some(TooShort)
      else if rule.max.Some? && |s| > rule.max.value then Some(TooLong)
      else match rule.shape
        case Text => None
        case EmailText => if isEmail(s) then None else Some(BadEmail)
        case TenDigitText => if TenDigits(s) then None else Some(BadPattern)
  }

  /** What a string rule admits, stated directly: absent when optional, or a
      non-empty string within the length bounds and of the right shape. */
  predicate StringAccepted(v: Json, rule: StringRule, isEmail: string -> bool)
  {
    || (v.Missing? && !rule.required)
    || (&& v.Str?
        && v.s != ""
        && rule.min <= |v.s|
        && (rule.max.Some? ==> |v.s| <= rule.max.value)
        && (rule.shape == EmailText ==> isEmail(v.s))
        && (rule.shape == TenDigitText ==> TenDigits(v.s)))
  }

  lemma CheckStringAccepts(v: Json, rule: StringRule, isEmail: string -> bool)
    ensures CheckString(v, rule, isEmail).None? <==> StringAccepted(v, rule, isEmail)
  {
  }

  /** `.valid(...values)` with an optional `.required()`. */
  function CheckValid(v: Json, values: set<string>, required: bool): Option<Code>
  {
    match v
    case Missing => if required then Some(Required) else None
    case Null => Some(NotValid)
    case Other => Some(NotValid)
    case Str(s) => if s in values then None else Some(NotValid)
  }

  /** `confirmPassword: Joi.string().valid(Joi.ref('password')).required()`. */
  function CheckConfirmation(v: Json, password: Json): Option<Code>
  {
    match v
    case Missing => Some(Required)
    case Null => Some(NotValid)
    case Other => Some(NotValid)
    case Str(s) => if password == Str(s) then None else Some(NotValid)
  }

  /** `Joi.date().optional()`. */
  function CheckDate(v: Json, isDate: Json -> bool): Option<Code>
  {
    if v.Missing? || isDate(v) then None else Some(BadDate)
  }

  /** The first failing check in order, with its key. */
  function FirstFailure(checks: seq<(string, Option<Code>)>): (r: Option<Rejection>)
    ensures r.None? <==> forall i :: 0 <= i < |checks| ==> checks[i].1.None?
    ensures r.Some? ==>
      exists i :: (0 <= i < |checks| && checks[i].1.Some? &&
        r.value == Rejected(checks[i].0, checks[i].1.value) &&
        forall j :: 0 <= j < i ==> checks[j].1.None?)
  {
    if |checks| == 0 then None
    else if checks[0].1.Some? then Some(Rejected(checks[0].0, checks[0].1.value))
    else
      var r := FirstFailure(checks[1..]);
      assert forall i :: 0 < i < |checks| ==> checks[i] == checks[1..][i - 1];
      r
  }

  /** The keys of `body` outside the schema. */
  function Unknown(body: Body, known: set<string>): set<string>
  {
    set k | k in body && k !in known
  }

  /** All checks passed, then the unknown-key check. */
  function Verdict(checks: seq<(string, Option<Code>)>, body: Body, known: set<string>): (r: Option<Rejection>)
    ensures r.None? <==> (forall i :: 0 <= i < |checks| ==> checks[i].1.None?) && Unknown(body, known) == {}
    ensures r.Some? && r.value.UnknownKeys? ==> forall i :: 0 <= i < |checks| ==> checks[i].1.None?
  {
    match FirstFailure(checks)
    case Some(rej) => Some(rej)
    case None => if Unknown(body, known) == {} then None else Some(UnknownKeys(Unknown(body, known)))
  }

  // -------------------------------------------------------------- register

  const NameRule := StringRule(true, 2, Some(50), Text)
  const OptionalNameRule := StringRule(false, 2, Some(50), Text)
  const EmailRule := StringRule(true, 0, None, EmailText)
  const OptionalEmailRule := StringRule(false, 0, None, EmailText)
  const PhoneRule := StringRule(false, 0, None, TenDigitText)
  const PasswordRule := StringRule(true, 6, None, Text)
  const Roles: set<string> := {"staff", "manager", "admin"}

  const RegisterKeys: set<string> := {"firstName", "lastName", "email", "phone", "password", "confirmPassword", "role"}

  /** A validated registration body, with the role default applied. */
  datatype RegisterInput = RegisterInput(
    firstName: string, lastName: string, email: string, phone: Option<string>,
    password: string, confirmPassword: string, role: string)

  function RegisterChecks(body: Body, isEmail: string -> bool): seq<(string, Option<Code>)>
  {
    [ ("firstName", CheckString(Field(body, "firstName"), NameRule, isEmail)),
      ("lastName", CheckString(Field(body, "lastName"), NameRule, isEmail)),
      ("email", CheckString(Field(body, "email"), EmailRule, isEmail)),
      ("phone", CheckString(Field(body, "phone"), PhoneRule, isEmail)),
      ("password", CheckString(Field(body, "password"), PasswordRule, isEmail)),
      ("confirmPassword", CheckConfirmation(Field(body, "confirmPassword"), Field(body, "password"))),
      ("role", CheckValid(Field(body, "role"), Roles, false)) ]
  }

  /** What `registerValidation` admits, stated key by key: names of 2 to 50
      characters, an e-mail, an optional ten-digit phone, a password of at
      least six characters repeated exactly, an optional role among staff,
      manager and admin, and nothing else. */
  predicate RegisterAccepts(body: Body, isEmail: string -> bool)
  {
    var first := Field(body, "firstName");
    var last := Field(body, "lastName");
    var email := Field(body, "email");
    var phone := Field(body, "phone");
    var password := Field(body, "password");
    var confirm := Field(body, "confirmPassword");
    var role := Field(body, "role");
    && first.Str? && 2 <= |first.s| <= 50
    && last.Str? && 2 <= |last.s| <= 50
    && email.Str? && email.s != "" && isEmail(email.s)
    && (phone.Missing? || (phone.Str? && TenDigits(phone.s)))
    && password.Str? && |password.s| >= 6
    && confirm == password
    && (role.Missing? || (role.Str? && role.s in Roles))
    && Unknown(body, RegisterKeys) == {}
  }

  /** `registerValidation.validate(body)`: the normalised value, or the first
      rejection. */
  function ValidateRegister(body: Body, isEmail: string -> bool): (r: Result<RegisterInput, Rejection>)
    ensures r.Ok? <==> RegisterAccepts(body, isEmail)
    ensures r.Ok? ==>
      && Field(body, "firstName") == Str(r.value.firstName)
      && Field(body, "lastName") == Str(r.value.lastName)
      && Field(body, "email") == Str(r.value.email)
      && Field(body, "password") == Str(r.value.password)
      && r.value.confirmPassword == r.value.password
      && (r.value.phone.Some? <==> Field(body, "phone").Str?)
      && (r.value.phone.Some? ==> Field(body, "phone") == Str(r.value.phone.value))
    ensures r.Ok? ==> r.value.role in Roles
    ensures r.Ok? && Field(body, "role").Missing? ==> r.value.role == "staff"
    ensures r.Ok? && Field(body, "role").Str? ==> r.value.role == Field(body, "role").s
    ensures r.Err? && r.error.UnknownKeys? ==> r.error.keys == Unknown(body, RegisterKeys) && r.error.keys != {}
  {
    var checks := RegisterChecks(body, isEmail);
    var role := Field(body, "role");
    ConfirmationAccepts(Field(body, "confirmPassword"), Field(body, "password"));
    RoleAccepts(role);
    CheckStringAccepts(Field(body, "firstName"), NameRule, isEmail);
    CheckStringAccepts(Field(body, "lastName"), NameRule, isEmail);
    CheckStringAccepts(Field(body, "email"), EmailRule, isEmail);
    CheckStringAccepts(Field(body, "phone"), PhoneRule, isEmail);
    CheckStringAccepts(Field(body, "password"), PasswordRule, isEmail);
    AllPass(checks);
    match Verdict(checks, body, RegisterKeys)
    case Some(rej) => Err(rej)
    case None =>
      Ok(RegisterInput(
        TextOf(Field(body, "firstName")), TextOf(Field(body, "lastName")), TextOf(Field(body, "email")),
        OptionalText(Field(body, "phone")), TextOf(Field(body, "password")),
        TextOf(Field(body, "confirmPassword")), if role.Str? then role.s else "staff"))
  }

  /** Seven checks pass exactly when each one does. */
  lemma AllPass(checks: seq<(string, Option<Code>)>)
    requires |checks| == 7
    ensures (forall i :: 0 <= i < |checks| ==> checks[i].1.None?) <==>
      checks[0].1.None? && checks[1].1.None? && checks[2].1.None? && checks[3].1.None? &&
      checks[4].1.None? && checks[5].1.None? && checks[6].1.None?
  {
  }

  lemma ConfirmationAccepts(v: Json, password: Json)
    ensures CheckConfirmation(v, password).None? <==> v.Str? && v == password
  {
  }

  lemma RoleAccepts(v: Json)
    ensures CheckValid(v, Roles, false).None? <==> v.Missing? || (v.Str? && v.s in Roles)
  {
  }

  /** A body that passes, with its confirmation changed to differ from the
      password, is rejected at `confirmPassword` and nowhere earlier. */
  lemma RegisterMismatchRejected(body: Body, isEmail: string -> bool)
    requires RegisterAccepts(body, isEmail)
    ensures
      var bad := body["confirmPassword" := Str(Field(body, "password").s + "x")];
      ValidateRegister(bad, isEmail) == Err(Rejected("confirmPassword", NotValid))
  {
    var bad := body["confirmPassword" := Str(Field(body, "password").s + "x")];
    var checks := RegisterChecks(bad, isEmail);
    CheckStringAccepts(Field(bad, "firstName"), NameRule, isEmail);
    CheckStringAccepts(Field(bad, "lastName"), NameRule, isEmail);
    CheckStringAccepts(Field(bad, "email"), EmailRule, isEmail);
    CheckStringAccepts(Field(bad, "phone"), PhoneRule, isEmail);
    CheckStringAccepts(Field(bad, "password"), PasswordRule, isEmail);
    assert Field(bad, "password") == Field(body, "password");
    assert checks[5].1 == Some(NotValid);
    assert FirstFailure(checks) == Some(Rejected("confirmPassword", NotValid)) by {
      assert checks[..5] + checks[5..] == checks;
      FirstFailureAt(checks, 5);
    }
  }

  /** When every check before position `i` passes and the one at `i` fails,
      that one is reported. */
  lemma {:induction false} FirstFailureAt(checks: seq<(string, Option<Code>)>, i: nat)
    requires i < |checks| && checks[i].1.Some?
    requires forall j :: 0 <= j < i ==> checks[j].1.None?
    ensures FirstFailure(checks) == Some(Rejected(checks[i].0, checks[i].1.value))
  {
    if i > 0 {
      assert checks[1..][i - 1] == checks[i];
      FirstFailureAt(checks[1..], i - 1);
    }
  }

  // ----------------------------------------------------------------- login

  const LoginKeys: set<string> := {"email", "password"}
  const LoginPasswordRule := StringRule(true, 0, None, Text)

  datatype LoginInput = LoginInput(email: string, password: string)

  /** `loginValidation`: an e-mail and a non-empty password, with no length
      rule on the password, and nothing else. */
  function ValidateLogin(body: Body, isEmail: string -> bool): (r: Result<LoginInput, Rejection>)
    ensures r.Ok? <==>
      && Field(body, "email").Str? && Field(body, "email").s != "" && isEmail(Field(body, "email").s)
      && Field(body, "password").Str? && Field(body, "password").s != ""
      && Unknown(body, LoginKeys) == {}
    ensures r.Ok? ==> Field(body, "email") == Str(r.value.email) && Field(body, "password") == Str(r.value.password)
  {
    var checks := [
      ("email", CheckString(Field(body, "email"), EmailRule, isEmail)),
      ("password", CheckString(Field(body, "password"), LoginPasswordRule, isEmail)) ];
    CheckStringAccepts(Field(body, "email"), EmailRule, isEmail);
    CheckStringAccepts(Field(body, "password"), LoginPasswordRule, isEmail);
    assert (forall i :: 0 <= i < |checks| ==> checks[i].1.None?) <==> checks[0].1.None? && checks[1].1.None?;
    match Verdict(checks, body, LoginKeys)
    case Some(rej) => Err(rej)
    case None => Ok(LoginInput(TextOf(Field(body, "email")), TextOf(Field(body, "password"))))
  }

  // -------------------------------------------------------- profile update

  const UpdateKeys: set<string> := {"firstName", "lastName", "email", "phone", "address", "dateOfBirth"}
  const AddressRule := StringRule(false, 0, None, Text)

  /** A validated profile update: each key is optional. */
  datatype UpdateInput = UpdateInput(
    firstName: Option<string>, lastName: Option<string>, email: Option<string>,
    phone: Option<string>, address: Option<string>, dateOfBirth: Json)

  /** What `updateProfileValidation` admits: every key optional, and a key
      that is present obeys the same rule as at registration (names of 2 to
      50 characters, an e-mail, ten digits), a non-empty address, a date. */
  predicate UpdateAccepts(body: Body, isEmail: string -> bool, isDate: Json -> bool)
  {
    var first := Field(body, "firstName");
    var last := Field(body, "lastName");
    var email := Field(body, "email");
    var phone := Field(body, "phone");
    var address := Field(body, "address");
    var dob := Field(body, "dateOfBirth");
    && (first.Missing? || (first.Str? && 2 <= |first.s| <= 50))
    && (last.Missing? || (last.Str? && 2 <= |last.s| <= 50))
    && (email.Missing? || (email.Str? && email.s != "" && isEmail(email.s)))
    && (phone.Missing? || (phone.Str? && TenDigits(phone.s)))
    && (address.Missing? || (address.Str? && address.s != ""))
    && (dob.Missing? || isDate(dob))
    && Unknown(body, UpdateKeys) == {}
  }

  function ValidateUpdate(body: Body, isEmail: string -> bool, isDate: Json -> bool): (r: Result<UpdateInput, Rejection>)
    ensures r.Ok? <==> UpdateAccepts(body, isEmail, isDate)
    ensures r.Ok? ==>
      && r.value.firstName == OptionalText(Field(body, "firstName"))
      && r.value.lastName == OptionalText(Field(body, "lastName"))
      && r.value.email == OptionalText(Field(body, "email"))
      && r.value.phone == OptionalText(Field(body, "phone"))
      && r.value.address == OptionalText(Field(body, "address"))
      && r.value.dateOfBirth == Field(body, "dateOfBirth")
  {
    var checks := [
      ("firstName", CheckString(Field(body, "firstName"), OptionalNameRule, isEmail)),
      ("lastName", CheckString(Field(body, "lastName"), OptionalNameRule, isEmail)),
      ("email", CheckString(Field(body, "email"), OptionalEmailRule, isEmail)),
      ("phone", CheckString(Field(body, "phone"), PhoneRule, isEmail)),
      ("address", CheckString(Field(body, "address"), AddressRule, isEmail)),
      ("dateOfBirth", CheckDate(Field(body, "dateOfBirth"), isDate)) ];
    CheckStringAccepts(Field(body, "firstName"), OptionalNameRule, isEmail);
    CheckStringAccepts(Field(body, "lastName"), OptionalNameRule, isEmail);
    CheckStringAccepts(Field(body, "email"), OptionalEmailRule, isEmail);
    CheckStringAccepts(Field(body, "phone"), PhoneRule, isEmail);
    CheckStringAccepts(Field(body, "address"), AddressRule, isEmail);
    assert (forall i :: 0 <= i < |checks| ==> checks[i].1.None?) <==>
      checks[0].1.None? && checks[1].1.None? && checks[2].1.None? &&
      checks[3].1.None? && checks[4].1.None? && checks[5].1.None?;
    match Verdict(checks, body, UpdateKeys)
    case Some(rej) => Err(rej)
    case None =>
      Ok(UpdateInput(
        OptionalText(Field(body, "firstName")), OptionalText(Field(body, "lastName")),
        OptionalText(Field(body, "email")), OptionalText(Field(body, "phone")),
        OptionalText(Field(body, "address")), Field(body, "dateOfBirth")))
  }

  /** The empty update is always accepted. */
  lemma EmptyUpdateAccepted(isEmail: string -> bool, isDate: Json -> bool)
    ensures ValidateUpdate(map[], isEmail, isDate).Ok?
  {
    assert Unknown(map[], UpdateKeys) == {};
  }
}
